=== FILE: README.md ===
# geng: the deterministic core, modelled in Dafny

geng is a synthetic-medical-data application. It has a React front end and a Flask back end. This project models the part of it that is plain logic and states what that logic guarantees:

- **The six table pages** (patient info, medications and treatments, diagnoses and conditions, care plans, vitals and observations, intake and output). Each page keeps one map per concern, keyed by section: record count, warning flag, validation toggle, selected column, loading flag and error text. Handlers update the maps with spread updates.
  - `DownloadControls` models these handlers once, as pure state transitions, and proves a page invariant over every reachable state.
  - One module per page wires in that page's sections, backend table names, display-name chains and column lists.
- **The HTTP helper** of the pages (`Api`). It covers the `/generate` request body, the choice of error message and the CSV download.
- **The X-ray and MRI pages** (`ImageGeneration`). This covers the count input, the time-warning tiers, the generate guard and the button state.
- **The literature-review page** (`LiteratureReview`). This covers query formatting, result normalisation, author lines and the page state across searches.
- **The validation view** (`DataValidation`). This covers decoding the payload, display defaults, the chart and what is rendered.
- **The back end**:
  - `strip_ns` and the PMC text extraction over an element tree (`PmcText`);
  - `make_json_serializable` over a Python value type (`Serializable`);
  - the per-paper assembly of `/search` (`PubMed`);
  - the two `/search` routes of `app.py` and `search.py` (`SearchRoutes`);
  - the synthesizer registry, `/tables`, `/generate` and the image-archive entry names (`GenerationRoutes`).

Everything outside the process is a parameter of the functions that need it:

- `fetch`, `axios.post`, `response.json()` and `atob` on the front end;
- `decodeURIComponent` and `JSON.parse` in the validation view;
- the NCBI services, the XML parser, the summariser and Python's `repr` in `/search`;
- the synthesizer directory listing, the SDV samplers, the evaluation library and base64 in `/generate`.

Network outcomes and thrown exceptions are `Result` values. A Flask route's answer is a `Reply`: a JSON body with a status, or an uncaught exception (`Crash`).

Shared modules:

| module | contents |
|---|---|
| `Wrappers` | `Option` and `Result` |
| `Text` | white space (JavaScript and Python), `trim`/`strip`, `join` |
| `Decimal` | decimal integer text: `String(n)`/`str(n)`, JavaScript's `parseInt`, Python's `int(s)` |
| `JsValues` | JSON-like JavaScript values, truthiness, property reads |
| `PyValues` | Python values as the back end meets them, `dict.get`, truthiness, `int()`, `Reply` |
| `ColumnMapping` | the column-to-display-name object literals |
| `StepOutcomes` | the outcomes of a loop whose iterations may raise |

The chart labels come from the histogram's bin edges, not its bins, and a NumPy histogram with `n` counts has `n + 1` edges. So there is one more label than there are counts. `DataValidation.LabelsOutnumberCounts` states the `n + 1`.

## Model

| member | source | states |
|---|---|---|
| Api.RequestBody | frontend/src/utils/api.js:5-13 | `table_name` and `num_rows` are always sent as passed. `validation_column` is present exactly when the argument is truthy, and is then equal to it. No other key is sent. |
| Api.FailureMessage | frontend/src/utils/api.js:23-26 | For an object body, a failed response throws the server's truthy `error` field, otherwise 'Failed to generate data'. A `null` or `undefined` body throws the TypeError of reading `.error` instead. |
| Api.Outcome | frontend/src/utils/api.js:23-33 | Only an ok response with a JSON body succeeds, and its body is returned unchanged. A network failure, an unparsable body and a non-ok status are each rethrown with their own message. |
| Api.GenerateSyntheticData | frontend/src/utils/api.js:3-34 | The posted body always carries `table_name` and `num_rows` as given. It carries `validation_column` exactly when that argument is truthy. The call resolves exactly when the response is ok and its JSON parses, and then to that JSON. Otherwise it rejects with the network error, the parse error, or the server's `error` text or the default message. |
| Api.DownloadCsv | frontend/src/utils/api.js:36-51 | The saved file is named exactly `fileName` and holds the decoded text. A decoding failure is rethrown with its own message. |
| DownloadControls.Initial | frontend/src/DataGeneration/PatientInfo/PatientInfo.js:102-131 | All six maps start with exactly the page's sections as keys. Each section starts at 10 records, with no warning, validation off, no column selected, not loading and no error. |
| DownloadControls.ChangeCount | frontend/src/DataGeneration/PatientInfo/PatientInfo.js:133-143 | The count becomes `parseInt(value)`. The warning is set exactly when that count is NaN or ≤ 0. The other four maps, and every other section, are unchanged. |
| DownloadControls.ChangeColumn | frontend/src/DataGeneration/PatientInfo/PatientInfo.js:145-150 | Only the section's selected column changes. |
| DownloadControls.ToggleValidation | frontend/src/DataGeneration/PatientInfo/PatientInfo.js:220-228 | The toggle takes the checkbox state. Checking it with an empty selection selects the first option. Otherwise the selection is kept, including on uncheck. No other section changes. |
| DownloadControls.CountField | frontend/src/DataGeneration/VitalAndObv/VitalAndObv.js:145 | The count field shows '' exactly when the count is missing, NaN or 0, and the stored count otherwise. |
| DownloadControls.Begin | frontend/src/DataGeneration/PatientInfo/PatientInfo.js:155-156 | While the request is pending, the section is loading and its error is cleared. Nothing else changes. |
| DownloadControls.Settle | frontend/src/DataGeneration/PatientInfo/PatientInfo.js:179-183 | Loading ends in every case. A failure's message becomes the section's error. |
| DownloadControls.Download | frontend/src/DataGeneration/PatientInfo/PatientInfo.js:152-184 | A set warning makes the click a no-op. Otherwise: the body carries the count, and the column only when validation is on; loading is on during the request and off after it; the error is cleared, then set to the failure message on failure. On success the CSV is saved as `<tableName>_synthetic.csv`, and the view opens exactly when the page's condition holds, under the page's names. Only the clicked section changes. |
| DownloadControls.InitialInv | frontend/src/DataGeneration/PatientInfo/PatientInfo.js:102-131 | The initial state satisfies the page invariant. Every warning agrees with its count, and every selection is empty or one of the options. |
| DownloadControls.ChangeCountInv | frontend/src/DataGeneration/PatientInfo/PatientInfo.js:133-143 | A count edit keeps the invariant. |
| DownloadControls.ChangeColumnInv | frontend/src/DataGeneration/PatientInfo/PatientInfo.js:145-150 | Picking one of the offered columns keeps the invariant. |
| DownloadControls.ToggleValidationInv | frontend/src/DataGeneration/PatientInfo/PatientInfo.js:220-228 | Toggling keeps the invariant. While validation is on, the selection is always one of the options. |
| DownloadControls.DownloadInv | frontend/src/DataGeneration/PatientInfo/PatientInfo.js:152-184 | Both the in-flight state and the final state of a download keep the invariant. |
| DownloadControls.DownloadSendsValidRequest | frontend/src/DataGeneration/PatientInfo/PatientInfo.js:153-160 | Under the invariant, a download that is not blocked asks for a positive number of rows. It asks for either no column or one of the section's own columns. |
| DownloadControls.StepInv | frontend/src/DataGeneration/PatientInfo/PatientInfo.js:133-228 | Every handler keeps the invariant. |
| DownloadControls.RunKeepsInv | frontend/src/DataGeneration/PatientInfo/PatientInfo.js:133-228 | Any sequence of user actions keeps the invariant. |
| DownloadControls.ReachableWarning | frontend/src/DataGeneration/PatientInfo/PatientInfo.js:139-142 | In every reachable state, a section's warning equals "count is NaN or ≤ 0". |
| ColumnMapping.EntryIffKey | frontend/src/DataGeneration/CareAndNurse/CareAndNurse.js:57-61 | A column has a mapping entry exactly when `Object.keys` lists it. |
| ColumnMapping.WithFallback | frontend/src/DataGeneration/PatientInfo/PatientInfo.js:173 | `mapping[column] \|\| column`: the non-empty display name when there is one, otherwise the raw column. |
| ColumnMapping.FallbackIffUnlisted | frontend/src/DataGeneration/PatientInfo/PatientInfo.js:173 | When every display name is non-empty, a listed column always shows its display name. |
| PatientInfo.TableDisplay | frontend/src/DataGeneration/PatientInfo/PatientInfo.js:170-171 | 'Patient Data' exactly for `patient` and 'Apache APS Data' exactly for `apacheAps`. Every other section gets 'Apache Prediction Data'. |
| PatientInfo.Download | frontend/src/DataGeneration/PatientInfo/PatientInfo.js:518-828 | Sections are wired patient→patient, apacheAps→apacheApsVar, apachePredVar→apachePredVar. Request and file use the wired table. The view opens exactly when validation is on, with the page's table name and the mapped column name or the raw column. |
| PatientInfo.OptionsAreMappingKeys | frontend/src/DataGeneration/PatientInfo/PatientInfo.js:258-337 | Each explicit column array is exactly its mapping's keys, in order. Every display name is non-empty. |
| PatientInfo.OptionDisplayName | frontend/src/DataGeneration/PatientInfo/PatientInfo.js:173 | For every offered column the view shows the mapping's own display name, never the fallback. |
| PatientInfo.InitialInv | frontend/src/DataGeneration/PatientInfo/PatientInfo.js:102-131 | The page's initial state satisfies the invariant with its own column lists. |
| MediAndTreat.TableDisplay | frontend/src/DataGeneration/MediAndTreat/MediAndTreat.js:152-154 | The fixed chain of names. Any section other than the first three gets 'Treatment Data'. |
| MediAndTreat.Download | frontend/src/DataGeneration/MediAndTreat/MediAndTreat.js:134-167 | Sections are wired to admissiondrug, infusiondrug, medication and treatment. Request, file name and view names are as for the patient page. |
| MediAndTreat.OptionsAreMappingKeys | frontend/src/DataGeneration/MediAndTreat/MediAndTreat.js:241-294 | Each column array is exactly its mapping's keys, and every display name is non-empty. |
| MediAndTreat.OptionDisplayName | frontend/src/DataGeneration/MediAndTreat/MediAndTreat.js:156 | Every offered column shows its own display name. |
| MediAndTreat.InitialInv | frontend/src/DataGeneration/MediAndTreat/MediAndTreat.js:78-113 | The initial state satisfies the invariant. |
| DiaAndCond.TableDisplay | frontend/src/DataGeneration/DiaAndCond/DiaAndCond.js:124-125 | diagnosis→'Diagnosis Data' and allergy→'Allergy Data'. Anything else gets 'Admission Diagnosis Data'. |
| DiaAndCond.Download | frontend/src/DataGeneration/DiaAndCond/DiaAndCond.js:106-138 | The table name is the section key. The column display is the mapping entry or the raw column. The view opens exactly when validation is on. |
| DiaAndCond.OptionsAreMappingKeys | frontend/src/DataGeneration/DiaAndCond/DiaAndCond.js:212-245 | Each column array is exactly its mapping's keys, and every display name is non-empty. |
| DiaAndCond.OptionDisplayName | frontend/src/DataGeneration/DiaAndCond/DiaAndCond.js:127 | Every offered column shows its own display name. |
| DiaAndCond.InitialInv | frontend/src/DataGeneration/DiaAndCond/DiaAndCond.js:56-85 | The initial state satisfies the invariant. |
| CareAndNurse.GetTableName | frontend/src/DataGeneration/CareAndNurse/CareAndNurse.js:265-280 | A fixed name for each of the five sections, and '' exactly for any other section. |
| CareAndNurse.Download | frontend/src/DataGeneration/CareAndNurse/CareAndNurse.js:126-174 | A set warning blocks the click. The request and the file use the section's table. |
| CareAndNurse.DownloadView | frontend/src/DataGeneration/CareAndNurse/CareAndNurse.js:140-166 | After a save, the view opens exactly when validation is on. Its table name is the section's non-empty name, and its column name is the mapping's or the raw column. |
| CareAndNurse.TablesNamedBySection | frontend/src/DataGeneration/CareAndNurse/CareAndNurse.js:352-598 | The section key is passed unchanged as the backend table name for all five sections. |
| CareAndNurse.SectionsAgree | frontend/src/DataGeneration/CareAndNurse/CareAndNurse.js:57-61 | The column lists are the mappings' keys in declaration order, non-empty and with named columns. |
| CareAndNurse.OptionDisplayName | frontend/src/DataGeneration/CareAndNurse/CareAndNurse.js:163 | Every offered column shows its own display name. |
| CareAndNurse.CheckboxPicksFirstKey | frontend/src/DataGeneration/CareAndNurse/CareAndNurse.js:227-235 | Checking the box with nothing selected selects the first key of the section's mapping. |
| CareAndNurse.InitialInv | frontend/src/DataGeneration/CareAndNurse/CareAndNurse.js:64-105 | The initial state satisfies the invariant. |
| VitalAndObv.TableDisplay | frontend/src/DataGeneration/VitalAndObv/VitalAndObv.js:73-75 | The three fixed names. An unknown section shows its own key. |
| VitalAndObv.ColumnDisplay | frontend/src/DataGeneration/VitalAndObv/VitalAndObv.js:77-79 | The display name comes from the section's mapping with no fallback. An unknown section shows the raw column. |
| VitalAndObv.Download | frontend/src/DataGeneration/VitalAndObv/VitalAndObv.js:56-91 | A set warning blocks the click. The request and the file use the section's table. |
| VitalAndObv.DownloadView | frontend/src/DataGeneration/VitalAndObv/VitalAndObv.js:70-80 | After a save, the view opens exactly when validation is on and the selected column is non-empty. It uses the page's display names. |
| VitalAndObv.TablesNamedBySection | frontend/src/DataGeneration/VitalAndObv/VitalAndObv.js:270-410 | Each section asks for the table of its own name. |
| VitalAndObv.SectionsAgree | frontend/src/DataGeneration/VitalAndObv/VitalAndObv.js:126-128 | The column lists are the mappings' keys, non-empty and with named columns. |
| VitalAndObv.OptionDisplayName | frontend/src/DataGeneration/VitalAndObv/VitalAndObv.js:77-79 | The fallback-free lookup gives a non-empty name for every offered column. |
| VitalAndObv.InitialInv | frontend/src/DataGeneration/VitalAndObv/VitalAndObv.js:6-35 | The initial state satisfies the invariant. |
| InAndOut.Download | frontend/src/DataGeneration/InAndOut/InAndOut.js:44-75 | The single section asks for `intakeOutput`. The view opens exactly when validation is on and a column is selected, titled 'Intake Output Data'. |
| InAndOut.InitialInv | frontend/src/DataGeneration/InAndOut/InAndOut.js:6-23 | The page has exactly the one section, and its initial state satisfies the invariant. |
| InAndOut.CheckboxPicksIntakeOutputId | frontend/src/DataGeneration/InAndOut/InAndOut.js:128-134 | Checking the box with nothing selected picks `intakeoutputid`. |
| InAndOut.OptionDisplayName | frontend/src/DataGeneration/InAndOut/InAndOut.js:63 | Every offered column has a non-empty display name. |
| Decimal.ParseIntShow | frontend/src/DataGeneration/PatientInfo/PatientInfo.js:134 | `parseInt` reads back the decimal text of every integer. Trailing non-digit text is ignored. |
| Decimal.ParseIntSkipsSpace | frontend/src/DataGeneration/PatientInfo/PatientInfo.js:134 | Leading white space never changes what `parseInt` reads. |
| Decimal.NoDigitsIsNaN | frontend/src/DataGeneration/PatientInfo/PatientInfo.js:134 | '', a lone '-' and 'abc' all read as NaN. |
| ImageGeneration.InputChange | frontend/src/XRayData/XRayData.js:45-55 | An empty field gives the empty state. Non-numeric text leaves the count alone. A number is stored clamped to at most 1000, with no lower clamp. |
| ImageGeneration.InputsKeepBound | frontend/src/XRayData/XRayData.js:45-55 | Typing never takes a bounded count above 1000. |
| ImageGeneration.InputsStayBounded | frontend/src/components/MRIData.js:45-55 | Every count reachable from the initial 1 is empty or ≤ 1000. |
| ImageGeneration.TimeWarning | frontend/src/XRayData/XRayData.js:32-34 | The 'select at least 1 image' hint shows exactly when the count is empty or 0. |
| ImageGeneration.WarningTiers | frontend/src/XRayData/XRayData.js:32-43 | Each tier covers exactly its range (>500, 101-500, 51-100, none). The hint never promises a shorter wait for more images. |
| ImageGeneration.Generate | frontend/src/XRayData/XRayData.js:9-29 | An empty or zero count sets the error and requests nothing. Otherwise loading is set, the error is cleared, and the browser is sent to the page's service with the current count; a navigation that throws gives the page's failure text instead. The count is never changed. |
| ImageGeneration.TimeWarningText | frontend/src/XRayData/XRayData.js:32-43 | `getTimeWarning()` is `null` exactly when no tier applies. |
| ImageGeneration.WarningTextsDistinct | frontend/src/XRayData/XRayData.js:32-43 | Different tiers show different hint texts. |
| ImageGeneration.RequestUrlInjective | frontend/src/XRayData/XRayData.js:20 | The address names the service and the count, so two different requests never share an address. |
| ImageGeneration.DelayReenables | frontend/src/XRayData/XRayData.js:16-23 | A second after a successful click, the button is enabled again, the count is unchanged and no error is shown. |
| ImageGeneration.DisabledIffRefused | frontend/src/components/MRIData.js:113 | When not loading, the button is disabled exactly when a click would be refused by the guard. |
| ImageGeneration.NegativeCountRequested | frontend/src/XRayData/XRayData.js:10-13 | As written, "-5" is stored, shows no hint, enables the button and is requested. |
| ImageGeneration.GenerateChecked | frontend/src/XRayData/XRayData.js:10-13 | The intended guard refuses every count below 1 and otherwise behaves as `handleGenerate`. |
| ImageGeneration.CheckedRequestInRange | frontend/src/XRayData/XRayData.js:10-13 | With the intended guard, every requested count lies in 1..1000. |
| LiteratureReview.CollapseNoSpace | frontend/src/LitreatureReview/LiteratureReview.js:23 | After `replace(/\s+/g, '_')` no white space is left. |
| LiteratureReview.WordsCoverVisible | frontend/src/LitreatureReview/LiteratureReview.js:23 | The words of a query are exactly its non-white-space characters, in order. |
| LiteratureReview.CollapseTrimmed | frontend/src/LitreatureReview/LiteratureReview.js:23 | Collapsing the runs of a trimmed text joins its words with single underscores. |
| LiteratureReview.FormatQueryJoinsWords | frontend/src/LitreatureReview/LiteratureReview.js:23 | The formatted query is the words of the query joined by '_'. |
| LiteratureReview.FormatQueryKeepsText | frontend/src/LitreatureReview/LiteratureReview.js:23 | The formatted query has no white space and keeps every other character, in order. |
| LiteratureReview.FormatQueryIdempotent | frontend/src/LitreatureReview/LiteratureReview.js:23 | Formatting twice is formatting once. |
| LiteratureReview.ResultOptionsRange | frontend/src/LitreatureReview/LiteratureReview.js:7-13 | The select offers exactly 1..20, in increasing order, and the initial 10 is among them. |
| LiteratureReview.Normalize | frontend/src/LitreatureReview/LiteratureReview.js:44-52 | A paper gets the seven keys in order, each holding its own value when truthy and its default otherwise. A null or missing paper throws. |
| LiteratureReview.DefaultsTruthy | frontend/src/LitreatureReview/LiteratureReview.js:45-51 | Every default is truthy. |
| LiteratureReview.NormalizedProp | frontend/src/LitreatureReview/LiteratureReview.js:44-52 | Each property of a normalised paper reads back as built. |
| LiteratureReview.NormalizedFieldsTruthy | frontend/src/LitreatureReview/LiteratureReview.js:44-52 | Every property of a normalised paper is truthy, and a truthy original value is kept. |
| LiteratureReview.NormalizeIdempotent | frontend/src/LitreatureReview/LiteratureReview.js:44-52 | Normalising a normalised paper changes nothing. |
| LiteratureReview.NormalizeAll | frontend/src/LitreatureReview/LiteratureReview.js:44-52 | The mapping keeps length and order. It fails exactly when some paper throws. |
| LiteratureReview.Papers | frontend/src/LitreatureReview/LiteratureReview.js:42-56 | An empty or missing list means "no results". A non-empty array is normalised paper by paper. A non-array with a positive length throws. |
| LiteratureReview.Settled | frontend/src/LitreatureReview/LiteratureReview.js:40-67 | Loading ends. A rejection gives 'Failed to search: ' plus the message. "No results" gives its fixed text. Papers are shown with the error untouched. |
| LiteratureReview.Submit | frontend/src/LitreatureReview/LiteratureReview.js:15-68 | Error and results are cleared and loading is set first. The formatted query and the count are posted. Afterwards the page shows papers or an error, never both. |
| LiteratureReview.SplitAuthors | frontend/src/LitreatureReview/LiteratureReview.js:188-191 | At most four authors are named, as a prefix of the list. The rest are counted, and the count is positive exactly when there are more than four authors. |
| LiteratureReview.AuthorsText | frontend/src/LitreatureReview/LiteratureReview.js:188-195 | A falsy value shows 'No authors listed'. An array shows its line. Any other value throws. |
| LiteratureReview.NormalizedAuthorLine | frontend/src/LitreatureReview/LiteratureReview.js:188-195 | After normalisation 'No authors listed' never shows. A paper without authors shows an empty line. |
| LiteratureReview.PapersDisplayable | frontend/src/LitreatureReview/LiteratureReview.js:42-53 | Papers handed to the page are non-empty, and every card property is truthy. |
| LiteratureReview.SubmitInv | frontend/src/LitreatureReview/LiteratureReview.js:15-68 | A submission keeps the page invariant and posts a query without white space and a count in 1..20. |
| LiteratureReview.StepInv | frontend/src/LitreatureReview/LiteratureReview.js:6-68 | Typing, picking a count and submitting each keep the invariant. |
| LiteratureReview.RunKeepsInv | frontend/src/LitreatureReview/LiteratureReview.js:6-68 | Every reachable state keeps the invariant. |
| DataValidation.ErrorText | frontend/src/DataGeneration/DataValidation/DataValidation.js:100-103 | The error text is never empty. It is the message when there is one. |
| DataValidation.Checked | frontend/src/DataGeneration/DataValidation/DataValidation.js:43-58 | Succeeds exactly when decoding and parsing succeed and the payload is an object with a truthy `data.report`. Otherwise it fails with the decoder's or the parser's error. A falsy or non-object payload gives 'Invalid validation data format', and one without a truthy `data.report` gives 'Invalid validation data structure'. |
| DataValidation.Display | frontend/src/DataGeneration/DataValidation/DataValidation.js:62-66 | The table name falls back to 'Unknown Table'. The column falls back to 'Unknown Column'. The column display falls back to the column (or its fallback). All three names are truthy. |
| DataValidation.Labels | frontend/src/DataGeneration/DataValidation/DataValidation.js:74-76 | There is one label per bin edge: each edge is paired with the next, and the last edge stands alone. A non-number edge throws. |
| DataValidation.Datasets | frontend/src/DataGeneration/DataValidation/DataValidation.js:77-92 | There are exactly two datasets, real first and synthetic second, each carrying its counts unchanged. |
| DataValidation.BuildChart | frontend/src/DataGeneration/DataValidation/DataValidation.js:68-99 | No chart, and no error, unless both histograms have edges and counts. A built chart has the labels of the real edges and the two datasets. |
| DataValidation.Load | frontend/src/DataGeneration/DataValidation/DataValidation.js:32-104 | A missing parameter gives 'No validation data provided'. A rejected payload shows its message, or the fallback text, and nothing else. For an accepted payload, the chart is what its report builds; when building throws, that message becomes the error. An error is never empty. Without an error, the data and the display names come from the checked payload. A chart is only present without an error. |
| DataValidation.Panel | frontend/src/DataGeneration/DataValidation/DataValidation.js:174 | A report panel appears exactly for a truthy list with a positive length. |
| DataValidation.Render | frontend/src/DataGeneration/DataValidation/DataValidation.js:134-199 | A non-empty error wins. Loading shows exactly while there is no error and no truthy data or display names. Once loaded, 'No Validation Report' shows exactly when the report is falsy. The results carry the display names, the chart, and the diagnostic and quality panels of the report. |
| DataValidation.NoReportUnreachable | frontend/src/DataGeneration/DataValidation/DataValidation.js:149-158 | After loading, the page shows an error or the results. The "No Validation Report" screen cannot be reached. |
| DataValidation.MissingParameter | frontend/src/DataGeneration/DataValidation/DataValidation.js:38-41 | A missing or empty parameter renders the "no data" error. |
| DataValidation.LabelsOutnumberCounts | frontend/src/DataGeneration/DataValidation/DataValidation.js:74-76 | For a NumPy histogram, a chart has one more label than counts. |
| DataValidation.ViewShowsPageInfo | frontend/src/DataGeneration/DataValidation/DataValidation.js:60-66 | What a table page sends arrives intact: the view shows the page's table name and column name, or their fallbacks, and reaches the results whenever the chart can be built. |
| DataValidation.InfoJsonProps | frontend/src/DataGeneration/PatientInfo/PatientInfo.js:168-175 | The page's `validationInfo` object carries data, table name, column and column display, and leaves out an undefined display name. |
| PmcText.StripNsSuffix | backend/app.py:77 | `strip_ns` gives the longest suffix without '}': a suffix, free of '}', and either the whole tag or preceded by '}'. |
| PmcText.StripNsPlain | backend/search.py:45 | A tag without '}' is returned whole. |
| PmcText.StripNsQualified | backend/app.py:77 | `{ns}local` strips to `local`, whatever the namespace holds. |
| PmcText.StripNsIdempotent | backend/app.py:77 | Stripping twice is stripping once. |
| PmcText.Iter | backend/app.py:79 | `root.iter()` starts with the root itself. |
| PmcText.OwnPiece | backend/app.py:80-82 | An element contributes exactly one piece, its stripped text, when its local name is p, title or sec and its text is non-empty. Otherwise it contributes none. |
| PmcText.PiecesIsTreePieces | backend/app.py:79-82 | Scanning the pre-order listing collects exactly the tree's pieces: an element's own text before its children's, left to right. |
| PmcText.CollectTexts | backend/app.py:78-82 | The loop collects exactly the pieces of the walked elements, in order. |
| PmcText.ExtractText | backend/app.py:74-85 | A parse error gives None. Otherwise the tree's pieces are joined by single spaces. |
| PmcText.LeafText | backend/search.py:48-52 | A selected childless root yields its stripped text. |
| PmcText.UnselectedAddsNothing | backend/search.py:49-51 | An element that is not selected adds nothing of its own. |
| Serializable.DictSet | backend/app.py:89 | `d[key] = value`: the key then maps to the value. Other keys keep theirs. A new key is appended, and an existing one keeps its place. |
| Serializable.Record | backend/app.py:89 | Every value of a `to_dict` record is a cell of its row. |
| Serializable.MakeJsonSerializable | backend/app.py:87-99 | Dictionaries keep their keys and lists their lengths. A frame becomes one record per row, and series and arrays become their value lists. Every other value is unchanged. |
| Serializable.PlainUnchanged | backend/app.py:94-99 | A value without pandas or numpy objects comes back unchanged. |
| Serializable.ConvertedIsPlain | backend/app.py:87-99 | After conversion no pandas or numpy object is left, when their cells are plain. |
| Serializable.ConvertIdempotent | backend/app.py:87-99 | Converting twice is converting once. |
| Serializable.JsonIsPlain | backend/app.py:94-99 | JSON values pass through unchanged. |
| StepOutcomes.AllOk | backend/search.py:66-121 | The loop completes exactly when every iteration does, with one value per iteration in order. |
| StepOutcomes.Oks | backend/app.py:340-342 | Skipping failed iterations never gives more results than iterations. |
| StepOutcomes.OksAllOk | backend/app.py:281-342 | When nothing fails, skipping failures gives the same list as the all-or-nothing loop. |
| StepOutcomes.OkIndicesSound | backend/app.py:281-342 | The kept positions are in range, successful and strictly increasing. |
| StepOutcomes.OkIndicesComplete | backend/app.py:281-342 | Every successful iteration is kept. |
| StepOutcomes.OksAtOkIndices | backend/app.py:337-342 | The kept results are the successful iterations' values, in their original order. |
| PubMed.Subscript | backend/search.py:28 | On a dict, `v[key]` finds the value or is a KeyError. Any other value raises. |
| PubMed.First | backend/search.py:28 | `v[0]` on an empty list is an IndexError. On a non-empty list it gives the first item. On a dict it is a KeyError. |
| PubMed.Pmcid | backend/search.py:21-31 | `PMC<id>` for the first linked article. None for a missing key or index. Any other error escapes. |
| PubMed.Docsum | backend/search.py:72 | A summary body that is not a dict raises. |
| PubMed.Iterate | backend/search.py:75 | A `for` loop visits a list's items, a dict's keys or a string's characters. |
| PubMed.Names | backend/search.py:75 | The author names succeed exactly when every author is a dict, with one name (or None) per author, in order. |
| PubMed.AbstractTexts | backend/search.py:97-98 | Each element gives at most one abstract piece, and every piece is non-empty. |
| PubMed.AbstractTextsMembers | backend/search.py:97-98 | Every `AbstractText` element with non-empty text contributes that text. Every piece is the text of such an element. |
| PubMed.AbstractTextsAppend | backend/search.py:97-98 | Document order is kept: the pieces of two runs of elements are those of the first, then those of the second. |
| PubMed.AbstractTextsIsTree | backend/search.py:97-98 | Scanning `iter()` of an element collects exactly the abstract texts defined on the tree, parents before children. |
| PubMed.AbstractTextsAllIsTree | backend/search.py:97-98 | The same for the descendants that `.//AbstractText` searches. |
| PubMed.FullText | backend/search.py:33-101 | A PMC fetch that raises propagates. Non-empty PMC text is preferred. Otherwise comes the abstract: an efetch that raises propagates, a non-200 reply gives 'Abstract not available.', and a 200 body fails exactly when it does not parse. A parsed body gives the tree's abstract texts joined by a space. |
| PubMed.Snippet | backend/search.py:104-105 | The snippet is the prefix of the text of length min(1000, len). |
| PubMed.SummaryText | backend/search.py:106-110 | The summariser's text, or 'Summary generation failed.' when it raises. |
| PubMed.ReadMeta | backend/search.py:74-77 | Title, date and source default to 'No title', 'Unknown' and 'PubMed'. The authors are `a.get("name")` for each visited author, and missing authors give an empty list. |
| PubMed.PaperDict | backend/search.py:112-120 | A paper has exactly the seven keys, in order. |
| PubMed.PaperDictMeta | backend/search.py:112-116 | source, title, authors and publication_date hold the summary's values. |
| PubMed.PaperDictText | backend/search.py:117-119 | url, full_text_snippet and summary hold the built strings. |
| PubMed.PaperText | backend/search.py:81-101 | A failed elink raises. Otherwise the text follows the PMC id. |
| PubMed.Paper | backend/search.py:66-121 | A failed esummary or elink raises, and so do a PMC fetch and an efetch that both raise. The iteration completes exactly when the docsum, the summary fields and the text do, and then gives a dict with the seven keys. |
| PubMed.SummariserNeverDrops | backend/search.py:106-110 | Whether a paper is emitted does not depend on the summariser. |
| PubMed.PaperFields | backend/search.py:74-120 | An emitted paper has the summary fields or their defaults, the author names read from the summary's author list, the url `https://pubmed.ncbi.nlm.nih.gov/<pmid>/`, the first ≤1000 characters of the text, and the summary or the failure notice. |
| SearchRoutes.MaxResults | backend/search.py:61 | `max_results` defaults to 5. None raises. An integer is taken as it is. |
| SearchRoutes.Pmids | backend/search.py:13-19 | A search answer that is not a dict raises. |
| SearchRoutes.ScriptSearch | backend/search.py:57-123 | search.py answers 200 exactly when every step and every paper succeeds. Otherwise the exception escapes. |
| SearchRoutes.ScriptOnePaperPerPmid | backend/search.py:63-123 | A 200 from search.py holds one paper per PMID, in PMID order. |
| SearchRoutes.AppSearch | backend/app.py:266-349 | app.py always answers JSON with 200, 400 or 500. A body that is not a dict gives 500. |
| SearchRoutes.EmptyQuery | backend/app.py:269-274 | A missing or empty query gives 400 'Query is required' before any request. A `max_results` that does not convert gives 500, since it is converted first. |
| SearchRoutes.RoutesAgree | backend/app.py:266-349 | With a query and no failing paper, the two routes give the same answer. |
| SearchRoutes.AppAtMostOnePerPmid | backend/app.py:279-345 | A 200 from app.py holds the successful papers, never more than there are PMIDs. |
| GenerationRoutes.RemoveAll | backend/app.py:29 | `str.replace(pat, "")` never lengthens the text. |
| GenerationRoutes.RemoveAllAbsent | backend/app.py:29 | Text without the pattern is unchanged. |
| GenerationRoutes.RemoveAllSuffix | backend/app.py:28-32 | `(name + "_synthesizer.pkl").replace(...)` gives back `name` when `name` does not itself contain the suffix. |
| GenerationRoutes.Put | backend/app.py:28-32 | A dict-comprehension store: the key is present afterwards. An existing key keeps its place, and a new one is appended. |
| GenerationRoutes.RegistryTables | backend/app.py:28-32 | A table is registered exactly when some listed file ending in `_synthesizer.pkl` has that key. |
| GenerationRoutes.RegistryDistinct | backend/app.py:28-32 | Registered names are distinct. |
| GenerationRoutes.RegisteredName | backend/app.py:28-32 | A file `<name>_synthesizer.pkl` registers `<name>`. |
| GenerationRoutes.TablesList | backend/app.py:175-180 | `/tables` lists the registry keys, then '__multi_table__' exactly when the multitable file exists. |
| GenerationRoutes.MultiTableKey | backend/app.py:37 | The multitable file itself registers `multitable`. |
| GenerationRoutes.MultiTableListedTwice | backend/app.py:175-180 | With the multitable file, both `multitable` and '__multi_table__' are listed. |
| GenerationRoutes.NumRows | backend/app.py:124 | `num_rows` defaults to 1000, and an integer is taken as it is. |
| GenerationRoutes.Sampled | backend/app.py:130-173 | Every outcome inside the `try` is a JSON reply. |
| GenerationRoutes.Generate | backend/app.py:120-128 | A non-dict body or a `num_rows` that does not convert raises. |
| GenerationRoutes.UnknownTable | backend/app.py:127-128 | An unknown table gives 400 naming it, before and independently of any sampling. |
| GenerationRoutes.ReportOnlyWithColumn | backend/app.py:136-170 | A 200 carries `report` exactly when `validation_column` is truthy, and otherwise only `csv_base64`. |
| GenerationRoutes.ReportColumn | backend/app.py:150-160 | `validation_data.column` is the requested column. The reports pass through `make_json_serializable`. |
| GenerationRoutes.MissingRealData | backend/app.py:137-139 | A truthy column without a real-data file gives 404. |
| GenerationRoutes.ArchiveNames | backend/app.py:232-253 | The archive names are `<prefix>_1.png` up to `<prefix>_<count>.png`, and there are none for a count below 1. |
| GenerationRoutes.ArchiveNamesDistinct | backend/app.py:253 | No two archive entries share a name. |
| PyValues.ToInt | backend/app.py:124 | `int(v)`: integers as they are. Text converts exactly when it is stripped decimal text with an optional sign and single underscores between digits, and then to that number; other text is a ValueError naming the text. None, lists and dicts raise a TypeError. |
| PyValues.ToIntShow | backend/app.py:124 | `int(str(n)) == n` for every integer `n`. |
| Decimal.PyParseIntShow | backend/app.py:124 | The decimal text of every integer reads back as that integer. |
| Decimal.PyReadSigned | backend/app.py:124 | A run of ASCII digits, with or without a leading '-', reads as its value or its negation. |
| Decimal.PyParseIntGrouping | backend/app.py:124 | '1_000' reads as 1000. |
| Decimal.PyParseIntDoubleUnderscore | backend/app.py:124 | '1__000' is rejected. |
| Decimal.PyParseIntEdgeUnderscore | backend/app.py:124 | '_1' and '1_' are rejected. |
| Decimal.PyRejectsUngrouped | backend/app.py:124 | Text with no white space at either end whose unsigned part is not a grouped digit run is rejected. |

## Left out

- JSX rendering, CSS and static content. The sample tables and the explanation page are presentation only.
- Navigation-only components (header, landing and routing pages), react-router and Firebase authentication.
- `fetch`, `axios`, `requests`, `window.open`, `window.location`, `Blob`, `URL.createObjectURL`, `encodeURIComponent`, `decodeURIComponent`, `JSON.parse` and `JSON.stringify`. Their results are parameters or abstract values.
- Asynchrony, `setTimeout` and React state batching. Each handler is one sequential transition. `ImageGeneration.DelayElapsed` is the timer's callback.
- Floating point: score percentages, `toFixed` label text, `formatDate`, and NumPy histograms (`get_histogram_data`). Numbers are integers.
- SDV synthesizers, `run_diagnostic`/`evaluate_quality`, the keras image generators, PNG and zip building, and the BART summariser. They appear only as parameters with abstract results.
- `shortner.py`, a pandas file-rewriting script outside the running application.
- Decimal.ParseInt: the radix-less hex and other non-decimal forms of `parseInt` are not modelled. Only decimal text with an optional sign is read.
- DataValidation.Labels: bin edges are integers, and a label records its two bounds rather than their `toFixed(0)` text.
- JsValues.Length: `.length` is modelled for arrays, strings and objects with a numeric `length` property only.
- PyValues.ToInt: reads ASCII digits only. Python's `int()` also accepts other Unicode decimal digits. Floats do not occur, because `PyValue` has no float. The ValueError text embeds the text itself, where Python embeds its `repr`, with quotes and escapes.
- PubMed.FullText: the message of an `ET.ParseError` is one fixed text, not the parser's detailed position.
- GenerationRoutes.ArchiveNames: only the entry names of `/xray_generate` and `/mri_generate` are modelled. Converting the `count` argument and the image content are left out.
- GenerationRoutes.Generate: when the table is known, the reply is stated per branch by `Sampled` and the lemmas about it. Flask's own 500 page for an uncaught exception is a `Crash` carrying the message.
- The debug `print` calls and `console` logging, and the unused `elocationid` read in search.py.

## Findings

| source | as written | input that shows it | evidently intended | confidence | as-written member | corrected member |
|---|---|---|---|---|---|---|
| frontend/src/XRayData/XRayData.js:10 | The generate guard `!numImages \|\| numImages === 0` only refuses an empty or zero count. The input has no lower clamp, so a negative count reaches the request (MRIData.js has the same guard). | Type "-5", then click "Generate": `count=-5` is requested, and the back end answers with an empty archive (`GenerationRoutes.ArchiveNames` has no entries for a negative count). | Refuse every count below 1, as the message "Please select at least 1 image" says. | not executed | ImageGeneration.NegativeCountRequested | ImageGeneration.GenerateChecked |

=== FILE: api.dfy ===
/** The shared HTTP helper of the table pages: building and sending the
    `/generate` request and saving the returned CSV. The network call,
    `response.json()` and `atob` are parameters. */
module Api {
  import opened Wrappers
  import opened JsValues

  /** What `fetch` produced: a network failure, or a response with its `ok`
      flag and what `response.json()` yields (`Err` when the body is not JSON). */
  datatype FetchOutcome =
    | NetworkError(message: string)
    | Responded(ok: bool, json: Result<JsValue>)

  /** The server, as seen by the client: the response it gives to a body. */
  type Server = seq<Field> -> FetchOutcome

  /** One call of `generateSyntheticData`: the body it posted and what it
      returned (`Err` is the exception it rethrew). */
  datatype Exchange = Exchange(body: seq<Field>, result: Result<JsValue>)

  const GenericFailure := "Failed to generate data"

  /** The JSON body of `generateSyntheticData(tableName, numRows, validationColumn)`:
      `table_name` and `num_rows` always, `validation_column` only when the
      argument is truthy (so `null` and `""` both leave it out). */
  function RequestBody(tableName: string, numRows: JsValue, validationColumn: JsValue): (body: seq<Field>)
    ensures Lookup(body, "table_name") == Some(Str(tableName))
    ensures Lookup(body, "num_rows") == Some(numRows)
    ensures Lookup(body, "validation_column").Some? <==> Truthy(validationColumn)
    ensures Truthy(validationColumn) ==> Lookup(body, "validation_column") == Some(validationColumn)
    ensures forall f :: f in body ==> f.key == "table_name" || f.key == "num_rows" || f.key == "validation_column"
  {
    var base := [Field("table_name", Str(tableName)), Field("num_rows", numRows)];
    assert base[..1] == [Field("table_name", Str(tableName))];
    assert Lookup(base, "table_name") == Some(Str(tableName));
    assert Lookup(base[..1][..0], "validation_column") == None;
    assert Lookup(base, "validation_column") == None;
    if Truthy(validationColumn) then
      LookupAppend(base, Field("validation_column", validationColumn));
      base + [Field("validation_column", validationColumn)]
    else base
  }

  /** The message thrown for a response whose status is not ok: the server's
      `error` field when it is truthy, the generic text otherwise; reading a
      field of a `null` body throws a `TypeError` instead. */
  function FailureMessage(errorData: JsValue): (m: string)
    ensures Truthy(OptGet(errorData, "error")) && !errorData.Null? && !errorData.Undefined?
            ==> m == ToJsString(Prop(errorData, "error"))
    ensures !Truthy(OptGet(errorData, "error")) && !errorData.Null? && !errorData.Undefined?
            ==> m == GenericFailure
    ensures errorData.Null? || errorData.Undefined? ==> m == ReadError(errorData, "error")
  {
    match Get(errorData, "error")
    case Err(typeError) => typeError
    case Ok(e) => ToJsString(Or(e, Str(GenericFailure)))
  }

  /** What `generateSyntheticData` resolves to or throws, given the outcome of
      its `fetch`. */
  function Outcome(fetched: FetchOutcome): (r: Result<JsValue>)
    ensures r.Ok? <==> fetched.Responded? && fetched.ok && fetched.json.Ok?
    ensures r.Ok? ==> r.value == fetched.json.value
    ensures fetched.NetworkError? ==> r == Err(fetched.message)
    ensures fetched.Responded? && fetched.json.Err? ==> r == Err(fetched.json.message)
    ensures fetched.Responded? && !fetched.ok && fetched.json.Ok?
            ==> r == Err(FailureMessage(fetched.json.value))
  {
    match fetched
    case NetworkError(m) => Err(m)
    case Responded(ok, json) =>
      match json
      case Err(m) => Err(m)
      case Ok(data) => if ok then Ok(data) else Err(FailureMessage(data))
  }

  /** `generateSyntheticData(tableName, numRows, validationColumn)` against `server`. */
  function GenerateSyntheticData(tableName: string, numRows: JsValue, validationColumn: JsValue,
                                 server: Server): (x: Exchange)
    // the posted body: the two arguments always, the column only when truthy
    ensures Lookup(x.body, "table_name") == Some(Str(tableName))
    ensures Lookup(x.body, "num_rows") == Some(numRows)
    ensures Lookup(x.body, "validation_column").Some? <==> Truthy(validationColumn)
    ensures Truthy(validationColumn) ==> Lookup(x.body, "validation_column") == Some(validationColumn)
    // the call resolves exactly to the JSON of an ok response
    ensures x.result.Ok? <==> server(x.body).Responded? && server(x.body).ok && server(x.body).json.Ok?
    ensures x.result.Ok? ==> x.result.value == server(x.body).json.value
    // and otherwise rethrows the network error, the parse error or the server's message
    ensures server(x.body).NetworkError? ==> x.result == Err(server(x.body).message)
    ensures server(x.body).Responded? && server(x.body).json.Err? ==> x.result == Err(server(x.body).json.message)
    ensures server(x.body).Responded? && !server(x.body).ok && server(x.body).json.Ok?
            ==> x.result == Err(FailureMessage(server(x.body).json.value))
  {
    var body := RequestBody(tableName, numRows, validationColumn);
    Exchange(body, Outcome(server(body)))
  }

  /** A file handed to the browser's save action. */
  datatype SavedFile = SavedFile(name: string, content: string, mimeType: string)

  /** `downloadCSV(base64Data, fileName)`: decodes with `atob` (which reads its
      argument as a string) and saves the text as a CSV file named exactly
      `fileName`; a decoding failure is rethrown unchanged. */
  function DownloadCsv(base64Data: JsValue, fileName: string, atob: string -> Result<string>): (r: Result<SavedFile>)
    ensures r.Ok? <==> atob(ToJsString(base64Data)).Ok?
    ensures r.Ok? ==> r.value == SavedFile(fileName, atob(ToJsString(base64Data)).value, "text/csv")
    ensures r.Err? ==> r.message == atob(ToJsString(base64Data)).message
  {
    match atob(ToJsString(base64Data))
    case Ok(text) => Ok(SavedFile(fileName, text, "text/csv"))
    case Err(m) => Err(m)
  }
}

=== FILE: care_and_nurse.dfy ===
/** The care-plans-and-nursing page: five care-plan tables, each with its
    own download controls; every column list is `Object.keys` of its mapping. */
module CareAndNurse {
  import opened Wrappers
  import opened JsValues
  import opened ColumnMapping
  import DownloadControls
  import Api

  const CarePlanCareProviderMapping: Mapping := [
    ("cplcareprovderid", "Care Plan Care Provider ID"),
    ("patientunitstayid", "Patient Unit Stay ID"),
    ("careprovidersaveoffset", "Care Provider Save Offset"),
    ("providertype", "Provider Type"),
    ("specialty", "Specialty"),
    ("interventioncategory", "Intervention Category"),
    ("managingphysician", "Managing Physician"),
    ("activeupondischarge", "Active Upon Discharge")]

  const CarePlanEOLMapping: Mapping := [
    ("cpleolid", "Plan EOL ID"),
    ("patientunitstayid", "Patient Unit Stay ID"),
    ("cpleolsaveoffset", "CPL EOL Save Offset"),
    ("cpleoldiscussionoffset", "CPL EOL Discussion Offset"),
    ("activeupondischarge", "Active Upon Discharge")]

  const CarePlanGeneralMapping: Mapping := [
    ("cplgeneralid", "Care Plan General ID"),
    ("patientunitstayid", "Patient Unit Stay ID"),
    ("activeupondischarge", "Active Upon Discharge"),
    ("cplitemoffset", "CPL Item Offset"),
    ("cplgroup", "CPL Group"),
    ("cplitemvalue", "CPL Item Value")]

  const CarePlanGoalMapping: Mapping := [
    ("cplgoalid", "Care Plan Goal ID"),
    ("patientunitstayid", "Patient Unit Stay ID"),
    ("cplgoaloffset", "Goal Time Offset"),
    ("cplgoalcategory", "Goal Category"),
    ("cplgoalvalue", "CPL Goal Value"),
    ("cplgoalstatus", "Goal Status"),
    ("activeupondischarge", "Active Upon Discharge")]

  const CarePlanInfectiousDiseaseMapping: Mapping := [
    ("cplinfectid", "Plan Infectious Disease ID"),
    ("patientunitstayid", "Patient Unit Stay ID"),
    ("activeupondischarge", "Active Upon Discharge"),
    ("cplinfectdiseaseoffset", "Disease Time Offset"),
    ("infectdiseasesite", "Disease Site"),
    ("infectdiseaseassessment", "Disease Assessment"),
    ("responsetotherapy", "Response to Therapy"),
    ("treatment", "Treatment")]

  /** `getMapping(section)`; any other section gets `{}`. */
  function GetMapping(section: string): Mapping {
    if section == "carePlanCareProvider" then CarePlanCareProviderMapping
    else     if section == "carePlanEOL" then CarePlanEOLMapping
    else     if section == "carePlanGeneral" then CarePlanGeneralMapping
    else     if section == "carePlanGoal" then CarePlanGoalMapping
    else     if section == "carePlanInfectiousDisease" then CarePlanInfectiousDiseaseMapping
    else []
  }

  /** The column list each section's controls are rendered with: the keys of its mapping. */
  const Options: map<string, seq<string>> := map["carePlanCareProvider" := Keys(CarePlanCareProviderMapping), "carePlanEOL" := Keys(CarePlanEOLMapping), "carePlanGeneral" := Keys(CarePlanGeneralMapping), "carePlanGoal" := Keys(CarePlanGoalMapping), "carePlanInfectiousDisease" := Keys(CarePlanInfectiousDiseaseMapping)]

  /** The backend table each section's download button asks for. */
  const Tables: map<string, string> := map["carePlanCareProvider" := "carePlanCareProvider", "carePlanEOL" := "carePlanEOL", "carePlanGeneral" := "carePlanGeneral", "carePlanGoal" := "carePlanGoal", "carePlanInfectiousDisease" := "carePlanInfectiousDisease"]

  /** `getTableName(section)`: a fixed name for each of the five sections,
      and the empty string for anything else. */
  function GetTableName(section: string): (name: string)
    ensures section == "carePlanCareProvider" ==> name == "Care Plan Care Provider Data"
    ensures section == "carePlanEOL" ==> name == "Care Plan EOL Data"
    ensures section == "carePlanGeneral" ==> name == "Care Plan General Data"
    ensures section == "carePlanGoal" ==> name == "Care Plan Goal Data"
    ensures section == "carePlanInfectiousDisease" ==> name == "Care Plan Infectious Disease Data"
    ensures name == "" <==> section != "carePlanCareProvider" && section != "carePlanEOL" && section != "carePlanGeneral" && section != "carePlanGoal" && section != "carePlanInfectiousDisease"
  {
    if section == "carePlanCareProvider" then "Care Plan Care Provider Data"
    else if section == "carePlanEOL" then "Care Plan EOL Data"
    else if section == "carePlanGeneral" then "Care Plan General Data"
    else if section == "carePlanGoal" then "Care Plan Goal Data"
    else if section == "carePlanInfectiousDisease" then "Care Plan Infectious Disease Data"
    else ""
  }

  /** The page opens the view whenever validation is on, and shows
      `columnMapping[column] || column` as the column's display name. */
  function Policy(section: string): DownloadControls.ViewPolicy {
    DownloadControls.ViewPolicy(GetTableName(section),
                                column => Some(WithFallback(GetMapping(section), column)),
                                false)
  }

  /** The download button of a section, wired to the backend table of the same name. */
  function Download(p: DownloadControls.Page, section: string, server: Api.Server,
                    atob: string -> Result<string>): (h: DownloadControls.Handled)
    requires section in Tables
    ensures h.Blocked? <==> DownloadControls.Flag(p.showWarning, section)
    ensures h.Ran? ==> h.exchange.body == Api.RequestBody(Tables[section],
                                                          DownloadControls.NumRowsArg(p, section),
                                                          DownloadControls.ValidationColumnArg(p, section))
    ensures h.Ran? && h.saved.Some? ==> h.saved.value.name == Tables[section] + "_synthetic.csv"
  {
    DownloadControls.Download(p, section, Tables[section], Policy(section), server, atob)
  }

  /** After a saved download the view opens exactly when validation is on,
      titled with the section's table name and showing the column's mapped
      name, or the column itself when the mapping lacks it. */
  lemma DownloadView(p: DownloadControls.Page, section: string, server: Api.Server,
                     atob: string -> Result<string>)
    requires section in Tables
    ensures var h := Download(p, section, server, atob);
      && (h.Ran? && h.saved.Some? ==> (h.view.Some? <==> DownloadControls.Flag(p.isValidationEnabled, section)))
      && (h.Ran? && h.view.Some? ==>
            && h.view.value.tableName == GetTableName(section) != ""
            && h.view.value.validationColumnDisplay
               == Some(WithFallback(GetMapping(section), h.view.value.validationColumn)))
  {
    SectionNamed(section);
  }

  lemma SectionNamed(section: string)
    requires section in Tables
    ensures GetTableName(section) != ""
  {
  }

  /** Every section asks the backend for the table of its own name. */
  lemma TablesNamedBySection()
    ensures forall s :: s in Tables ==> Tables[s] == s
  {
  }

  lemma SectionsAgree()
    ensures Options.Keys == Tables.Keys
    ensures forall s :: s in Options ==> Options[s] == Keys(GetMapping(s)) && Named(GetMapping(s)) && |Options[s]| > 0
  {
    CarePlanCareProviderMappingNamed();
    CarePlanEOLMappingNamed();
    CarePlanGeneralMappingNamed();
    CarePlanGoalMappingNamed();
    CarePlanInfectiousDiseaseMappingNamed();
  }

  lemma CarePlanCareProviderMappingNamed()
    ensures Named(CarePlanCareProviderMapping)
  {
  }

  lemma CarePlanEOLMappingNamed()
    ensures Named(CarePlanEOLMapping)
  {
  }

  lemma CarePlanGeneralMappingNamed()
    ensures Named(CarePlanGeneralMapping)
  {
  }

  lemma CarePlanGoalMappingNamed()
    ensures Named(CarePlanGoalMapping)
  {
  }

  lemma CarePlanInfectiousDiseaseMappingNamed()
    ensures Named(CarePlanInfectiousDiseaseMapping)
  {
  }

  /** Every column the select offers has a display name of its own, so the
      raw-column fallback never shows. */
  lemma OptionDisplayName(section: string, column: string)
    requires section in Options && column in Options[section]
    ensures Some(WithFallback(GetMapping(section), column)) == Entry(GetMapping(section), column)
  {
    SectionsAgree();
    FallbackIffUnlisted(GetMapping(section), column);
  }

  /** Checking "Validate Data" with nothing selected picks the first key of
      the section's mapping. */
  lemma CheckboxPicksFirstKey(p: DownloadControls.Page, section: string)
    requires section in Options && DownloadControls.SelectedColumn(p, section) == ""
    ensures var q := DownloadControls.ToggleValidation(p, section, true, Options[section]);
            section in q.selectedColumns && q.selectedColumns[section] == GetMapping(section)[0].0
  {
    SectionsAgree();
  }

  /** The initial state satisfies the download-control invariant, so every
      reachable state does. */
  lemma InitialInv()
    ensures DownloadControls.Inv(DownloadControls.Initial(Options.Keys), Options)
  {
    SectionsAgree();
    DownloadControls.InitialInv(Options);
  }
}

=== FILE: column_mapping.dfy ===
/** The column-name mappings the table pages declare as object literals
    (`{ patientunitstayid: "Patient Unit Stay ID", ... }`), kept in
    declaration order so that `Object.keys` is their first components. */
module ColumnMapping {
  import opened Wrappers

  type Mapping = seq<(string, string)>

  /** `Object.keys(mapping)`. */
  function Keys(m: Mapping): seq<string> {
    seq(|m|, i requires 0 <= i < |m| => m[i].0)
  }

  /** `mapping[key]`; in an object literal a repeated key keeps its last value. */
  function Entry(m: Mapping, key: string): Option<string> {
    if m == [] then None
    else if m[|m| - 1].0 == key then Some(m[|m| - 1].1)
    else Entry(m[..|m| - 1], key)
  }

  /** A key has an entry exactly when `Object.keys` lists it. */
  lemma {:induction false} EntryIffKey(m: Mapping, key: string)
    ensures Entry(m, key).Some? <==> key in Keys(m)
  {
    if m != [] {
      var init := m[..|m| - 1];
      EntryIffKey(init, key);
      assert Keys(m) == Keys(init) + [m[|m| - 1].0];
    }
  }

  /** `mapping[column] || column`: the display name, or the raw column when
      the mapping has no (or an empty) entry for it. */
  function WithFallback(m: Mapping, column: string): (r: string)
    ensures Entry(m, column).Some? && Entry(m, column).value != "" ==> r == Entry(m, column).value
    ensures Entry(m, column).None? ==> r == column
  {
    match Entry(m, column)
    case Some(d) => if d != "" then d else column
    case None => column
  }

  /** Every display name in the literal is non-empty. */
  predicate Named(m: Mapping) {
    forall i :: 0 <= i < |m| ==> m[i].1 != ""
  }

  /** With non-empty display names the `|| column` fallback fires exactly
      for columns the mapping does not list. */
  lemma {:induction false} FallbackIffUnlisted(m: Mapping, column: string)
    requires Named(m)
    ensures WithFallback(m, column) == column || column in Keys(m)
    ensures column in Keys(m) ==> Some(WithFallback(m, column)) == Entry(m, column)
  {
    EntryIffKey(m, column);
    if column in Keys(m) {
      EntryNamed(m, column);
    }
  }

  lemma {:induction false} EntryNamed(m: Mapping, key: string)
    requires Named(m) && Entry(m, key).Some?
    ensures Entry(m, key).value != ""
  {
    if m[|m| - 1].0 != key {
      EntryNamed(m[..|m| - 1], key);
    }
  }
}

=== FILE: data_validation.dfy ===
/** The validation view: it reads the `data` parameter of its URL, decodes
    and parses it, checks its shape, derives the names it shows and builds
    the histogram chart, then renders one of four screens. */
module DataValidation {
  import opened Wrappers
  import opened JsValues
  import DownloadControls

  const NoData := "No validation data provided"
  const BadFormat := "Invalid validation data format"
  const BadStructure := "Invalid validation data structure"
  const ParseFallback := "Failed to parse validation data"
  const UnknownTable := "Unknown Table"
  const UnknownColumn := "Unknown Column"

  /** `decodeURIComponent` and `JSON.parse`, which may throw. */
  type Decoder = string -> Result<string>
  type Parser = string -> Result<JsValue>

  /** The names shown above the report. */
  datatype DisplayInfo = DisplayInfo(tableName: JsValue, validationColumn: JsValue,
                                     validationColumnDisplay: JsValue)

  /** One x-axis label: the range between two neighbouring bin edges, or the
      last edge alone. The `toFixed(0)` text of each bound is not modelled. */
  datatype Label = Range(lo: int, hi: int) | Edge(edge: int)

  /** A line of the chart: its legend text (`label`) and its data. */
  datatype Dataset = Dataset(legend: string, data: JsValue)

  datatype Chart = Chart(labels: seq<Label>, datasets: seq<Dataset>)

  /** The component state; `None` is the initial `null`. */
  datatype State = State(validationData: Option<JsValue>, chart: Option<Chart>,
                         error: Option<string>, display: Option<DisplayInfo>)

  const InitialState := State(None, None, None, None)

  /** `catch (error) { setError(error.message || 'Failed to parse validation data') }`. */
  function ErrorText(message: string): (r: string)
    ensures r != ""
    ensures message != "" ==> r == message
  {
    if message == "" then ParseFallback else message
  }

  /** Decoding, parsing and the two shape checks: the payload must be an
      object (or array) whose `data` property is truthy and has a truthy
      `report`. */
  function Checked(text: string, decode: Decoder, parse: Parser): (r: Result<JsValue>)
    ensures r.Ok? <==> decode(text).Ok? && parse(decode(text).value).Ok?
                       && var data := parse(decode(text).value).value;
                          (data.Obj? || data.Arr?)
                          && Truthy(Prop(data, "data")) && Truthy(Prop(Prop(data, "data"), "report"))
    ensures r.Ok? ==> r.value == parse(decode(text).value).value
    ensures decode(text).Err? ==> r == Err(decode(text).message)
    ensures decode(text).Ok? && parse(decode(text).value).Err? ==> r == Err(parse(decode(text).value).message)
    // the shape checks, in order
    ensures decode(text).Ok? && parse(decode(text).value).Ok? ==>
              var data := parse(decode(text).value).value;
              && (!Truthy(data) || !(data.Obj? || data.Arr?) ==> r == Err(BadFormat))
              && (Truthy(data) && (data.Obj? || data.Arr?)
                  && (!Truthy(Prop(data, "data")) || !Truthy(Prop(Prop(data, "data"), "report")))
                  ==> r == Err(BadStructure))
  {
    var decoded :- decode(text);
    var data :- parse(decoded);
    if !Truthy(data) || !(data.Arr? || data.Obj?) then Err(BadFormat)
    else if !Truthy(Prop(data, "data")) || !Truthy(Prop(Prop(data, "data"), "report")) then Err(BadStructure)
    else Ok(data)
  }

  /** The names to show: each falls back to a fixed text, and the column's
      display name falls back first to the column. */
  function Display(data: JsValue): (d: DisplayInfo)
    ensures Truthy(d.tableName) && Truthy(d.validationColumn) && Truthy(d.validationColumnDisplay)
    ensures d.tableName == (if Truthy(Prop(data, "tableName")) then Prop(data, "tableName") else Str(UnknownTable))
    ensures d.validationColumn
            == (if Truthy(Prop(data, "validationColumn")) then Prop(data, "validationColumn") else Str(UnknownColumn))
    ensures d.validationColumnDisplay
            == (if Truthy(Prop(data, "validationColumnDisplay")) then Prop(data, "validationColumnDisplay")
                else d.validationColumn)
  {
    DisplayInfo(Or(Prop(data, "tableName"), Str(UnknownTable)),
                Or(Prop(data, "validationColumn"), Str(UnknownColumn)),
                Or(Prop(data, "validationColumnDisplay"), Or(Prop(data, "validationColumn"), Str(UnknownColumn))))
  }

  /** The message of the `TypeError` thrown by calling `toFixed` on a value
      that is not a number, for the expression `expr` of the source. */
  function NotANumber(v: JsValue, expr: string): string {
    if v.Undefined? || v.Null? then ReadError(v, "toFixed") else expr + ".toFixed is not a function"
  }

  /** `real.bin_edges.map(...)`: one label per edge, each edge but the last
      paired with the next one. An edge that is not a number throws when its
      `toFixed` is called. */
  function Labels(edges: seq<JsValue>): (r: Result<seq<Label>>)
    ensures r.Ok? <==> forall i :: 0 <= i < |edges| ==> edges[i].Num?
    ensures r.Ok? ==> |r.value| == |edges|
    ensures r.Ok? ==> forall i :: 0 <= i < |edges| - 1 ==> r.value[i] == Range(edges[i].n, edges[i + 1].n)
    ensures r.Ok? && |edges| > 0 ==> r.value[|edges| - 1] == Edge(edges[|edges| - 1].n)
  {
    if |edges| == 0 then Ok([])
    else if !edges[0].Num? then Err(NotANumber(edges[0], "edge"))
    else if |edges| == 1 then Ok([Edge(edges[0].n)])
    else if !edges[1].Num? then Err(NotANumber(edges[1], "real.bin_edges[(i + 1)]"))
    else
      var rest :- Labels(edges[1..]);
      Ok([Range(edges[0].n, edges[1].n)] + rest)
  }

  /** Whether the chart can be built: `real` and `synthetic` both have truthy
      `bin_edges` and `counts`. */
  predicate HasHistograms(validationData: JsValue) {
    var realData := Prop(validationData, "real");
    var synthetic := Prop(validationData, "synthetic");
    && Truthy(OptGet(realData, "bin_edges")) && Truthy(OptGet(realData, "counts"))
    && Truthy(OptGet(synthetic, "bin_edges")) && Truthy(OptGet(synthetic, "counts"))
  }

  /** The two datasets: real data first, synthetic second, each carrying its
      `counts` unchanged. */
  function Datasets(validationData: JsValue): (ds: seq<Dataset>)
    ensures |ds| == 2
    ensures ds[0] == Dataset("Real Data", Prop(Prop(validationData, "real"), "counts"))
    ensures ds[1] == Dataset("Synthetic Data", Prop(Prop(validationData, "synthetic"), "counts"))
  {
    [Dataset("Real Data", Prop(Prop(validationData, "real"), "counts")),
     Dataset("Synthetic Data", Prop(Prop(validationData, "synthetic"), "counts"))]
  }

  /** The chart for a report: none when the report has no validation data or
      a histogram part is missing; otherwise the labels of the real bin
      edges and the two datasets. */
  function BuildChart(report: JsValue): (r: Result<Option<Chart>>)
    ensures var vd := OptGet(report, "validation_data");
            !Truthy(vd) || !HasHistograms(vd) ==> r == Ok(None)
    ensures var vd := OptGet(report, "validation_data");
            Truthy(vd) && HasHistograms(vd) && !Prop(Prop(vd, "real"), "bin_edges").Arr?
            ==> r == Err("real.bin_edges.map is not a function")
    ensures r.Ok? && r.value.Some? ==>
              var vd := OptGet(report, "validation_data");
              var edges := Prop(Prop(vd, "real"), "bin_edges");
              && Truthy(vd) && HasHistograms(vd) && edges.Arr?
              && Labels(edges.items) == Ok(r.value.value.labels)
              && |r.value.value.labels| == |edges.items|
              && r.value.value.datasets == Datasets(vd)
  {
    var vd := OptGet(report, "validation_data");
    if !Truthy(vd) || !HasHistograms(vd) then Ok(None)
    else
      match Prop(Prop(vd, "real"), "bin_edges")
      case Arr(edges) =>
        var labels :- Labels(edges);
        Ok(Some(Chart(labels, Datasets(vd))))
      case _ => Err("real.bin_edges.map is not a function")
  }

  /** The effect that runs once on mount, given the `data` parameter
      (`None` when absent). */
  function Load(param: Option<string>, decode: Decoder, parse: Parser): (st: State)
    ensures param.None? || param.value == "" ==> st == InitialState.(error := Some(NoData))
    ensures st.error.Some? ==> st.error.value != ""
    ensures st.error.None? ==> st.validationData.Some? && st.display.Some?
    ensures st.display.Some? ==>
              && param.Some? && Checked(param.value, decode, parse).Ok?
              && st.display == Some(Display(Checked(param.value, decode, parse).value))
              && st.validationData == Some(Prop(Checked(param.value, decode, parse).value, "data"))
    ensures st.chart.Some? ==> st.error.None?
    // a rejected payload shows its message
    ensures param.Some? && param.value != "" && Checked(param.value, decode, parse).Err? ==>
              st == InitialState.(error := Some(ErrorText(Checked(param.value, decode, parse).message)))
    // an accepted one gets the chart its report builds, or that step's error
    ensures param.Some? && param.value != "" && Checked(param.value, decode, parse).Ok? ==>
              var report := Prop(Prop(Checked(param.value, decode, parse).value, "data"), "report");
              && (BuildChart(report).Ok? ==> st.error.None? && st.chart == BuildChart(report).value)
              && (BuildChart(report).Err? ==> st.error == Some(ErrorText(BuildChart(report).message)))
  {
    if param.None? || param.value == "" then InitialState.(error := Some(NoData))
    else
      match Checked(param.value, decode, parse)
      case Err(m) => InitialState.(error := Some(ErrorText(m)))
      case Ok(data) =>
        var loaded := State(Some(Prop(data, "data")), None, None, Some(Display(data)));
        match BuildChart(Prop(Prop(data, "data"), "report"))
        case Err(m) => loaded.(error := Some(ErrorText(m)))
        case Ok(chart) => loaded.(chart := chart)
  }

  /** What the component renders. */
  datatype Screen =
    | ErrorScreen(message: string)
    | Loading
    | NoReport
    | Results(tableName: JsValue, columnDisplay: JsValue, diagnostics: Option<JsValue>,
              quality: Option<JsValue>, chart: Option<Chart>)

  /** A report panel is shown only for a truthy list with a positive length. */
  function Panel(v: JsValue): (r: Option<JsValue>)
    ensures r.Some? <==> Truthy(v) && HasPositiveLength(v)
    ensures r.Some? ==> r.value == v
  {
    if Truthy(v) && HasPositiveLength(v) then Some(v) else None
  }

  /** The render function: an error wins, then the loading text, then the
      missing-report text, then the results. */
  function Render(st: State): (s: Screen)
    ensures st.error.Some? && st.error.value != "" ==> s == ErrorScreen(st.error.value)
    ensures s.Loading? <==> ((st.error.None? || st.error.value == "")
                             && (st.validationData.None? || !Truthy(st.validationData.value) || st.display.None?))
    ensures s.Results? ==> st.display.Some? && s.tableName == st.display.value.tableName
                           && s.columnDisplay == st.display.value.validationColumnDisplay
                           && s.chart == st.chart
    // with the data loaded, the report decides between its absence and the two panels
    ensures (st.error.None? || st.error.value == "") && st.validationData.Some?
            && Truthy(st.validationData.value) && st.display.Some? ==>
              var report := Prop(st.validationData.value, "report");
              && (s.NoReport? <==> !Truthy(report))
              && (s.Results? ==> s.diagnostics == Panel(Prop(report, "diagnostic_report"))
                                 && s.quality == Panel(Prop(report, "quality_report")))
  {
    if st.error.Some? && st.error.value != "" then ErrorScreen(st.error.value)
    else if st.validationData.None? || !Truthy(st.validationData.value) || st.display.None? then Loading
    else
      var report := Prop(st.validationData.value, "report");
      if !Truthy(report) then NoReport
      else Results(st.display.value.tableName, st.display.value.validationColumnDisplay,
                   Panel(Prop(report, "diagnostic_report")), Panel(Prop(report, "quality_report")), st.chart)
  }

  /** Once the effect has run, the page shows either an error or the
      results: the "No Validation Report" screen cannot be reached, because
      a payload without a report is already rejected as malformed. */
  lemma NoReportUnreachable(param: Option<string>, decode: Decoder, parse: Parser)
    ensures var s := Render(Load(param, decode, parse));
            s.ErrorScreen? || s.Results?
  {
    var st := Load(param, decode, parse);
    if st.error.None? {
      var data := Checked(param.value, decode, parse).value;
      assert Truthy(Prop(data, "data"));
    }
  }

  /** A missing or empty parameter gives the "no data" error screen. */
  lemma MissingParameter(decode: Decoder, parse: Parser)
    ensures Render(Load(None, decode, parse)) == ErrorScreen(NoData)
    ensures Render(Load(Some(""), decode, parse)) == ErrorScreen(NoData)
  {
  }

  /** A histogram with `n` counts has `n + 1` bin edges, so its chart has one
      more label than it has counts. */
  lemma LabelsOutnumberCounts(report: JsValue)
    requires BuildChart(report).Ok? && BuildChart(report).value.Some?
    requires var realData := Prop(OptGet(report, "validation_data"), "real");
             Prop(realData, "counts").Arr? && Prop(realData, "bin_edges").Arr?
             && |Prop(realData, "bin_edges").items| == |Prop(realData, "counts").items| + 1
    ensures var realData := Prop(OptGet(report, "validation_data"), "real");
            |BuildChart(report).value.value.labels| == |Prop(realData, "counts").items| + 1
  {
  }

  /** What a table page sends arrives intact: when the URL codec returns the
      page's JSON, the view shows the page's table name and column display
      name (or their fallbacks for empty names), and reaches the results
      unless building the chart throws. */
  lemma ViewShowsPageInfo(info: DownloadControls.ValidationInfo, text: string, json: string,
                          decode: Decoder, parse: Parser)
    requires text != "" && decode(text) == Ok(json)
    requires parse(json) == Ok(DownloadControls.InfoJson(info))
    requires Truthy(Prop(info.data, "report"))
    ensures var st := Load(Some(text), decode, parse);
            && st.display.Some?
            && st.display.value.tableName == (if info.tableName != "" then Str(info.tableName) else Str(UnknownTable))
            && st.display.value.validationColumnDisplay
               == (if info.validationColumnDisplay.Some? && info.validationColumnDisplay.value != ""
                   then Str(info.validationColumnDisplay.value)
                   else if info.validationColumn != "" then Str(info.validationColumn)
                   else Str(UnknownColumn))
    ensures BuildChart(Prop(info.data, "report")).Ok? ==> Render(Load(Some(text), decode, parse)).Results?
  {
    var obj := DownloadControls.InfoJson(info);
    InfoJsonProps(info);
    assert Checked(text, decode, parse) == Ok(obj);
  }

  /** The properties the view reads from a page's JSON. */
  lemma InfoJsonProps(info: DownloadControls.ValidationInfo)
    ensures var obj := DownloadControls.InfoJson(info);
            && obj.Obj?
            && Prop(obj, "data") == info.data
            && Prop(obj, "tableName") == Str(info.tableName)
            && Prop(obj, "validationColumn") == Str(info.validationColumn)
            && Prop(obj, "validationColumnDisplay")
               == (if info.validationColumnDisplay.Some? then Str(info.validationColumnDisplay.value) else Undefined)
  {
    var fs := DownloadControls.InfoJson(info).fields;
    var base := [Field("data", info.data), Field("tableName", Str(info.tableName)),
                 Field("validationColumn", Str(info.validationColumn))];
    if info.validationColumnDisplay.Some? {
      LookupAt(fs, 0);
      LookupAt(fs, 1);
      LookupAt(fs, 2);
      LookupAt(fs, 3);
    } else {
      assert fs == base;
      LookupAt(fs, 0);
      LookupAt(fs, 1);
      LookupAt(fs, 2);
      LookupMissing(fs, "validationColumnDisplay");
    }
  }
}

=== FILE: decimal.dfy ===
/** Decimal integer text in both directions: `String(n)` / `str(n)` for an
    integer, JavaScript's `parseInt` without a radix, and Python's `int(s)`. */
module Decimal {
  import opened Wrappers
  import opened Text

  function DigitChar(d: nat): (c: char)
    requires d < 10
    ensures IsDigit(c)
  {
    ('0' as int + d) as char
  }

  function DigitValue(c: char): (d: nat)
    requires IsDigit(c)
    ensures d < 10 && DigitChar(d) == c
  {
    c as int - '0' as int
  }

  predicate AllDigits(s: string) {
    forall i :: 0 <= i < |s| ==> IsDigit(s[i])
  }

  /** Decimal digits of `n`, most significant first, without leading zeros. */
  function ShowNat(n: nat): (r: string)
    ensures |r| > 0 && AllDigits(r)
    ensures r[0] == '0' ==> n == 0
  {
    if n < 10 then [DigitChar(n)] else ShowNat(n / 10) + [DigitChar(n % 10)]
  }

  /** `String(n)` in JavaScript and `str(n)` in Python, for an integer `n`. */
  function Show(n: int): string {
    if n < 0 then "-" + ShowNat(-n) else ShowNat(n)
  }

  /** The value of a run of decimal digits. */
  function DigitsValue(ds: string): nat
    requires AllDigits(ds)
  {
    if |ds| == 0 then 0 else DigitsValue(ds[..|ds| - 1]) * 10 + DigitValue(ds[|ds| - 1])
  }

  /** The longest prefix of `s` made of decimal digits. */
  function DigitPrefix(s: string): (r: string)
    ensures |r| <= |s| && AllDigits(r) && r == s[..|r|]
    ensures |r| == |s| || !IsDigit(s[|r|])
  {
    if |s| > 0 && IsDigit(s[0]) then [s[0]] + DigitPrefix(s[1..]) else []
  }

  /** What follows an optional leading sign. */
  function Unsigned(t: string): string {
    if |t| > 0 && (t[0] == '-' || t[0] == '+') then t[1..] else t
  }

  /** JavaScript's `parseInt(s)` with no radix, restricted to decimal text:
      leading white space is skipped, one sign is accepted, the longest run
      of digits is read and anything after it is ignored. `None` is `NaN`. */
  function ParseInt(s: string): Option<int> {
    ReadSigned(DropLeadingSpace(JavaScript, s))
  }

  /** The part of `parseInt` after the leading white space. */
  function ReadSigned(t: string): Option<int> {
    var ds := DigitPrefix(Unsigned(t));
    var v: int := DigitsValue(ds);
    if |ds| == 0 then None
    else if |t| > 0 && t[0] == '-' then Some(-v)
    else Some(v)
  }

  /** The digit text Python's `int(s)` accepts after the sign: decimal
      digits, where a single underscore may stand between two digits
      (`"1_000"`), so the text starts and ends with a digit. */
  predicate Grouped(u: string)
    ensures Grouped(u) ==> DigitsOrUnderscores(u)
    decreases |u|
  {
    && |u| > 0
    && IsDigit(u[0])
    && (|u| == 1 || Grouped(u[1..]) || (u[1] == '_' && Grouped(u[2..])))
  }

  predicate DigitsOrUnderscores(u: string) {
    forall i :: 0 <= i < |u| ==> IsDigit(u[i]) || u[i] == '_'
  }

  /** The text with its underscores removed. */
  function Ungrouped(u: string): (r: string)
    ensures DigitsOrUnderscores(u) ==> AllDigits(r)
  {
    if |u| == 0 then "" else (if u[0] == '_' then "" else [u[0]]) + Ungrouped(u[1..])
  }

  /** Python's `int(s)` for a string: surrounding white space is allowed, the
      rest must be an optional sign followed by grouped digits. */
  function PyParseInt(s: string): Option<int> {
    var t := PyStrip(s);
    var u := Unsigned(t);
    if !Grouped(u) then None
    else
      var v: int := DigitsValue(Ungrouped(u));
      if t[0] == '-' then Some(-v) else Some(v)
  }

  lemma {:induction false} DigitsValueSnoc(ds: string, c: char)
    requires AllDigits(ds) && IsDigit(c)
    ensures AllDigits(ds + [c])
    ensures DigitsValue(ds + [c]) == DigitsValue(ds) * 10 + DigitValue(c)
  {
    assert (ds + [c])[..|ds|] == ds;
  }

  /** Reading back the digits `ShowNat` writes gives the number again. */
  lemma {:induction false} ShowNatValue(n: nat)
    ensures DigitsValue(ShowNat(n)) == n
  {
    if n >= 10 {
      ShowNatValue(n / 10);
      DigitsValueSnoc(ShowNat(n / 10), DigitChar(n % 10));
    }
  }

  /** A digit run followed by a non-digit is read exactly up to the non-digit. */
  lemma {:induction false} DigitPrefixOfDigits(ds: string, rest: string)
    requires AllDigits(ds)
    requires rest == [] || !IsDigit(rest[0])
    ensures DigitPrefix(ds + rest) == ds
  {
    if |ds| > 0 {
      assert (ds + rest)[1..] == ds[1..] + rest;
      DigitPrefixOfDigits(ds[1..], rest);
    } else {
      assert ds + rest == rest;
    }
  }

  /** Text that starts with a digit or a sign is not skipped as white space. */
  lemma NotSkipped(s: string)
    requires |s| > 0 && (IsDigit(s[0]) || s[0] == '-')
    ensures DropLeadingSpace(JavaScript, s) == s
  {
    assert !IsJsSpace(s[0]);
  }

  /** A string that starts with a digit run is read as that run's value. */
  lemma ReadUnsigned(ds: string, s: string)
    requires AllDigits(ds) && |ds| > 0
    requires |s| > 0 && s[0] != '-' && DigitPrefix(Unsigned(s)) == ds
    ensures ReadSigned(s) == Some(DigitsValue(ds))
  {
  }

  lemma ReadNegative(ds: string, s: string)
    requires AllDigits(ds) && |ds| > 0
    requires |s| > 0 && s[0] == '-' && DigitPrefix(Unsigned(s)) == ds
    ensures ReadSigned(s) == Some(-(DigitsValue(ds) as int))
  {
  }

  lemma ReadDigits(ds: string, rest: string)
    requires AllDigits(ds) && |ds| > 0
    requires rest == [] || !IsDigit(rest[0])
    ensures ParseInt(ds + rest) == Some(DigitsValue(ds))
  {
    DigitPrefixOfDigits(ds, rest);
    var s := ds + rest;
    assert s[0] == ds[0];
    StartsWithDigit(s);
    ReadUnsigned(ds, s);
  }

  lemma StartsWithDigit(s: string)
    requires |s| > 0 && IsDigit(s[0])
    ensures Unsigned(s) == s
    ensures ParseInt(s) == ReadSigned(s)
  {
    assert s[0] != '-' && s[0] != '+';
    NotSkipped(s);
  }

  lemma ReadNegativeDigits(ds: string, rest: string)
    requires AllDigits(ds) && |ds| > 0
    requires rest == [] || !IsDigit(rest[0])
    ensures ParseInt("-" + ds + rest) == Some(-(DigitsValue(ds) as int))
  {
    var u := ds + rest;
    var t := ['-'] + u;
    assert "-" + ds + rest == t;
    assert t[0] == '-';
    assert ParseInt(t) == ReadSigned(t) by {
      NotSkipped(t);
    }
    assert DigitPrefix(Unsigned(t)) == ds by {
      assert t[1..] == u;
      DigitPrefixOfDigits(ds, rest);
    }
    ReadNegative(ds, t);
  }

  /** `parseInt(String(n) + rest) == n` whenever `rest` does not continue the
      digit run: the decimal text of every integer is read back exactly, and
      trailing text such as `"12abc"` is ignored. */
  lemma {:induction false} ParseIntShow(n: int, rest: string)
    requires rest == [] || !IsDigit(rest[0])
    ensures ParseInt(Show(n) + rest) == Some(n)
  {
    var m: nat := if n < 0 then -n else n;
    ShowNatValue(m);
    if n < 0 {
      ReadNegativeDigits(ShowNat(m), rest);
    } else {
      ReadDigits(ShowNat(m), rest);
    }
  }

  lemma {:induction false} DropLeadingSpacePrefix(rt: Runtime, w: string, s: string)
    requires forall i :: 0 <= i < |w| ==> IsSpace(rt, w[i])
    ensures DropLeadingSpace(rt, w + s) == DropLeadingSpace(rt, s)
  {
    if |w| > 0 {
      assert (w + s)[0] == w[0];
      assert (w + s)[1..] == w[1..] + s;
      DropLeadingSpacePrefix(rt, w[1..], s);
    } else {
      assert w + s == s;
    }
  }

  /** Leading white space never changes what `parseInt` reads. */
  lemma ParseIntSkipsSpace(w: string, s: string)
    requires forall i :: 0 <= i < |w| ==> IsJsSpace(w[i])
    ensures ParseInt(w + s) == ParseInt(s)
  {
    DropLeadingSpacePrefix(JavaScript, w, s);
  }

  /** The empty string, a lone sign and text without digits all read as `NaN`. */
  lemma NoDigitsIsNaN()
    ensures ParseInt("") == None
    ensures ParseInt("-") == None
    ensures ParseInt("abc") == None
  {
    assert DropLeadingSpace(JavaScript, "-") == "-" by {
      assert !IsJsSpace('-');
    }
    assert Unsigned("-") == [];
    assert DropLeadingSpace(JavaScript, "abc") == "abc" by {
      assert "abc"[0] == 'a' && !IsJsSpace('a');
    }
    assert DigitPrefix(Unsigned("abc")) == [] by {
      assert Unsigned("abc") == "abc" && !IsDigit('a');
    }
  }

  lemma {:induction false} UngroupedOfDigits(ds: string)
    requires AllDigits(ds)
    ensures Ungrouped(ds) == ds
    decreases |ds|
  {
    if |ds| > 0 {
      UngroupedOfDigits(ds[1..]);
    }
  }

  /** Text that neither starts nor ends with white space is its own `strip()`. */
  lemma StripUnchanged(s: string)
    requires |s| > 0 && !IsPySpace(s[0]) && !IsPySpace(s[|s| - 1])
    ensures PyStrip(s) == s
  {
  }

  lemma {:induction false} DigitsGrouped(ds: string)
    requires AllDigits(ds) && |ds| > 0
    ensures Grouped(ds)
    decreases |ds|
  {
    if |ds| > 1 {
      DigitsGrouped(ds[1..]);
    }
  }

  /** Stripped text whose digits after the sign are plain reads as their value. */
  lemma PyReadDigits(t: string, ds: string)
    requires AllDigits(ds) && |ds| > 0 && Unsigned(t) == ds
    requires !IsPySpace(t[0]) && !IsPySpace(t[|t| - 1])
    ensures PyParseInt(t) == Some(if t[0] == '-' then -(DigitsValue(ds) as int) else DigitsValue(ds))
  {
    StripUnchanged(t);
    DigitsGrouped(ds);
    UngroupedOfDigits(ds);
  }

  /** A run of digits with a minus sign in front reads as its negated value. */
  lemma PyReadNegative(ds: string)
    requires AllDigits(ds) && |ds| > 0
    ensures PyParseInt("-" + ds) == Some(-(DigitsValue(ds) as int))
  {
    var t := "-" + ds;
    assert t[0] == '-' && t[|t| - 1] == ds[|ds| - 1];
    assert Unsigned(t) == ds by {
      assert t[1..] == ds;
    }
    PyReadDigits(t, ds);
  }

  /** A run of digits, with or without a minus sign in front, reads as its
      value. */
  lemma PyReadSigned(ds: string, negative: bool)
    requires AllDigits(ds) && |ds| > 0
    ensures PyParseInt(if negative then "-" + ds else ds)
            == Some(if negative then -(DigitsValue(ds) as int) else DigitsValue(ds))
  {
    if negative {
      PyReadNegative(ds);
    } else {
      PyReadDigits(ds, ds);
    }
  }

  /** Python's `int(str(n)) == n`: the text `str` writes reads back as the
      same integer. */
  lemma PyParseIntShow(n: int)
    ensures PyParseInt(Show(n)) == Some(n)
  {
    var m: nat := if n < 0 then -n else n;
    ShowNatValue(m);
    PyReadSigned(ShowNat(m), n < 0);
  }

  /** Text with nothing to strip whose unsigned part is not a grouped run of
      digits is rejected. */
  lemma PyRejectsUngrouped(t: string)
    requires |t| > 0 && !IsPySpace(t[0]) && !IsPySpace(t[|t| - 1])
    requires !Grouped(Unsigned(t))
    ensures PyParseInt(t) == None
  {
    StripUnchanged(t);
  }

  /** Unsigned text with nothing to strip that is a grouped run of digits
      reads as the value of its digits. */
  lemma PyReadsGrouped(t: string)
    requires |t| > 0 && !IsPySpace(t[0]) && !IsPySpace(t[|t| - 1]) && t[0] != '-' && t[0] != '+'
    requires Grouped(t)
    ensures PyParseInt(t) == Some(DigitsValue(Ungrouped(t)) as int)
  {
    StripUnchanged(t);
  }

  /** A single underscore between digits is a grouping separator. */
  lemma PyParseIntGrouping()
    ensures PyParseInt("1_000") == Some(1000)
  {
    var a := "1_000";
    assert Grouped(a) by {
      assert a[1..] == "_000" && a[2..] == "000";
      DigitsGrouped("000");
    }
    assert Ungrouped(a) == "1000" by {
      assert a[1..] == "_000";
      assert a[1..][1..] == "000";
      UngroupedOfDigits("000");
    }
    assert DigitsValue("1000") == 1000 by {
      assert "1000"[..3] == "100" && "100"[..2] == "10" && "10"[..1] == "1";
    }
    PyReadsGrouped(a);
  }

  /** Two underscores in a row are rejected. */
  lemma PyParseIntDoubleUnderscore()
    ensures PyParseInt("1__000") == None
  {
    var b := "1__000";
    assert !Grouped(b) by {
      assert b[1..] == "__000" && b[2..] == "_000";
    }
    PyRejectsUngrouped(b);
  }

  /** An underscore may not lead or trail the digits. */
  lemma PyParseIntEdgeUnderscore()
    ensures PyParseInt("_1") == None
    ensures PyParseInt("1_") == None
  {
    var c := "_1";
    assert !Grouped(c);
    PyRejectsUngrouped(c);
    var d := "1_";
    assert !Grouped(d) by {
      assert d[1..] == "_" && d[2..] == "";
    }
    PyRejectsUngrouped(d);
  }
}

=== FILE: dia_and_cond.dfy ===
/** The diagnoses-and-conditions page: diagnosis, allergy and admission
    diagnosis tables, each with its own download controls. */
module DiaAndCond {
  import opened Wrappers
  import opened JsValues
  import opened ColumnMapping
  import DownloadControls
  import Api

  const DiagnosisMapping: Mapping := [
    ("diagnosisid", "Diagnosis ID"),
    ("patientunitstayid", "Patient Unit Stay ID"),
    ("activeupondischarge", "Active Upon Discharge"),
    ("diagnosisoffset", "Diagnosis Offset"),
    ("diagnosisstring", "Diagnosis String"),
    ("icd9code", "ICD9 Code"),
    ("diagnosispriority", "Diagnosis Priority")]

  const AllergyMapping: Mapping := [
    ("allergyid", "Allergy ID"),
    ("patientunitstayid", "Patient Unit Stay ID"),
    ("allergyoffset", "Allergy Offset"),
    ("allergyenteredoffset", "Allergy Entered Offset"),
    ("allergynotetype", "Allergy Note Type"),
    ("specialtytype", "Specialty Type"),
    ("usertype", "User Type"),
    ("rxincluded", "Rx Included"),
    ("writtenineicu", "Written in ICU"),
    ("drugname", "Drug Name"),
    ("allergytype", "Allergy Type"),
    ("allergyname", "Allergy Name"),
    ("drughiclseqno", "Drug HICL Seq No")]

  const AdmissionDxMapping: Mapping := [
    ("admissiondxid", "Admission DX ID"),
    ("patientunitstayid", "Patient Unit Stay ID"),
    ("admitdxenteredoffset", "Admit DX Entered Offset"),
    ("admitdxpath", "Admit DX Path"),
    ("admitdxname", "Admit DX Name"),
    ("admitdxtext", "Admit DX Text")]

  /** `getColumnMapping(section)`; any other section gets `{}`. */
  function GetColumnMapping(section: string): Mapping {
    if section == "diagnosis" then DiagnosisMapping
    else     if section == "allergy" then AllergyMapping
    else     if section == "admissionDx" then AdmissionDxMapping
    else []
  }

  const DiagnosisColumns: seq<string> := [
    "diagnosisid",
    "patientunitstayid",
    "activeupondischarge",
    "diagnosisoffset",
    "diagnosisstring",
    "icd9code",
    "diagnosispriority"]

  const AllergyColumns: seq<string> := [
    "allergyid",
    "patientunitstayid",
    "allergyoffset",
    "allergyenteredoffset",
    "allergynotetype",
    "specialtytype",
    "usertype",
    "rxincluded",
    "writtenineicu",
    "drugname",
    "allergytype",
    "allergyname",
    "drughiclseqno"]

  const AdmissionDxColumns: seq<string> := [
    "admissiondxid",
    "patientunitstayid",
    "admitdxenteredoffset",
    "admitdxpath",
    "admitdxname",
    "admitdxtext"]

  /** The column list each section's controls are rendered with. */
  const Options: map<string, seq<string>> := map["diagnosis" := DiagnosisColumns, "allergy" := AllergyColumns, "admissionDx" := AdmissionDxColumns]

  /** The backend table each section's download button asks for. */
  const Tables: map<string, string> := map["diagnosis" := "diagnosis", "allergy" := "allergy", "admissionDx" := "admissionDx"]

  /** The table name the validation view shows; every section outside the
      explicit comparisons gets the last name of the chain. */
  function TableDisplay(section: string): (name: string)
    ensures name == "Diagnosis Data" <==> section == "diagnosis"
    ensures name == "Allergy Data" <==> section == "allergy"
    ensures name == "Admission Diagnosis Data" <==> section != "diagnosis" && section != "allergy"
  {
    if section == "diagnosis" then "Diagnosis Data"
    else if section == "allergy" then "Allergy Data"
    else "Admission Diagnosis Data"
  }

  /** The page opens the view whenever validation is on, and shows
      `mapping[column] || column` as the column's display name. */
  function Policy(section: string): DownloadControls.ViewPolicy {
    DownloadControls.ViewPolicy(TableDisplay(section),
                                column => Some(WithFallback(GetColumnMapping(section), column)),
                                false)
  }

  /** The download button of a section: `handleDownload(section, tableName)`
      with the table the page wires to that section. */
  function Download(p: DownloadControls.Page, section: string, server: Api.Server,
                    atob: string -> Result<string>): (h: DownloadControls.Handled)
    requires section in Tables
    ensures h.Blocked? <==> DownloadControls.Flag(p.showWarning, section)
    ensures h.Ran? ==> h.exchange.body == Api.RequestBody(Tables[section],
                                                          DownloadControls.NumRowsArg(p, section),
                                                          DownloadControls.ValidationColumnArg(p, section))
    ensures h.Ran? && h.saved.Some? ==> h.saved.value.name == Tables[section] + "_synthetic.csv"
    ensures h.Ran? && h.saved.Some? ==> (h.view.Some? <==> DownloadControls.Flag(p.isValidationEnabled, section))
    ensures h.Ran? && h.view.Some? ==>
              && h.view.value.tableName == TableDisplay(section)
              && h.view.value.validationColumnDisplay
                 == Some(WithFallback(GetColumnMapping(section), h.view.value.validationColumn))
  {
    DownloadControls.Download(p, section, Tables[section], Policy(section), server, atob)
  }

  /** The explicit column arrays list exactly the keys of the section's
      mapping, in declaration order, and every display name is non-empty. */
  lemma OptionsAreMappingKeys()
    ensures Options.Keys == Tables.Keys
    ensures forall s :: s in Options ==> Options[s] == Keys(GetColumnMapping(s)) && Named(GetColumnMapping(s))
  {
    DiagnosisColumnsAreKeys();
    AllergyColumnsAreKeys();
    AdmissionDxColumnsAreKeys();
  }

  lemma DiagnosisColumnsAreKeys()
    ensures DiagnosisColumns == Keys(DiagnosisMapping) && Named(DiagnosisMapping)
  {
    assert |DiagnosisColumns| == |DiagnosisMapping|;
  }

  lemma AllergyColumnsAreKeys()
    ensures AllergyColumns == Keys(AllergyMapping) && Named(AllergyMapping)
  {
    assert |AllergyColumns| == |AllergyMapping|;
  }

  lemma AdmissionDxColumnsAreKeys()
    ensures AdmissionDxColumns == Keys(AdmissionDxMapping) && Named(AdmissionDxMapping)
  {
    assert |AdmissionDxColumns| == |AdmissionDxMapping|;
  }

  /** Every column the select offers has a display name of its own, so the
      raw-column fallback never shows. */
  lemma OptionDisplayName(section: string, column: string)
    requires section in Options && column in Options[section]
    ensures Some(WithFallback(GetColumnMapping(section), column)) == Entry(GetColumnMapping(section), column)
  {
    OptionsAreMappingKeys();
    FallbackIffUnlisted(GetColumnMapping(section), column);
  }

  /** The initial state satisfies the download-control invariant, so every
      reachable state does. */
  lemma InitialInv()
    ensures DownloadControls.Inv(DownloadControls.Initial(Options.Keys), Options)
  {
    OptionsAreMappingKeys();
    DownloadControls.InitialInv(Options);
  }
}

=== FILE: download_controls.dfy ===
/** The per-section download controls shared by the six table pages: six
    maps keyed by section (record count, warning flag, validation toggle,
    selected column, loading flag, error text) and the handlers that update
    them with spread updates `{...prev, [section]: value}`. */
module DownloadControls {
  import opened Wrappers
  import opened JsValues
  import Decimal
  import Api

  /** A parsed record count; `None` is `NaN`. */
  type Count = Option<int>

  const InitialCount := 10

  /** The counts the pages accept: a number greater than zero. */
  predicate CountValid(c: Count) {
    c.Some? && c.value > 0
  }

  datatype Page = Page(
    numRecords: map<string, Count>,
    showWarning: map<string, bool>,
    isValidationEnabled: map<string, bool>,
    selectedColumns: map<string, string>,
    loading: map<string, bool>,
    error: map<string, string>)

  /** `m[section]` used as a condition: a missing entry is `undefined`, which is falsy. */
  predicate Flag(m: map<string, bool>, section: string) {
    section in m && m[section]
  }

  /** The state every page starts in: count 10, no warning, validation off,
      no column selected, not loading, no error, in every section. */
  function Initial(sections: set<string>): (p: Page)
    ensures p.numRecords.Keys == p.showWarning.Keys == p.isValidationEnabled.Keys == sections
    ensures p.selectedColumns.Keys == p.loading.Keys == p.error.Keys == sections
    ensures forall s :: s in sections ==>
              && p.numRecords[s] == Some(InitialCount) && !p.showWarning[s] && !p.isValidationEnabled[s]
              && p.selectedColumns[s] == "" && !p.loading[s] && p.error[s] == ""
  {
    Page(map k | k in sections :: Some(InitialCount),
         map k | k in sections :: false,
         map k | k in sections :: false,
         map k | k in sections :: "",
         map k | k in sections :: false,
         map k | k in sections :: "")
  }

  /** Every entry of every map outside `section` is the same in `p` and `q`. */
  predicate SameOutside(p: Page, q: Page, section: string) {
    && p.numRecords - {section} == q.numRecords - {section}
    && p.showWarning - {section} == q.showWarning - {section}
    && p.isValidationEnabled - {section} == q.isValidationEnabled - {section}
    && p.selectedColumns - {section} == q.selectedColumns - {section}
    && p.loading - {section} == q.loading - {section}
    && p.error - {section} == q.error - {section}
  }

  /** The four maps the download handler never writes are the same in `p` and `q`. */
  predicate SameInputs(p: Page, q: Page) {
    && p.numRecords == q.numRecords
    && p.showWarning == q.showWarning
    && p.isValidationEnabled == q.isValidationEnabled
    && p.selectedColumns == q.selectedColumns
  }

  /** `handleNumRecordsChange(section, value)`: the count becomes
      `parseInt(value)` and the warning says whether that count is unusable. */
  function ChangeCount(p: Page, section: string, value: string): (q: Page)
    ensures section in q.numRecords && q.numRecords[section] == Decimal.ParseInt(value)
    ensures section in q.showWarning && q.showWarning[section] == !CountValid(q.numRecords[section])
    ensures q.isValidationEnabled == p.isValidationEnabled && q.selectedColumns == p.selectedColumns
    ensures q.loading == p.loading && q.error == p.error
    ensures SameOutside(p, q, section)
  {
    var parsed := Decimal.ParseInt(value);
    p.(numRecords := p.numRecords[section := parsed],
       showWarning := p.showWarning[section := parsed.None? || parsed.value <= 0])
  }

  /** `handleColumnChange(section, value)`. */
  function ChangeColumn(p: Page, section: string, value: string): (q: Page)
    ensures section in q.selectedColumns && q.selectedColumns[section] == value
    ensures q.numRecords == p.numRecords && q.showWarning == p.showWarning
    ensures q.isValidationEnabled == p.isValidationEnabled
    ensures q.loading == p.loading && q.error == p.error
    ensures SameOutside(p, q, section)
  {
    p.(selectedColumns := p.selectedColumns[section := value])
  }

  /** `columnOptions[0]`; every page passes a non-empty list, and an empty
      list is read as the empty selection. */
  function FirstOption(options: seq<string>): string {
    if |options| > 0 then options[0] else ""
  }

  /** `selectedColumns[section]` as a JavaScript value. */
  function SelectedValue(p: Page, section: string): JsValue {
    if section in p.selectedColumns then Str(p.selectedColumns[section]) else Undefined
  }

  /** The "Validate Data" checkbox: stores the new state and, when it is
      checked while no column is selected, selects the first option. */
  function ToggleValidation(p: Page, section: string, checked: bool, columnOptions: seq<string>): (q: Page)
    ensures section in q.isValidationEnabled && q.isValidationEnabled[section] == checked
    ensures checked && !Truthy(SelectedValue(p, section))
            ==> section in q.selectedColumns && q.selectedColumns[section] == FirstOption(columnOptions)
    ensures !(checked && !Truthy(SelectedValue(p, section))) ==> q.selectedColumns == p.selectedColumns
    ensures q.numRecords == p.numRecords && q.showWarning == p.showWarning
    ensures q.loading == p.loading && q.error == p.error
    ensures SameOutside(p, q, section)
  {
    var toggled := p.(isValidationEnabled := p.isValidationEnabled[section := checked]);
    if checked && !Truthy(SelectedValue(p, section)) then
      ChangeColumn(toggled, section, FirstOption(columnOptions))
    else toggled
  }

  /** `numRecords[section]` as sent in the request body. */
  function NumRowsArg(p: Page, section: string): JsValue {
    if section !in p.numRecords then Undefined
    else match p.numRecords[section]
      case None => NaN
      case Some(n) => Num(n)
  }

  /** `numRecords[section] || ''`, the value shown in the count field of the
      pages that guard it: empty exactly when the count is missing, `NaN`
      or zero, and the stored count otherwise. */
  function CountField(p: Page, section: string): (r: JsValue)
    ensures r == Str("") <==> section !in p.numRecords || p.numRecords[section] in {None, Some(0)}
    ensures r != Str("") ==> r == Num(p.numRecords[section].value)
  {
    Or(NumRowsArg(p, section), Str(""))
  }

  /** `isValidationEnabled[section] ? selectedColumns[section] : null`. */
  function ValidationColumnArg(p: Page, section: string): JsValue {
    if Flag(p.isValidationEnabled, section) then SelectedValue(p, section) else Null
  }

  /** How a page names things in the validation view it opens: the table's
      display name, the display name of a column (`None` is `undefined`), and
      whether the view also needs a non-empty column to open. */
  datatype ViewPolicy = ViewPolicy(tableDisplay: string, columnDisplay: string -> Option<string>, needsColumn: bool)

  /** The `validationInfo` object handed to the validation view. */
  datatype ValidationInfo = ValidationInfo(data: JsValue, tableName: string,
                                           validationColumn: string,
                                           validationColumnDisplay: Option<string>)

  /** The object `JSON.stringify(validationInfo)` writes into the URL; an
      `undefined` display name is left out. */
  function InfoJson(info: ValidationInfo): JsValue {
    Obj([Field("data", info.data), Field("tableName", Str(info.tableName)),
         Field("validationColumn", Str(info.validationColumn))]
        + OptionalField("validationColumnDisplay", info.validationColumnDisplay))
  }

  /** Whether the validation view is opened after a successful download. */
  predicate OpensView(p: Page, section: string, policy: ViewPolicy) {
    Flag(p.isValidationEnabled, section) && (!policy.needsColumn || Truthy(SelectedValue(p, section)))
  }

  /** `selectedColumns[section]`; a section without an entry reads as the empty selection. */
  function SelectedColumn(p: Page, section: string): string {
    if section in p.selectedColumns then p.selectedColumns[section] else ""
  }

  function View(data: JsValue, p: Page, section: string, policy: ViewPolicy): Option<ValidationInfo> {
    if OpensView(p, section, policy) then
      var column := SelectedColumn(p, section);
      Some(ValidationInfo(data, policy.tableDisplay, column, policy.columnDisplay(column)))
    else None
  }

  /** Everything after the response arrives: save `<tableName>_synthetic.csv`,
      then maybe open the validation view. Any throw ends the step. */
  function Deliver(data: JsValue, p: Page, section: string, tableName: string,
                   policy: ViewPolicy, atob: string -> Result<string>): Result<(Api.SavedFile, Option<ValidationInfo>)>
  {
    var b64 :- Get(data, "csv_base64");
    var file :- Api.DownloadCsv(b64, tableName + "_synthetic.csv", atob);
    Ok((file, View(data, p, section, policy)))
  }

  /** What the download handler sees happen once it is past its guard. */
  datatype Handled =
    | Blocked
    | Ran(inFlight: Page, exchange: Api.Exchange, final: Page,
          saved: Option<Api.SavedFile>, view: Option<ValidationInfo>)

  /** The state while the request is pending: loading on, error cleared. */
  function Begin(p: Page, section: string): (q: Page)
    ensures Flag(q.loading, section)
    ensures section in q.error && q.error[section] == ""
    ensures SameOutside(p, q, section) && SameInputs(p, q)
  {
    p.(loading := p.loading[section := true], error := p.error[section := ""])
  }

  /** The `catch`/`finally` part: the failure message, if any, becomes the
      section's error, and loading goes off in every case. */
  function Settle(p: Page, section: string, failure: Option<string>): (q: Page)
    ensures section in q.loading && !q.loading[section]
    ensures section in q.error && q.error[section] == (if failure.Some? then failure.value else p.error[section])
    ensures SameOutside(p, q, section) && SameInputs(p, q)
    requires section in p.error
  {
    var q := p.(loading := p.loading[section := false]);
    match failure
    case None => q
    case Some(m) => q.(error := q.error[section := m])
  }

  /** The whole outcome of one download after the guard: the thrown message,
      or the saved file and the view opened. */
  function Outcome(p: Page, section: string, tableName: string, policy: ViewPolicy,
                   server: Api.Server, atob: string -> Result<string>): Result<(Api.SavedFile, Option<ValidationInfo>)>
  {
    var x := Api.GenerateSyntheticData(tableName, NumRowsArg(p, section), ValidationColumnArg(p, section), server);
    match x.result
    case Err(m) => Err(m)
    case Ok(data) => Deliver(data, p, section, tableName, policy, atob)
  }

  /** `handleDownload(section, tableName)`. */
  function Download(p: Page, section: string, tableName: string, policy: ViewPolicy,
                    server: Api.Server, atob: string -> Result<string>): (h: Handled)
    // a set warning makes the click a no-op
    ensures h.Blocked? <==> Flag(p.showWarning, section)
    // while the request is pending the section is loading and shows no error
    ensures h.Ran? ==> Flag(h.inFlight.loading, section)
    ensures h.Ran? ==> section in h.inFlight.error && h.inFlight.error[section] == ""
    ensures h.Ran? ==> SameOutside(p, h.inFlight, section) && SameInputs(p, h.inFlight)
    // the request carries the count, and the column only when validation is on
    ensures h.Ran? ==> h.exchange.body
                       == Api.RequestBody(tableName, NumRowsArg(p, section), ValidationColumnArg(p, section))
    // afterwards loading is off whatever happened; only this section changed
    ensures h.Ran? ==> section in h.final.loading && !h.final.loading[section]
    ensures h.Ran? ==> SameOutside(p, h.final, section) && SameInputs(p, h.final)
    ensures h.Ran? ==> match Outcome(p, section, tableName, policy, server, atob)
                       case Ok((file, view)) =>
                         && h.saved == Some(file) && h.view == view
                         && file.name == tableName + "_synthetic.csv"
                         && section in h.final.error && h.final.error[section] == ""
                       case Err(m) =>
                         && h.saved.None? && h.view.None?
                         && section in h.final.error && h.final.error[section] == m
    // the view opens after a save exactly when the page's condition holds,
    // showing the returned data under the page's names
    ensures h.Ran? && h.saved.Some? ==> (h.view.Some? <==> OpensView(p, section, policy))
    ensures h.Ran? && h.view.Some? ==>
              && h.saved.Some?
              && h.exchange.result == Ok(h.view.value.data)
              && h.view.value.tableName == policy.tableDisplay
              && h.view.value.validationColumn == SelectedColumn(p, section)
              && h.view.value.validationColumnDisplay == policy.columnDisplay(SelectedColumn(p, section))
  {
    if Flag(p.showWarning, section) then Blocked
    else
      var inFlight := Begin(p, section);
      var x := Api.GenerateSyntheticData(tableName, NumRowsArg(p, section), ValidationColumnArg(p, section), server);
      match Outcome(p, section, tableName, policy, server, atob)
      case Ok((file, view)) => Ran(inFlight, x, Settle(inFlight, section, None), Some(file), view)
      case Err(m) => Ran(inFlight, x, Settle(inFlight, section, Some(m)), None, None)
  }

  /** The page invariant: every map has exactly the page's sections as keys;
      each warning says whether its count is unusable; a selected column is
      empty or one of the section's options, and it is an option whenever
      validation is on. `options` gives each section's column list. */
  predicate Inv(p: Page, options: map<string, seq<string>>) {
    && p.numRecords.Keys == p.showWarning.Keys == p.isValidationEnabled.Keys == options.Keys
    && p.selectedColumns.Keys == p.loading.Keys == p.error.Keys == options.Keys
    && (forall s :: s in options ==> |options[s]| > 0)
    && (forall s :: s in options ==> p.showWarning[s] == !CountValid(p.numRecords[s]))
    && (forall s :: s in options ==> p.selectedColumns[s] == "" || p.selectedColumns[s] in options[s])
    && (forall s :: s in options && p.isValidationEnabled[s] ==> p.selectedColumns[s] in options[s])
  }

  lemma InitialInv(options: map<string, seq<string>>)
    requires forall s :: s in options ==> |options[s]| > 0
    ensures Inv(Initial(options.Keys), options)
  {
  }

  lemma ChangeCountInv(p: Page, options: map<string, seq<string>>, section: string, value: string)
    requires Inv(p, options) && section in options
    ensures Inv(ChangeCount(p, section, value), options)
  {
  }

  /** The column select only offers the section's options. */
  lemma ChangeColumnInv(p: Page, options: map<string, seq<string>>, section: string, value: string)
    requires Inv(p, options) && section in options && value in options[section]
    ensures Inv(ChangeColumn(p, section, value), options)
  {
  }

  lemma ToggleValidationInv(p: Page, options: map<string, seq<string>>, section: string, checked: bool)
    requires Inv(p, options) && section in options
    ensures Inv(ToggleValidation(p, section, checked, options[section]), options)
  {
    var q := ToggleValidation(p, section, checked, options[section]);
    if checked && !Truthy(SelectedValue(p, section)) {
      assert q.selectedColumns[section] == options[section][0];
    } else if checked {
      assert p.selectedColumns[section] != "";
    }
  }

  lemma DownloadInv(p: Page, options: map<string, seq<string>>, section: string, tableName: string,
                    policy: ViewPolicy, server: Api.Server, atob: string -> Result<string>)
    requires Inv(p, options) && section in options
    ensures var h := Download(p, section, tableName, policy, server, atob);
            h.Ran? ==> Inv(h.inFlight, options) && Inv(h.final, options)
  {
    var h := Download(p, section, tableName, policy, server, atob);
    if h.Ran? {
      SameKeys(p.loading, h.inFlight.loading, section);
      SameKeys(p.error, h.inFlight.error, section);
      InvFromInputs(p, h.inFlight, options);
      SameKeys(p.loading, h.final.loading, section);
      SameKeys(p.error, h.final.error, section);
      InvFromInputs(p, h.final, options);
    }
  }

  /** The invariant only constrains the four input maps and the key sets of the other two. */
  lemma InvFromInputs(p: Page, q: Page, options: map<string, seq<string>>)
    requires Inv(p, options) && SameInputs(p, q)
    requires q.loading.Keys == p.loading.Keys && q.error.Keys == p.error.Keys
    ensures Inv(q, options)
  {
  }

  lemma SameKeys<V>(a: map<string, V>, b: map<string, V>, k: string)
    requires a - {k} == b - {k} && k in a && k in b
    ensures a.Keys == b.Keys
  {
    forall x | x in a.Keys
      ensures x in b.Keys
    {
      if x != k { assert x in a - {k}; }
    }
    forall x | x in b.Keys
      ensures x in a.Keys
    {
      if x != k { assert x in b - {k}; }
    }
  }

  /** Under the invariant, a download that is not blocked asks for a positive
      number of rows, and for validation against one of the section's own
      columns or none at all. */
  lemma DownloadSendsValidRequest(p: Page, options: map<string, seq<string>>, section: string, tableName: string,
                                  policy: ViewPolicy, server: Api.Server, atob: string -> Result<string>)
    requires Inv(p, options) && section in options
    requires Download(p, section, tableName, policy, server, atob).Ran?
    ensures NumRowsArg(p, section).Num? && NumRowsArg(p, section).n > 0
    ensures ValidationColumnArg(p, section) == Null
            || (ValidationColumnArg(p, section).Str? && ValidationColumnArg(p, section).s in options[section])
  {
  }

  /** One user action on a page's download controls. */
  datatype Event =
    | CountEdited(section: string, value: string)
    | ColumnPicked(section: string, column: string)
    | Checkbox(section: string, checked: bool)
    | DownloadClicked(section: string, tableName: string, policy: ViewPolicy,
                      server: Api.Server, atob: string -> Result<string>)

  /** What the rendered controls can produce: events for the page's own
      sections, and column picks among the options the select offers. */
  predicate Possible(e: Event, options: map<string, seq<string>>) {
    e.section in options && (e.ColumnPicked? ==> e.column in options[e.section])
  }

  /** The state after one event; the checkbox passes the section's options. */
  function Step(p: Page, e: Event, options: map<string, seq<string>>): Page {
    match e
    case CountEdited(section, value) => ChangeCount(p, section, value)
    case ColumnPicked(section, column) => ChangeColumn(p, section, column)
    case Checkbox(section, checked) =>
      ToggleValidation(p, section, checked, if section in options then options[section] else [])
    case DownloadClicked(section, tableName, policy, server, atob) =>
      match Download(p, section, tableName, policy, server, atob)
      case Blocked => p
      case Ran(_, _, final, _, _) => final
  }

  /** The state after a sequence of events. */
  function Run(p: Page, events: seq<Event>, options: map<string, seq<string>>): Page
    decreases |events|
  {
    if events == [] then p else Run(Step(p, events[0], options), events[1..], options)
  }

  /** Every state a page can reach from its initial state keeps the
      invariant; in particular the warning always equals "count invalid". */
  lemma {:induction false} RunKeepsInv(p: Page, events: seq<Event>, options: map<string, seq<string>>)
    requires Inv(p, options)
    requires forall i :: 0 <= i < |events| ==> Possible(events[i], options)
    ensures Inv(Run(p, events, options), options)
    decreases |events|
  {
    if events != [] {
      assert Possible(events[0], options);
      StepInv(p, events[0], options);
      RunKeepsInv(Step(p, events[0], options), events[1..], options);
    }
  }

  lemma StepInv(p: Page, e: Event, options: map<string, seq<string>>)
    requires Inv(p, options) && Possible(e, options)
    ensures Inv(Step(p, e, options), options)
  {
    match e
    case CountEdited(section, value) => ChangeCountInv(p, options, section, value);
    case ColumnPicked(section, column) => ChangeColumnInv(p, options, section, column);
    case Checkbox(section, checked) => ToggleValidationInv(p, options, section, checked);
    case DownloadClicked(section, tableName, policy, server, atob) =>
      DownloadInv(p, options, section, tableName, policy, server, atob);
  }

  lemma ReachableWarning(options: map<string, seq<string>>, events: seq<Event>, section: string)
    requires forall s :: s in options ==> |options[s]| > 0
    requires forall i :: 0 <= i < |events| ==> Possible(events[i], options)
    requires section in options
    ensures var q := Run(Initial(options.Keys), events, options);
            section in q.showWarning && section in q.numRecords
            && q.showWarning[section] == !CountValid(q.numRecords[section])
  {
    InitialInv(options);
    RunKeepsInv(Initial(options.Keys), events, options);
  }
}

=== FILE: generation_routes.dfy ===
/** The synthetic-data side of app.py: the synthesizer registry built from
    the file names in the synthesizer directory, `/tables`, `/generate`,
    and the image-archive entry names of `/xray_generate` and
    `/mri_generate`. The synthesizers, the real data files, the evaluation
    library and base64 are parameters. */
module GenerationRoutes {
  import opened Wrappers
  import opened PyValues
  import Decimal
  import Serializable

  const SynthSuffix := "_synthesizer.pkl"
  const MultiTableFile := "multitable_synthesizer.pkl"
  const MultiTableName := "__multi_table__"
  const DefaultRows := 1000

  /** Whether `pat` occurs in `s` starting at `i`. */
  predicate OccursAt(s: string, pat: string, i: nat) {
    i + |pat| <= |s| && s[i..i + |pat|] == pat
  }

  predicate Occurs(s: string, pat: string) {
    exists i :: 0 <= i <= |s| && OccursAt(s, pat, i)
  }

  /** `s.endswith(pat)`. */
  predicate EndsWith(s: string, pat: string) {
    |pat| <= |s| && s[|s| - |pat|..] == pat
  }

  /** `s.replace(pat, "")`: every occurrence, scanning left to right without
      overlaps, is removed. */
  function RemoveAll(s: string, pat: string): (r: string)
    requires pat != []
    ensures |r| <= |s|
    decreases |s|
  {
    if |s| < |pat| then s
    else if s[..|pat|] == pat then RemoveAll(s[|pat|..], pat)
    else [s[0]] + RemoveAll(s[1..], pat)
  }

  /** A text without an occurrence of the pattern is left as it is. */
  lemma {:induction false} RemoveAllAbsent(s: string, pat: string)
    requires pat != [] && !Occurs(s, pat)
    ensures RemoveAll(s, pat) == s
    decreases |s|
  {
    if |s| >= |pat| {
      assert !OccursAt(s, pat, 0);
      assert s[..|pat|] != pat;
      forall i | 0 <= i <= |s[1..]|
        ensures !OccursAt(s[1..], pat, i)
      {
        assert !OccursAt(s, pat, i + 1);
        if i + |pat| <= |s[1..]| {
          assert s[1..][i..i + |pat|] == s[i + 1..i + 1 + |pat|];
        }
      }
      RemoveAllAbsent(s[1..], pat);
    }
  }

  /** The first character of the pattern appears nowhere else in it, so an
      occurrence cannot overlap the start of another. */
  predicate UniqueHead(pat: string) {
    pat != [] && forall i :: 0 < i < |pat| ==> pat[i] != pat[0]
  }

  /** The round trip of the registry key: a name that does not contain the
      suffix comes back from `(name + suffix).replace(suffix, "")`. */
  lemma {:induction false} RemoveAllSuffix(name: string, pat: string)
    requires UniqueHead(pat) && !Occurs(name, pat)
    ensures RemoveAll(name + pat, pat) == name
    decreases |name|
  {
    var s := name + pat;
    if |name| == 0 {
      assert s == pat;
      assert s[|pat|..] == [];
    } else {
      assert s[..|pat|] != pat by {
        if |name| >= |pat| {
          assert s[..|pat|] == name[..|pat|];
          assert !OccursAt(name, pat, 0);
        } else {
          assert s[|name|] == pat[0];
          assert s[..|pat|][|name|] != pat[|name|];
        }
      }
      assert s[1..] == name[1..] + pat;
      forall i | 0 <= i <= |name[1..]|
        ensures !OccursAt(name[1..], pat, i)
      {
        assert !OccursAt(name, pat, i + 1);
        if i + |pat| <= |name[1..]| {
          assert name[1..][i..i + |pat|] == name[i + 1..i + 1 + |pat|];
        }
      }
      RemoveAllSuffix(name[1..], pat);
    }
  }

  lemma SynthSuffixUniqueHead()
    ensures UniqueHead(SynthSuffix)
  {
  }

  /** One registry entry: the table name and the file its synthesizer was
      loaded from. */
  datatype Registered = Registered(table: string, file: string)

  function Tables(reg: seq<Registered>): seq<string> {
    seq(|reg|, i requires 0 <= i < |reg| => reg[i].table)
  }

  /** `d[key] = value` on the registry: an existing key keeps its place and
      takes the new file, a new key is appended. */
  function Put(reg: seq<Registered>, table: string, file: string): (r: seq<Registered>)
    ensures table in Tables(r)
    ensures table in Tables(reg) ==> Tables(r) == Tables(reg)
    ensures table !in Tables(reg) ==> Tables(r) == Tables(reg) + [table]
    decreases |reg|
  {
    if |reg| == 0 then
      assert Tables([Registered(table, file)]) == [table];
      [Registered(table, file)]
    else if reg[0].table == table then
      var r := [Registered(table, file)] + reg[1..];
      assert Tables(r) == [table] + Tables(reg[1..]);
      assert Tables(reg) == [table] + Tables(reg[1..]);
      r
    else
      var rest := Put(reg[1..], table, file);
      assert Tables([reg[0]] + rest) == [reg[0].table] + Tables(rest);
      assert Tables(reg) == [reg[0].table] + Tables(reg[1..]);
      [reg[0]] + rest
  }

  /** `{f.replace("_synthesizer.pkl", ""): joblib.load(...) for f in os.listdir(synth_dir)
      if f.endswith("_synthesizer.pkl")}` over the listed file names. */
  function Registry(files: seq<string>): seq<Registered>
    decreases |files|
  {
    if |files| == 0 then []
    else
      var reg := Registry(files[..|files| - 1]);
      var f := files[|files| - 1];
      if EndsWith(f, SynthSuffix) then Put(reg, RemoveAll(f, SynthSuffix), f) else reg
  }

  function KeyOf(f: string): string {
    RemoveAll(f, SynthSuffix)
  }

  /** A table is registered exactly when some listed synthesizer file names it. */
  lemma {:induction false} RegistryTables(files: seq<string>, table: string)
    ensures table in Tables(Registry(files)) <==>
      exists f :: f in files && EndsWith(f, SynthSuffix) && KeyOf(f) == table
    decreases |files|
  {
    if |files| > 0 {
      var init := files[..|files| - 1];
      RegistryTables(init, table);
      assert files == init + [files[|files| - 1]];
      if exists f :: f in files && EndsWith(f, SynthSuffix) && KeyOf(f) == table {
        var f :| f in files && EndsWith(f, SynthSuffix) && KeyOf(f) == table;
        if f != files[|files| - 1] {
          assert f in init;
        }
      }
    }
  }

  /** The registered names are distinct. */
  lemma {:induction false} RegistryDistinct(files: seq<string>)
    ensures forall i, j :: 0 <= i < j < |Registry(files)| ==> Registry(files)[i].table != Registry(files)[j].table
    decreases |files|
  {
    if |files| > 0 {
      RegistryDistinct(files[..|files| - 1]);
      var reg := Registry(files[..|files| - 1]);
      var f := files[|files| - 1];
      if EndsWith(f, SynthSuffix) {
        PutDistinct(reg, KeyOf(f), f);
      }
    }
  }

  lemma {:induction false} PutDistinct(reg: seq<Registered>, table: string, file: string)
    requires forall i, j :: 0 <= i < j < |reg| ==> reg[i].table != reg[j].table
    ensures forall i, j :: 0 <= i < j < |Put(reg, table, file)| ==> Put(reg, table, file)[i].table != Put(reg, table, file)[j].table
    decreases |reg|
  {
    if |reg| > 0 && reg[0].table != table {
      PutDistinct(reg[1..], table, file);
      var rest := Put(reg[1..], table, file);
      forall j | 0 <= j < |rest|
        ensures rest[j].table != reg[0].table
      {
        assert Tables(rest)[j] == rest[j].table;
        if rest[j].table in Tables(reg[1..]) {
          var k :| 0 <= k < |reg[1..]| && reg[1..][k].table == rest[j].table;
          assert reg[k + 1].table == rest[j].table;
        }
      }
    }
  }

  /** The file a table's synthesizer was loaded from: the last listed file
      with that name, as a dictionary comprehension keeps the last value. */
  function Lookup(reg: seq<Registered>, table: string): Option<string> {
    if |reg| == 0 then None
    else if reg[0].table == table then Some(reg[0].file)
    else Lookup(reg[1..], table)
  }

  /** `/tables`: the registered names, then `__multi_table__` when the
      multitable file exists (its own name `multitable` is listed too). */
  function TablesList(files: seq<string>): (r: seq<string>)
    ensures Tables(Registry(files)) <= r
    ensures |r| == |Registry(files)| + (if MultiTableFile in files then 1 else 0)
    ensures MultiTableFile in files ==> r[|r| - 1] == MultiTableName
  {
    Tables(Registry(files)) + (if MultiTableFile in files then [MultiTableName] else [])
  }

  /** The multitable file registers the name `multitable`. */
  lemma MultiTableKey()
    ensures EndsWith(MultiTableFile, SynthSuffix) && KeyOf(MultiTableFile) == "multitable"
  {
    var name := "multitable";
    SynthSuffixUniqueHead();
    assert MultiTableFile == name + SynthSuffix;
    assert !Occurs(name, SynthSuffix);
    RemoveAllSuffix(name, SynthSuffix);
  }

  /** With the multitable file present, `/tables` lists both `multitable`
      and `__multi_table__`. */
  lemma MultiTableListedTwice(files: seq<string>)
    requires MultiTableFile in files
    ensures "multitable" in TablesList(files) && MultiTableName in TablesList(files)
  {
    MultiTableKey();
    RegistryTables(files, "multitable");
  }

  /** A file `<name>_synthesizer.pkl` registers `<name>`, provided the name
      does not itself contain the suffix. */
  lemma RegisteredName(files: seq<string>, name: string)
    requires name + SynthSuffix in files && !Occurs(name, SynthSuffix)
    ensures name in Tables(Registry(files))
  {
    SynthSuffixUniqueHead();
    RemoveAllSuffix(name, SynthSuffix);
    assert EndsWith(name + SynthSuffix, SynthSuffix) by {
      assert (name + SynthSuffix)[|name|..] == SynthSuffix;
    }
    RegistryTables(files, name);
  }

  /** The route of `/generate` depends on these, all fixed in advance. */
  datatype Backend = Backend(
    /** The names listed in the synthesizer directory when the app started. */
    files: seq<string>,
    /** The tables that have `backend/eicu-demo/<table>/<table>.csv`. */
    realData: set<string>,
    /** `synthesizers[table].sample(num_rows=n).to_csv(index=False)`, keyed by
        the synthesizer's file, or what sampling raised. */
    sample: (string, int) -> Result<string>,
    /** The evaluation against the real data for a requested column, or what
        it raised (reading the CSV, the diagnostic, the quality report, or a
        histogram). */
    evaluate: (string, PyValue) -> Result<Evaluation>,
    /** `base64.b64encode(csv.encode('utf-8')).decode('utf-8')`. */
    b64: string -> string,
    repr: PyValue -> string)

  /** What the evaluation library gives for one table and column: the
      property frames of the two reports and the two histograms. */
  datatype Evaluation = Evaluation(diagnostic: PyValue, quality: PyValue, realHistogram: PyValue, syntheticHistogram: PyValue)

  function NotFound(table: PyValue, repr: PyValue -> string): string {
    "Synthesizer for table '" + StrOf(table, repr) + "' not found."
  }

  function NoRealData(table: string): string {
    "Real data file not found for table '" + table + "'"
  }

  /** `int(data.get("num_rows", 1000))`. */
  function NumRows(body: seq<Entry>): (r: Result<int>)
    ensures DictGet(body, "num_rows").None? ==> r == Ok(DefaultRows)
    ensures forall n :: DictGet(body, "num_rows") == Some(PyInt(n)) ==> r == Ok(n)
  {
    ToInt(DictGet(body, "num_rows").GetOr(PyInt(DefaultRows)))
  }

  /** The body of a validation report. */
  function Report(e: Evaluation, column: PyValue): PyValue {
    PyDict([
      Entry("diagnostic_report", Serializable.MakeJsonSerializable(e.diagnostic)),
      Entry("quality_report", Serializable.MakeJsonSerializable(e.quality)),
      Entry("validation_data", PyDict([Entry("real", e.realHistogram), Entry("synthetic", e.syntheticHistogram), Entry("column", column)]))])
  }

  /** Inside the `try` of `/generate`, once the table is known: sampling,
      then the report when a validation column is given. */
  function Sampled(b: Backend, table: string, file: string, rows: int, column: PyValue): (r: Reply)
    ensures r.Json?
  {
    match b.sample(file, rows)
    case Err(m) => ErrorReply(500, m)
    case Ok(csv) =>
      var encoded := PyStr(b.b64(csv));
      if !PyTruthy(column) then Json(200, PyDict([Entry("csv_base64", encoded)]))
      else if table !in b.realData then ErrorReply(404, NoRealData(table))
      else
        match b.evaluate(table, column)
        case Err(m) => ErrorReply(500, m)
        case Ok(e) => Json(200, PyDict([Entry("csv_base64", encoded), Entry("report", Report(e, column))]))
  }

  /** `generate_synthetic_data()`. `request.json` must be an object, and
      `num_rows` is converted before the table is checked, both outside the
      `try`; an unhashable table name raises in the membership test. */
  function Generate(b: Backend, body: PyValue): (r: Reply)
    ensures !body.PyDict? ==> r.Crash?
    ensures body.PyDict? && NumRows(body.entries).Err? ==> r.Crash?
  {
    if !body.PyDict? then Crash("'" + TypeName(body) + "' object has no attribute 'get'")
    else
      var table := DictGet(body.entries, "table_name").GetOr(PyNone);
      match NumRows(body.entries)
      case Err(m) => Crash(m)
      case Ok(rows) =>
        var column := DictGet(body.entries, "validation_column").GetOr(PyNone);
        if !Hashable(table) then Crash("unhashable type: '" + TypeName(table) + "'")
        else
          var file := if table.PyStr? then Lookup(Registry(b.files), table.s) else None;
          if file.None? then ErrorReply(400, NotFound(table, b.repr))
          else Sampled(b, table.s, file.value, rows, column)
  }

  /** An unknown table is refused with 400 naming it, and nothing is sampled:
      the answer is the same whatever the synthesizers would produce. */
  lemma UnknownTable(b: Backend, body: seq<Entry>, sample: (string, int) -> Result<string>)
    requires NumRows(body).Ok?
    requires var t := DictGet(body, "table_name").GetOr(PyNone);
      Hashable(t) && (t.PyStr? ==> Lookup(Registry(b.files), t.s).None?)
    ensures Generate(b, PyDict(body)) == ErrorReply(400, NotFound(DictGet(body, "table_name").GetOr(PyNone), b.repr))
    ensures Generate(b.(sample := sample), PyDict(body)) == Generate(b, PyDict(body))
  {
  }

  /** A successful answer carries a report exactly when the validation
      column is truthy, and the report names that column. */
  lemma ReportOnlyWithColumn(b: Backend, table: string, file: string, rows: int, column: PyValue)
    requires Sampled(b, table, file, rows, column).status == 200
    ensures var body := Sampled(b, table, file, rows, column).body;
      && body.PyDict?
      && (Keys(body.entries) == ["csv_base64", "report"] <==> PyTruthy(column))
      && (Keys(body.entries) == ["csv_base64"] <==> !PyTruthy(column))
      && (PyTruthy(column) ==>
            DictGet(body.entries, "report") == Some(Report(b.evaluate(table, column).value, column)))
  {
  }

  /** The report's `validation_data.column` is the requested column, and its
      two evaluation reports are serialised with `make_json_serializable`. */
  lemma ReportColumn(e: Evaluation, column: PyValue)
    ensures var r := Report(e, column).entries;
      && DictGet(r, "validation_data").Some?
      && DictGet(r, "validation_data").value.PyDict?
      && DictGet(DictGet(r, "validation_data").value.entries, "column") == Some(column)
      && DictGet(r, "diagnostic_report") == Some(Serializable.MakeJsonSerializable(e.diagnostic))
  {
    var r := Report(e, column).entries;
    DictGetFirst(r, 0);
    DictGetFirst(r, 2);
    DictGetFirst(r[2].value.entries, 2);
  }

  /** A truthy column whose table has no real data file gives 404, after sampling. */
  lemma MissingRealData(b: Backend, table: string, file: string, rows: int, column: PyValue)
    requires b.sample(file, rows).Ok? && PyTruthy(column) && table !in b.realData
    ensures Sampled(b, table, file, rows, column) == ErrorReply(404, NoRealData(table))
  {
  }

  /** The entry names of an image archive: `<prefix>_1.png` up to
      `<prefix>_<count>.png`, none at all for a count below 1, since
      `range(num_images)` is empty then. */
  function ArchiveNames(prefix: string, count: int): (r: seq<string>)
    ensures |r| == if count < 0 then 0 else count
    ensures forall i :: 0 <= i < |r| ==> r[i] == prefix + "_" + Decimal.Show(i + 1) + ".png"
  {
    if count <= 0 then []
    else seq(count, i requires 0 <= i < count => prefix + "_" + Decimal.Show(i + 1) + ".png")
  }

  /** No two entries of an archive share a name, so none overwrites another:
      the number in each name reads back as its position. */
  lemma ArchiveNamesDistinct(prefix: string, count: int, i: int, j: int)
    requires 0 <= i < j < |ArchiveNames(prefix, count)|
    ensures ArchiveNames(prefix, count)[i] != ArchiveNames(prefix, count)[j]
  {
    var head := prefix + "_";
    var a := Decimal.Show(i + 1) + ".png";
    var b := Decimal.Show(j + 1) + ".png";
    assert ArchiveNames(prefix, count)[i] == head + a;
    assert ArchiveNames(prefix, count)[j] == head + b;
    ShownNamesDiffer(i + 1, j + 1);
    SameHeadDiffer(head, a, b);
  }

  /** Two different numbers give two different file names. */
  lemma ShownNamesDiffer(m: int, n: int)
    requires m != n
    ensures Decimal.Show(m) + ".png" != Decimal.Show(n) + ".png"
  {
    Decimal.ParseIntShow(m, ".png");
    Decimal.ParseIntShow(n, ".png");
  }

  lemma SameHeadDiffer(head: string, a: string, b: string)
    requires a != b
    ensures head + a != head + b
  {
    assert (head + a)[|head|..] == a;
    assert (head + b)[|head|..] == b;
  }
}

=== FILE: image_generation.dfy ===
/** The X-ray and brain-MRI generation pages. Both keep an image count, a
    loading flag and an error text; the count input is clamped above at
    1000, and "generate" navigates the browser to the image service. */
module ImageGeneration {
  import opened Wrappers
  import Decimal

  datatype Modality = XRay | Mri

  /** The service path each page navigates to. */
  function Endpoint(m: Modality): string {
    match m
    case XRay => "xray_generate"
    case Mri => "mri_generate"
  }

  /** The error a page shows when starting the download throws. */
  function FailureText(m: Modality): string {
    match m
    case XRay => "Failed to generate X-Ray images"
    case Mri => "Failed to generate MRI images"
  }

  const MaxImages := 1000
  const SelectAtLeastOne := "Please select at least 1 image to generate"

  /** The `numImages` state: the empty string after the field is cleared, or a number. */
  datatype NumImages = Empty | Count(n: int)

  const InitialImages := Count(1)

  /** `!numImages || numImages === 0`. */
  predicate Missing(v: NumImages) {
    v.Empty? || v.n == 0
  }

  /** `handleInputChange`: an empty field empties the count, a number is
      stored clamped to at most 1000, anything else leaves the count alone. */
  function InputChange(v: NumImages, value: string): (r: NumImages)
    ensures value == "" ==> r == Empty
    ensures value != "" && Decimal.ParseInt(value).None? ==> r == v
    ensures value != "" && Decimal.ParseInt(value).Some? ==>
              r.Count? && r.n <= MaxImages
              && (Decimal.ParseInt(value).value <= MaxImages ==> r.n == Decimal.ParseInt(value).value)
              && (Decimal.ParseInt(value).value > MaxImages ==> r.n == MaxImages)
  {
    if value == "" then Empty
    else match Decimal.ParseInt(value)
      case None => v
      case Some(num) => Count(if num < MaxImages then num else MaxImages)
  }

  /** The counts the page can hold: empty, or a number no larger than 1000. */
  predicate Bounded(v: NumImages) {
    v.Empty? || v.n <= MaxImages
  }

  /** Every count the input can produce from the initial one is bounded. */
  lemma {:induction false} InputsStayBounded(values: seq<string>)
    ensures Bounded(Inputs(InitialImages, values))
  {
    InputsKeepBound(InitialImages, values);
  }

  lemma {:induction false} InputsKeepBound(v: NumImages, values: seq<string>)
    requires Bounded(v)
    ensures Bounded(Inputs(v, values))
    decreases |values|
  {
    if values != [] {
      InputsKeepBound(InputChange(v, values[0]), values[1..]);
    }
  }

  /** The count after typing each of `values` in turn. */
  function Inputs(v: NumImages, values: seq<string>): NumImages
    decreases |values|
  {
    if values == [] then v else Inputs(InputChange(v, values[0]), values[1..])
  }

  /** The hints `getTimeWarning` shows, first match wins. */
  datatype Warning = AtLeastOne | SeveralMinutes | MinuteOrTwo | Moment

  function WarningText(w: Warning): string {
    match w
    case AtLeastOne => "⚠️ " + SelectAtLeastOne
    case SeveralMinutes => "⚠️ Generating over 500 images may take several minutes"
    case MinuteOrTwo => "⚠️ This may take a minute or two"
    case Moment => "⚠️ This may take a moment"
  }

  function TimeWarning(v: NumImages): (r: Option<Warning>)
    ensures r == Some(AtLeastOne) <==> Missing(v)
  {
    if Missing(v) then Some(AtLeastOne)
    else if v.n > 500 then Some(SeveralMinutes)
    else if v.n > 100 then Some(MinuteOrTwo)
    else if v.n > 50 then Some(Moment)
    else None
  }

  /** `getTimeWarning()`: the hint text, or `null`. */
  function TimeWarningText(v: NumImages): (r: Option<string>)
    ensures r.None? <==> TimeWarning(v).None?
  {
    match TimeWarning(v)
    case None => None
    case Some(w) => Some(WarningText(w))
  }

  /** Different hints read differently, so the text alone tells which tier
      the page is in. */
  lemma WarningTextsDistinct(v: NumImages, u: NumImages)
    requires TimeWarning(v) != TimeWarning(u)
    ensures TimeWarningText(v) != TimeWarningText(u)
  {
    if TimeWarning(v).Some? && TimeWarning(u).Some? {
      var a, b := TimeWarning(v).value, TimeWarning(u).value;
      assert |WarningText(a)| != |WarningText(b)| by {
        WarningLengths(a);
        WarningLengths(b);
      }
    }
  }

  /** Each hint has its own length. */
  lemma WarningLengths(w: Warning)
    ensures |WarningText(w)| == match w
      case AtLeastOne => 45
      case SeveralMinutes => 54
      case MinuteOrTwo => 32
      case Moment => 25
  {
  }

  /** How long a non-missing count makes the page say it will take: 0 for no
      hint, up to 3 for "several minutes". */
  function Severity(w: Option<Warning>): nat {
    match w
    case None => 0
    case Some(Moment) => 1
    case Some(MinuteOrTwo) => 2
    case Some(SeveralMinutes) => 3
    case Some(AtLeastOne) => 0
  }

  /** The hint never promises a shorter wait for more images, and each tier
      covers exactly its range of counts. */
  lemma WarningTiers(a: int, b: int)
    requires a != 0 && b != 0 && a <= b
    ensures Severity(TimeWarning(Count(a))) <= Severity(TimeWarning(Count(b)))
    ensures TimeWarning(Count(a)) == Some(SeveralMinutes) <==> a > 500
    ensures TimeWarning(Count(a)) == Some(MinuteOrTwo) <==> 100 < a <= 500
    ensures TimeWarning(Count(a)) == Some(Moment) <==> 50 < a <= 100
    ensures TimeWarning(Count(a)).None? <==> a <= 50
  {
  }

  /** The page state. */
  datatype Ui = Ui(numImages: NumImages, loading: bool, error: string)

  const InitialUi := Ui(InitialImages, false, "")

  /** The address the browser is sent to for `count` images. */
  function RequestUrl(m: Modality, count: int): string {
    "http://127.0.0.1:6002/" + Endpoint(m) + "?count=" + Decimal.Show(count)
  }

  /** What a click on "Generate" leads to: the new state, the count
      requested and the address the browser is sent to, if any. */
  datatype Generated = Generated(ui: Ui, requested: Option<int>, location: Option<string>)

  /** `handleGenerate` as written: the guard only refuses an empty or zero
      count. `navigates` says whether setting the location returned normally. */
  function Generate(m: Modality, ui: Ui, navigates: bool): (g: Generated)
    ensures Missing(ui.numImages) ==> g == Generated(ui.(error := SelectAtLeastOne), None, None)
    ensures !Missing(ui.numImages) && navigates ==>
              g.requested == Some(ui.numImages.n) && g.ui.loading && g.ui.error == ""
              && g.location == Some(RequestUrl(m, ui.numImages.n))
    ensures !Missing(ui.numImages) && !navigates ==>
              g.requested.None? && g.location.None? && !g.ui.loading && g.ui.error == FailureText(m)
    ensures g.ui.numImages == ui.numImages
  {
    if Missing(ui.numImages) then Generated(ui.(error := SelectAtLeastOne), None, None)
    else Start(m, ui, navigates)
  }

  /** The `try`/`catch` part of `handleGenerate` once the guard passed. */
  function Start(m: Modality, ui: Ui, navigates: bool): Generated
    requires ui.numImages.Count?
  {
    if navigates then
      Generated(ui.(loading := true, error := ""), Some(ui.numImages.n), Some(RequestUrl(m, ui.numImages.n)))
    else Generated(ui.(loading := false, error := FailureText(m)), None, None)
  }

  /** The `setTimeout` callback a second later. */
  function DelayElapsed(ui: Ui): Ui {
    ui.(loading := false)
  }

  /** The button's `disabled` attribute. */
  predicate Disabled(ui: Ui) {
    ui.loading || Missing(ui.numImages)
  }

  /** The address names the page's service and the count: two different
      requests never share an address. */
  lemma RequestUrlInjective(m: Modality, c: int, m': Modality, c': int)
    requires RequestUrl(m, c) == RequestUrl(m', c')
    ensures m == m' && c == c'
  {
    var host := "http://127.0.0.1:6002/";
    var u, u' := RequestUrl(m, c), RequestUrl(m', c');
    assert u[|host|] == Endpoint(m)[0] && u'[|host|] == Endpoint(m')[0];
    var k := |host| + |Endpoint(m)| + |"?count="|;
    assert u[k..] == Decimal.Show(c) && u'[k..] == Decimal.Show(c');
    Decimal.PyParseIntShow(c);
    Decimal.PyParseIntShow(c');
  }

  /** A second after a successful click the button is enabled again, with
      the count and the error as the click left them. */
  lemma DelayReenables(m: Modality, ui: Ui)
    requires !Missing(ui.numImages)
    ensures var after := DelayElapsed(Generate(m, ui, true).ui);
            !Disabled(after) && after.numImages == ui.numImages && after.error == ""
  {
  }

  /** When not loading, the button is disabled exactly when a click would be
      refused by the guard. */
  lemma DisabledIffRefused(m: Modality, ui: Ui, navigates: bool)
    requires !ui.loading
    ensures Disabled(ui) <==> Generate(m, ui, navigates).ui.error == SelectAtLeastOne
                              && Generate(m, ui, navigates).requested.None?
  {
  }

  /** The guard lets a negative count through: typing "-5" stores -5, the
      page shows no hint, the button is enabled and generating asks the
      service for -5 images. */
  lemma NegativeCountRequested(m: Modality)
    ensures InputChange(InitialImages, "-5") == Count(-5)
    ensures TimeWarning(Count(-5)).None? && !Disabled(Ui(Count(-5), false, ""))
    ensures Generate(m, Ui(Count(-5), false, ""), true).requested == Some(-5)
  {
    assert Decimal.Show(-5) == "-5";
    Decimal.ParseIntShow(-5, "");
    assert "-5" + "" == "-5";
  }

  /** The guard the message describes: at least one image. */
  predicate TooFew(v: NumImages) {
    v.Empty? || v.n < 1
  }

  /** `handleGenerate` with the intended guard. */
  function GenerateChecked(m: Modality, ui: Ui, navigates: bool): (g: Generated)
    ensures TooFew(ui.numImages) ==> g == Generated(ui.(error := SelectAtLeastOne), None, None)
    ensures !TooFew(ui.numImages) ==> g == Generate(m, ui, navigates)
  {
    if TooFew(ui.numImages) then Generated(ui.(error := SelectAtLeastOne), None, None)
    else Start(m, ui, navigates)
  }

  /** With the intended guard, every count reachable through the input that
      is requested lies between 1 and 1000. */
  lemma CheckedRequestInRange(m: Modality, values: seq<string>, navigates: bool)
    ensures var g := GenerateChecked(m, InitialUi.(numImages := Inputs(InitialImages, values)), navigates);
            g.requested.Some? ==> 1 <= g.requested.value <= MaxImages
  {
    InputsStayBounded(values);
  }
}

=== FILE: in_and_out.dfy ===
/** The intake-and-output page: a single section, `intakeOutput`, whose
    validation view opens only once a column is selected. */
module InAndOut {
  import opened Wrappers
  import opened JsValues
  import opened ColumnMapping
  import DownloadControls
  import Api

  const IntakeOutputMapping: Mapping := [
    ("intakeoutputid", "Intake Output ID"),
    ("patientunitstayid", "Patient Unit Stay ID"),
    ("intakeoutputoffset", "Intake Output Offset"),
    ("intaketotal", "Intake Total"),
    ("outputtotal", "Output Total"),
    ("dialysistotal", "Dialysis Total"),
    ("nettotal", "Net Total"),
    ("intakeoutputentryoffset", "Entry Offset"),
    ("cellpath", "Cell Path"),
    ("celllabel", "Cell Label"),
    ("cellvaluenumeric", "Numeric Value"),
    ("cellvaluetext", "Text Value")]

  /** `intakeOutputColumns`, the keys of the mapping. */
  const Options: map<string, seq<string>> := map["intakeOutput" := Keys(IntakeOutputMapping)]

  /** The one section, wired to the backend table of the same name. */
  const Tables: map<string, string> := map["intakeOutput" := "intakeOutput"]

  function Policy(): DownloadControls.ViewPolicy {
    DownloadControls.ViewPolicy("Intake Output Data", column => Entry(IntakeOutputMapping, column), true)
  }

  /** The download button of the one section. */
  function Download(p: DownloadControls.Page, server: Api.Server,
                    atob: string -> Result<string>): (h: DownloadControls.Handled)
    ensures h.Blocked? <==> DownloadControls.Flag(p.showWarning, "intakeOutput")
    ensures h.Ran? ==> h.exchange.body == Api.RequestBody("intakeOutput",
                                                          DownloadControls.NumRowsArg(p, "intakeOutput"),
                                                          DownloadControls.ValidationColumnArg(p, "intakeOutput"))
    ensures h.Ran? && h.saved.Some? ==> h.saved.value.name == "intakeOutput" + "_synthetic.csv"
    ensures h.Ran? && h.saved.Some? ==>
              (h.view.Some? <==> DownloadControls.Flag(p.isValidationEnabled, "intakeOutput")
                                 && DownloadControls.SelectedColumn(p, "intakeOutput") != "")
    ensures h.Ran? && h.view.Some? ==>
              && h.view.value.tableName == "Intake Output Data"
              && h.view.value.validationColumnDisplay == Entry(IntakeOutputMapping, h.view.value.validationColumn)
  {
    var table := Tables["intakeOutput"];
    assert table == "intakeOutput";
    DownloadControls.Download(p, "intakeOutput", table, Policy(), server, atob)
  }

  lemma IntakeOutputMappingNamed()
    ensures Named(IntakeOutputMapping)
  {
  }

  /** The page has exactly one section, and its controls start in the state
      the invariant describes. */
  lemma InitialInv()
    ensures Options.Keys == Tables.Keys == {"intakeOutput"}
    ensures DownloadControls.Inv(DownloadControls.Initial(Options.Keys), Options)
  {
    DownloadControls.InitialInv(Options);
  }

  /** Checking "Validate Data" with nothing selected picks `intakeoutputid`,
      the first key of the mapping. */
  lemma CheckboxPicksIntakeOutputId(p: DownloadControls.Page)
    requires DownloadControls.SelectedColumn(p, "intakeOutput") == ""
    ensures var q := DownloadControls.ToggleValidation(p, "intakeOutput", true, Options["intakeOutput"]);
            "intakeOutput" in q.selectedColumns && q.selectedColumns["intakeOutput"] == "intakeoutputid"
  {
  }

  /** Every selectable column has a non-empty display name. */
  lemma OptionDisplayName(column: string)
    requires column in Options["intakeOutput"]
    ensures Entry(IntakeOutputMapping, column).Some? && Entry(IntakeOutputMapping, column).value != ""
  {
    IntakeOutputMappingNamed();
    EntryIffKey(IntakeOutputMapping, column);
    EntryNamed(IntakeOutputMapping, column);
  }
}

=== FILE: js_values.dfy ===
/** JavaScript values as the front end sees them after `JSON.parse`, and the
    few built-in operations on them the pages rely on: truthiness, `||`,
    property reads (with the `TypeError` on `null`/`undefined`) and `String(v)`.
    Numbers are integers here; fractional numbers are not modelled. */
module JsValues {
  import opened Wrappers
  import opened Text
  import Decimal

  datatype JsValue =
    | Undefined
    | Null
    | Bool(b: bool)
    | Num(n: int)
    | NaN
    | Str(s: string)
    | Arr(items: seq<JsValue>)
    | Obj(fields: seq<Field>)

  /** One own property of an object, in insertion order. */
  datatype Field = Field(key: string, value: JsValue)

  /** JavaScript truthiness: `undefined`, `null`, `false`, `0`, `NaN` and `""`
      are falsy; every array and object, even an empty one, is truthy. */
  predicate Truthy(v: JsValue) {
    match v
    case Undefined => false
    case Null => false
    case Bool(b) => b
    case Num(n) => n != 0
    case NaN => false
    case Str(s) => s != ""
    case Arr(_) => true
    case Obj(_) => true
  }

  /** `a || b`. */
  function Or(a: JsValue, b: JsValue): JsValue {
    if Truthy(a) then a else b
  }

  /** The value stored under `key`; when `JSON.parse` meets a key twice the
      later value wins, so the lookup runs from the end. */
  function Lookup(fields: seq<Field>, key: string): Option<JsValue> {
    if |fields| == 0 then None
    else if fields[|fields| - 1].key == key then Some(fields[|fields| - 1].value)
    else Lookup(fields[..|fields| - 1], key)
  }

  /** `o[key] = value`: an existing property keeps its position, a new one is
      appended. */
  function SetField(fields: seq<Field>, key: string, value: JsValue): (r: seq<Field>)
    ensures Lookup(r, key) == Some(value)
    ensures forall k :: k != key ==> Lookup(r, k) == Lookup(fields, k)
  {
    if Lookup(fields, key).None? then
      LookupAppend(fields, Field(key, value));
      fields + [Field(key, value)]
    else
      Replace(fields, key, value)
  }

  /** Overwrites the value of every property named `key`. */
  function Replace(fields: seq<Field>, key: string, value: JsValue): (r: seq<Field>)
    requires Lookup(fields, key).Some?
    ensures Lookup(r, key) == Some(value)
    ensures forall k :: k != key ==> Lookup(r, k) == Lookup(fields, k)
  {
    var last := fields[|fields| - 1];
    if last.key == key then
      ReplaceAll(fields[..|fields| - 1], key, value) + [Field(key, value)]
    else
      var r := Replace(fields[..|fields| - 1], key, value) + [last];
      assert r[..|r| - 1] == Replace(fields[..|fields| - 1], key, value);
      r
  }

  function ReplaceAll(fields: seq<Field>, key: string, value: JsValue): (r: seq<Field>)
    ensures |r| == |fields|
    ensures forall k :: k != key ==> Lookup(r, k) == Lookup(fields, k)
  {
    if |fields| == 0 then []
    else
      var last := fields[|fields| - 1];
      var r := ReplaceAll(fields[..|fields| - 1], key, value)
               + [if last.key == key then Field(key, value) else last];
      assert r[..|r| - 1] == ReplaceAll(fields[..|fields| - 1], key, value);
      r
  }

  lemma LookupAppend(fields: seq<Field>, f: Field)
    ensures Lookup(fields + [f], f.key) == Some(f.value)
    ensures forall k :: k != f.key ==> Lookup(fields + [f], k) == Lookup(fields, k)
  {
    assert (fields + [f])[..|fields|] == fields;
  }

  /** A property that no later property shadows is the one a lookup finds. */
  lemma {:induction false} LookupAt(fields: seq<Field>, i: nat)
    requires i < |fields|
    requires forall j :: i < j < |fields| ==> fields[j].key != fields[i].key
    ensures Lookup(fields, fields[i].key) == Some(fields[i].value)
    decreases |fields|
  {
    if i < |fields| - 1 {
      var init := fields[..|fields| - 1];
      assert init[i] == fields[i];
      LookupAt(init, i);
    }
  }

  /** A key no property has is not found. */
  lemma {:induction false} LookupMissing(fields: seq<Field>, key: string)
    requires forall i :: 0 <= i < |fields| ==> fields[i].key != key
    ensures Lookup(fields, key) == None
    decreases |fields|
  {
    if |fields| > 0 {
      LookupMissing(fields[..|fields| - 1], key);
    }
  }

  /** `v.key` for a value that is neither `null` nor `undefined`: an object's
      own property, and `undefined` for every other value (the built-in
      properties of strings and arrays are never read under the names used here). */
  function Prop(v: JsValue, key: string): JsValue {
    match v
    case Obj(fields) => Lookup(fields, key).GetOr(Undefined)
    case _ => Undefined
  }

  /** `v.length` for the values whose length the pages read: arrays and
      strings, and objects with a numeric `length` property. */
  function Length(v: JsValue): Option<int> {
    match v
    case Arr(items) => Some(|items|)
    case Str(s) => Some(|s|)
    case Obj(_) => if Prop(v, "length").Num? then Some(Prop(v, "length").n) else None
    case _ => None
  }

  /** `v.length > 0` (`undefined > 0` is false). */
  predicate HasPositiveLength(v: JsValue) {
    Length(v).Some? && Length(v).value > 0
  }

  /** The message of the `TypeError` raised by reading a property of
      `null` or `undefined` (V8's wording). */
  function ReadError(v: JsValue, key: string): string
    requires v.Undefined? || v.Null?
  {
    "Cannot read properties of " + (if v.Null? then "null" else "undefined")
    + " (reading '" + key + "')"
  }

  /** `v.key`, which throws on `null` and `undefined`. */
  function Get(v: JsValue, key: string): (r: Result<JsValue>)
    ensures r.Err? <==> v.Undefined? || v.Null?
    ensures r.Ok? ==> r.value == Prop(v, key)
  {
    if v.Undefined? || v.Null? then Err(ReadError(v, key)) else Ok(Prop(v, key))
  }

  /** `v?.key`: no exception, `undefined` on `null` and `undefined`. */
  function OptGet(v: JsValue, key: string): JsValue {
    if v.Undefined? || v.Null? then Undefined else Prop(v, key)
  }

  /** `String(v)`, as used by template literals and by `new Error(v).message`. */
  function ToJsString(v: JsValue): string
    decreases v, 0
  {
    match v
    case Undefined => "undefined"
    case Null => "null"
    case Bool(b) => if b then "true" else "false"
    case Num(n) => Decimal.Show(n)
    case NaN => "NaN"
    case Str(s) => s
    case Arr(items) => Join(seq(|items|, i requires 0 <= i < |items| => ElementString(items[i])), ",")
    case Obj(_) => "[object Object]"
  }

  /** How `Array.prototype.join` writes one element: holes, `null` and
      `undefined` become the empty string. */
  function ElementString(v: JsValue): string
    decreases v, 1
  {
    if v.Undefined? || v.Null? then "" else ToJsString(v)
  }

  /** `JSON.stringify` leaves out object properties whose value is `undefined`. */
  function OptionalField(key: string, value: Option<string>): seq<Field> {
    match value
    case Some(s) => [Field(key, Str(s))]
    case None => []
  }
}

=== FILE: literature_review.dfy ===
/** The literature-review page: it formats the query, posts it with the
    chosen number of results, normalises the papers that come back, and
    shows each paper's author list. */
module LiteratureReview {
  import opened Wrappers
  import opened Text
  import opened JsValues
  import Decimal

  // ---------------------------------------------------------------------
  // Query formatting: `query.trim().replace(/\s+/g, '_')`
  // ---------------------------------------------------------------------

  /** `replace(/\s+/g, '_')`: every maximal run of white space becomes one
      `_`; `inRun` says whether the previous character was white space. */
  function Collapse(s: string, inRun: bool): string {
    if s == [] then []
    else if IsJsSpace(s[0]) then (if inRun then [] else "_") + Collapse(s[1..], true)
    else [s[0]] + Collapse(s[1..], false)
  }

  lemma {:induction false} CollapseNoSpace(s: string, inRun: bool)
    ensures NoJsSpace(Collapse(s, inRun))
  {
    if s != [] {
      if IsJsSpace(s[0]) {
        CollapseNoSpace(s[1..], true);
        assert !IsJsSpace('_');
      } else {
        CollapseNoSpace(s[1..], false);
      }
    }
  }

  function FormatQuery(query: string): string {
    Collapse(JsTrim(query), false)
  }

  /** The longest prefix without white space. */
  function WordPrefix(s: string): (w: string)
    ensures |w| <= |s| && w == s[..|w|] && NoJsSpace(w)
    ensures |w| == |s| || IsJsSpace(s[|w|])
  {
    if s == [] || IsJsSpace(s[0]) then [] else [s[0]] + WordPrefix(s[1..])
  }

  /** The words of a string: its maximal runs of non-white-space characters. */
  function Words(s: string): seq<string>
    decreases |s|
  {
    var t := DropLeadingSpace(JavaScript, s);
    if t == [] then []
    else
      var w := WordPrefix(t);
      assert w != [] by { assert !IsJsSpace(t[0]); }
      [w] + Words(t[|w|..])
  }

  lemma WordSplit(t: string)
    ensures t == WordPrefix(t) + t[|WordPrefix(t)|..]
  {
    var w := WordPrefix(t);
    assert t == t[..|w|] + t[|w|..];
  }

  lemma WordsUnfold(s: string)
    requires DropLeadingSpace(JavaScript, s) != []
    ensures var t := DropLeadingSpace(JavaScript, s);
            Words(s) == [WordPrefix(t)] + Words(t[|WordPrefix(t)|..])
  {
  }

  /** The characters of `s` that are not white space, in order. */
  function Visible(s: string): string {
    if s == [] then [] else (if IsJsSpace(s[0]) then [] else [s[0]]) + Visible(s[1..])
  }

  lemma {:induction false} VisibleAppend(a: string, b: string)
    ensures Visible(a + b) == Visible(a) + Visible(b)
  {
    if a != [] {
      assert (a + b)[0] == a[0];
      assert (a + b)[1..] == a[1..] + b;
      VisibleAppend(a[1..], b);
    } else {
      assert a + b == b;
    }
  }

  lemma {:induction false} VisibleOfSpaces(s: string)
    requires forall i :: 0 <= i < |s| ==> IsJsSpace(s[i])
    ensures Visible(s) == []
  {
    if s != [] {
      VisibleOfSpaces(s[1..]);
    }
  }

  lemma {:induction false} VisibleOfWord(w: string)
    requires NoJsSpace(w)
    ensures Visible(w) == w
  {
    if w != [] {
      VisibleOfWord(w[1..]);
    }
  }

  /** What `DropLeadingSpace` removes is white space. */
  lemma {:induction false} DroppedAreSpaces(s: string)
    ensures var r := DropLeadingSpace(JavaScript, s);
            forall i :: 0 <= i < |s| - |r| ==> IsJsSpace(s[i])
  {
    if s != [] && IsJsSpace(s[0]) {
      DroppedAreSpaces(s[1..]);
    }
  }

  lemma DropLeadingIdle(s: string)
    requires s == [] || !IsJsSpace(s[0])
    ensures DropLeadingSpace(JavaScript, s) == s
  {
  }

  /** The words together are exactly the non-white-space characters, in order. */
  lemma {:induction false} WordsCoverVisible(s: string)
    ensures Concat(Words(s)) == Visible(s)
    decreases |s|
  {
    var t := DropLeadingSpace(JavaScript, s);
    DroppedAreSpaces(s);
    var k := |s| - |t|;
    assert s == s[..k] + t;
    VisibleOfSpaces(s[..k]);
    VisibleAppend(s[..k], t);
    if t != [] {
      var w := WordPrefix(t);
      var rest := t[|w|..];
      WordSplit(t);
      WordsCoverVisible(rest);
      VisibleAppend(w, rest);
      VisibleOfWord(w);
      WordsUnfold(s);
      ConcatCons(w, Words(rest));
    }
  }

  lemma ConcatCons(w: string, ws: seq<string>)
    ensures Concat([w] + ws) == w + Concat(ws)
  {
    assert ([w] + ws)[1..] == ws;
  }

  /** Dropping leading white space first does not change the words. */
  lemma WordsSkipSpace(s: string)
    ensures Words(DropLeadingSpace(JavaScript, s)) == Words(s)
  {
    DropLeadingIdle(DropLeadingSpace(JavaScript, s));
  }

  lemma {:induction false} CollapseWord(w: string, x: string, inRun: bool)
    requires NoJsSpace(w) && w != []
    ensures Collapse(w + x, inRun) == w + Collapse(x, false)
  {
    assert (w + x)[0] == w[0];
    assert (w + x)[1..] == w[1..] + x;
    if |w| > 1 {
      CollapseWord(w[1..], x, false);
    } else {
      assert w[1..] + x == x;
    }
  }

  /** A non-empty run of white space collapses to one `_`, or to nothing when
      it continues a run. */
  lemma {:induction false} CollapseRun(sp: string, v: string, inRun: bool)
    requires sp != [] && forall i :: 0 <= i < |sp| ==> IsJsSpace(sp[i])
    ensures Collapse(sp + v, inRun) == (if inRun then "" else "_") + Collapse(v, true)
  {
    assert (sp + v)[0] == sp[0];
    assert (sp + v)[1..] == sp[1..] + v;
    if |sp| > 1 {
      CollapseRun(sp[1..], v, true);
    } else {
      assert sp[1..] + v == v;
    }
  }

  /** Once the run has ended, whether one was in progress no longer matters. */
  lemma CollapseAfterRun(v: string)
    requires v == [] || !IsJsSpace(v[0])
    ensures Collapse(v, true) == Collapse(v, false)
  {
  }

  lemma {:induction false} DropTrailingKeep(a: string, b: string)
    requires DropTrailingSpace(JavaScript, b) != []
    ensures DropTrailingSpace(JavaScript, a + b) == a + DropTrailingSpace(JavaScript, b)
    decreases |b|
  {
    var ab := a + b;
    assert ab[|ab| - 1] == b[|b| - 1];
    if IsJsSpace(b[|b| - 1]) {
      assert ab[..|ab| - 1] == a + b[..|b| - 1];
      DropTrailingKeep(a, b[..|b| - 1]);
    }
  }

  lemma {:induction false} DropTrailingSpaces(a: string, b: string)
    requires forall i :: 0 <= i < |b| ==> IsJsSpace(b[i])
    ensures DropTrailingSpace(JavaScript, a + b) == DropTrailingSpace(JavaScript, a)
    decreases |b|
  {
    if b == [] {
      assert a + b == a;
    } else {
      var ab := a + b;
      assert ab[|ab| - 1] == b[|b| - 1];
      assert ab[..|ab| - 1] == a + b[..|b| - 1];
      DropTrailingSpaces(a, b[..|b| - 1]);
    }
  }

  /** A string that starts with a non-space character keeps it when trailing
      white space is dropped. */
  lemma {:induction false} DropTrailingStart(u: string)
    requires u != [] && !IsJsSpace(u[0])
    ensures DropTrailingSpace(JavaScript, u) != []
    ensures DropTrailingSpace(JavaScript, u)[0] == u[0]
    decreases |u|
  {
    if IsJsSpace(u[|u| - 1]) {
      DropTrailingStart(u[..|u| - 1]);
    }
  }

  lemma JoinCons(w: string, ws: seq<string>, sep: string)
    requires ws != []
    ensures Join([w] + ws, sep) == w + sep + Join(ws, sep)
  {
    assert ([w] + ws)[1..] == ws;
  }

  /** The last word: trailing white space goes, and the word stays as it is. */
  lemma CollapseLastWord(w: string, rest: string)
    requires NoJsSpace(w) && w != []
    requires forall i :: 0 <= i < |rest| ==> IsJsSpace(rest[i])
    ensures Collapse(DropTrailingSpace(JavaScript, w + rest), false) == w
  {
    DropTrailingSpaces(w, rest);
    assert DropTrailingSpace(JavaScript, w) == w by {
      assert !IsJsSpace(w[|w| - 1]);
    }
    CollapseWord(w, [], false);
    assert w + [] == w;
  }

  /** A word followed by a run of white space and more text. */
  lemma CollapseNextWord(w: string, sp: string, u: string)
    requires NoJsSpace(w) && w != []
    requires sp != [] && forall i :: 0 <= i < |sp| ==> IsJsSpace(sp[i])
    requires u != [] && !IsJsSpace(u[0])
    ensures Collapse(DropTrailingSpace(JavaScript, w + (sp + u)), false)
            == w + "_" + Collapse(DropTrailingSpace(JavaScript, u), false)
  {
    DropTrailingStart(u);
    var v := DropTrailingSpace(JavaScript, u);
    assert DropTrailingSpace(JavaScript, w + (sp + u)) == w + (sp + v) by {
      assert w + (sp + u) == (w + sp) + u;
      DropTrailingKeep(w + sp, u);
      assert (w + sp) + v == w + (sp + v);
    }
    assert Collapse(w + (sp + v), false) == w + Collapse(sp + v, false) by {
      CollapseWord(w, sp + v, false);
    }
    assert Collapse(sp + v, false) == "_" + Collapse(v, false) by {
      CollapseRun(sp, v, false);
      CollapseAfterRun(v);
    }
    assert w + ("_" + Collapse(v, false)) == w + "_" + Collapse(v, false);
  }

  /** Text that starts with a word: the word, then the words of the rest. */
  lemma FirstWord(t: string)
    requires t != [] && !IsJsSpace(t[0])
    ensures var w := WordPrefix(t);
            && w != [] && t == w + t[|w|..]
            && Words(t) == [w] + Words(DropLeadingSpace(JavaScript, t[|w|..]))
  {
    var w := WordPrefix(t);
    DropLeadingIdle(t);
    WordsUnfold(t);
    WordSplit(t);
    WordsSkipSpace(t[|w|..]);
  }

  /** After a word, the rest is a run of white space followed by the text
      the next word starts. */
  lemma AfterWord(t: string)
    requires t != [] && !IsJsSpace(t[0])
    ensures var rest := t[|WordPrefix(t)|..];
            var u := DropLeadingSpace(JavaScript, rest);
            && rest == rest[..|rest| - |u|] + u
            && (forall i :: 0 <= i < |rest| - |u| ==> IsJsSpace(rest[i]))
            && (u != [] ==> |rest| - |u| > 0)
  {
    var w := WordPrefix(t);
    var rest := t[|w|..];
    var u := DropLeadingSpace(JavaScript, rest);
    DroppedAreSpaces(rest);
    assert rest == rest[..|rest| - |u|] + rest[|rest| - |u|..];
  }

  /** The text after the first word, from the start of the next word on. */
  function NextWordStart(t: string): string {
    DropLeadingSpace(JavaScript, t[|WordPrefix(t)|..])
  }

  /** The formatting of text with a single word. */
  lemma StepLast(t: string)
    requires t != [] && !IsJsSpace(t[0]) && NextWordStart(t) == []
    ensures Collapse(DropTrailingSpace(JavaScript, t), false) == Join(Words(t), "_")
  {
    FirstWord(t);
    AfterWord(t);
    var w := WordPrefix(t);
    CollapseLastWord(w, t[|w|..]);
  }

  /** Formatting text with more than one word: the first word, one `_`,
      then the formatting of the text from the second word on. */
  lemma StepNextCollapse(t: string)
    requires t != [] && !IsJsSpace(t[0]) && NextWordStart(t) != []
    ensures Collapse(DropTrailingSpace(JavaScript, t), false)
            == WordPrefix(t) + "_" + Collapse(DropTrailingSpace(JavaScript, NextWordStart(t)), false)
  {
    var sp := NextWordParts(t);
    CollapseNextWord(WordPrefix(t), sp, NextWordStart(t));
  }

  /** Text with more than one word is its first word, a run of white space
      and the text from the second word on. */
  lemma NextWordParts(t: string) returns (sp: string)
    requires t != [] && !IsJsSpace(t[0]) && NextWordStart(t) != []
    ensures t == WordPrefix(t) + (sp + NextWordStart(t))
    ensures WordPrefix(t) != [] && sp != [] && forall i :: 0 <= i < |sp| ==> IsJsSpace(sp[i])
  {
    var w := WordPrefix(t);
    var u := NextWordStart(t);
    var rest := t[|w|..];
    sp := rest[..|rest| - |u|];
    assert w != [] by {
      assert !IsJsSpace(t[0]);
    }
    assert t == w + (sp + u) by {
      WordSplit(t);
      AfterWord(t);
    }
    AfterWord(t);
  }

  /** The words of text with more than one word. */
  lemma StepNextWords(t: string)
    requires t != [] && !IsJsSpace(t[0]) && NextWordStart(t) != []
    ensures Words(t) == [WordPrefix(t)] + Words(NextWordStart(t))
    ensures Words(NextWordStart(t)) != []
  {
    FirstWord(t);
    var u := NextWordStart(t);
    assert !IsJsSpace(u[0]);
    FirstWord(u);
  }

  /** The formatting of text with more than one word, given that of the
      text from the second word on. */
  lemma StepNext(t: string)
    requires t != [] && !IsJsSpace(t[0]) && NextWordStart(t) != []
    requires var u := NextWordStart(t);
             Collapse(DropTrailingSpace(JavaScript, u), false) == Join(Words(u), "_")
    ensures Collapse(DropTrailingSpace(JavaScript, t), false) == Join(Words(t), "_")
  {
    StepNextCollapse(t);
    StepNextWords(t);
    JoinCons(WordPrefix(t), Words(NextWordStart(t)), "_");
  }

  /** The heart of the formatting proof, for text that does not start with
      white space. */
  lemma {:induction false} CollapseTrimmed(t: string)
    requires t == [] || !IsJsSpace(t[0])
    ensures Collapse(DropTrailingSpace(JavaScript, t), false) == Join(Words(t), "_")
    decreases |t|
  {
    if t != [] {
      var u := NextWordStart(t);
      if u == [] {
        StepLast(t);
      } else {
        assert |u| < |t| by {
          FirstWord(t);
        }
        CollapseTrimmed(u);
        StepNext(t);
      }
    }
  }

  /** The formatted query is the query's words joined by `_`. */
  lemma FormatQueryJoinsWords(query: string)
    ensures FormatQuery(query) == Join(Words(query), "_")
  {
    CollapseTrimmed(DropLeadingSpace(JavaScript, query));
    WordsSkipSpace(query);
  }

  /** The formatted query has no white space, and dropping the `_`
      separators gives back every non-white-space character of the query,
      in order. */
  lemma FormatQueryKeepsText(query: string)
    ensures NoJsSpace(FormatQuery(query))
    ensures FormatQuery(query) == Join(Words(query), "_") && Concat(Words(query)) == Visible(query)
  {
    CollapseNoSpace(JsTrim(query), false);
    FormatQueryJoinsWords(query);
    WordsCoverVisible(query);
  }

  /** Formatting an already formatted query changes nothing. */
  lemma FormatQueryIdempotent(query: string)
    ensures FormatQuery(FormatQuery(query)) == FormatQuery(query)
  {
    var r := FormatQuery(query);
    CollapseNoSpace(JsTrim(query), false);
    assert r == [] || !IsJsSpace(r[0]);
    DropLeadingIdle(r);
    assert DropTrailingSpace(JavaScript, r) == r by {
      assert r == [] || !IsJsSpace(r[|r| - 1]);
    }
    if r != [] {
      CollapseWord(r, [], false);
      assert r + [] == r;
    }
  }

  // ---------------------------------------------------------------------
  // Result count
  // ---------------------------------------------------------------------

  /** The choices of the "number of papers" select: 1 to 20, in order. */
  function ResultOptions(): seq<int> {
    seq(20, i => i + 1)
  }

  const InitialMaxResults := 10

  /** The select offers exactly the counts 1..20, each once and in
      increasing order, and the initial count is among them. */
  lemma ResultOptionsRange()
    ensures |ResultOptions()| == 20
    ensures forall n :: n in ResultOptions() <==> 1 <= n <= 20
    ensures forall i, j :: 0 <= i < j < |ResultOptions()| ==> ResultOptions()[i] < ResultOptions()[j]
    ensures InitialMaxResults in ResultOptions()
  {
    forall n | 1 <= n <= 20
      ensures n in ResultOptions()
    {
      assert ResultOptions()[n - 1] == n;
    }
    assert ResultOptions()[InitialMaxResults - 1] == InitialMaxResults;
  }

  // ---------------------------------------------------------------------
  // Normalising the papers of a response
  // ---------------------------------------------------------------------

  /** The properties of a displayed paper, in the order they are built. */
  const PaperKeys: seq<string> :=
    ["source", "title", "authors", "publication_date", "url", "full_text_snippet", "summary"]

  /** The PubMed page of a paper, written from its `pmid` as a template literal does. */
  function PubMedUrl(paper: JsValue): string {
    "https://pubmed.ncbi.nlm.nih.gov/" + ToJsString(Prop(paper, "pmid")) + "/"
  }

  /** The values a displayed paper shows for falsy properties, in the order
      of `PaperKeys`. */
  function Defaults(paper: JsValue): (d: seq<JsValue>)
    ensures |d| == |PaperKeys|
  {
    [Str("PubMed"), Str("Untitled Paper"), Arr([]), Str("Unknown date"), Str(PubMedUrl(paper)),
     Str("No preview available"), Str("No summary available")]
  }

  /** Property `i` of the displayed paper: the paper's own value when truthy,
      the default otherwise. */
  function Filled(paper: JsValue, i: nat): Field
    requires i < |PaperKeys|
  {
    Field(PaperKeys[i], Or(Prop(paper, PaperKeys[i]), Defaults(paper)[i]))
  }

  /** The object built for one paper of the response. Reading a property of
      a `null` or missing paper throws. */
  function Normalize(paper: JsValue): (r: Result<JsValue>)
    ensures r.Err? <==> paper.Undefined? || paper.Null?
    ensures r.Err? ==> r.message == ReadError(paper, "source")
    ensures r.Ok? ==> r.value.Obj? && |r.value.fields| == |PaperKeys|
    ensures r.Ok? ==> forall i :: 0 <= i < |PaperKeys| ==> r.value.fields[i] == Filled(paper, i)
  {
    var _ :- Get(paper, "source");
    Ok(Obj(seq(|PaperKeys|, i requires 0 <= i < |PaperKeys| => Filled(paper, i))))
  }

  /** Every default is truthy, and none depends on more than the `pmid`. */
  lemma DefaultsTruthy(paper: JsValue, i: nat)
    requires i < |PaperKeys|
    ensures Truthy(Defaults(paper)[i])
  {
  }

  lemma PaperKeysDistinct()
    ensures forall i, j :: 0 <= i < j < |PaperKeys| ==> PaperKeys[i] != PaperKeys[j]
  {
  }

  /** Each property of a normalised paper reads back as built. */
  lemma NormalizedProp(paper: JsValue, i: nat)
    requires Normalize(paper).Ok? && i < |PaperKeys|
    ensures Prop(Normalize(paper).value, PaperKeys[i]) == Filled(paper, i).value
  {
    var fields := Normalize(paper).value.fields;
    PaperKeysDistinct();
    assert fields[i].key == PaperKeys[i];
    assert forall j :: i < j < |fields| ==> fields[j].key == PaperKeys[j];
    LookupAt(fields, i);
  }

  /** A normalised paper shows a truthy value for every property, and the
      paper's own value wherever that was truthy. */
  lemma NormalizedFieldsTruthy(paper: JsValue, i: nat)
    requires Normalize(paper).Ok? && i < |PaperKeys|
    ensures Truthy(Prop(Normalize(paper).value, PaperKeys[i]))
    ensures Truthy(Prop(paper, PaperKeys[i])) ==>
              Prop(Normalize(paper).value, PaperKeys[i]) == Prop(paper, PaperKeys[i])
  {
    NormalizedProp(paper, i);
    DefaultsTruthy(paper, i);
  }

  /** Normalising a normalised paper changes nothing. */
  lemma NormalizeIdempotent(paper: JsValue)
    requires Normalize(paper).Ok?
    ensures Normalize(Normalize(paper).value) == Normalize(paper)
  {
    var n := Normalize(paper).value;
    assert Normalize(n).Ok?;
    var nn := Normalize(n).value;
    forall i | 0 <= i < |PaperKeys|
      ensures nn.fields[i] == n.fields[i]
    {
      NormalizedFieldsTruthy(paper, i);
      NormalizedProp(paper, i);
      assert nn.fields[i] == Filled(n, i);
    }
    assert nn.fields == n.fields;
  }

  /** `pubmed.map(paper => ...)`: the papers normalised one by one in order;
      the first paper that throws ends the mapping with its error. */
  function NormalizeAll(papers: seq<JsValue>): (r: Result<seq<JsValue>>)
    ensures r.Ok? <==> forall i :: 0 <= i < |papers| ==> Normalize(papers[i]).Ok?
    ensures r.Ok? ==> |r.value| == |papers|
    ensures r.Ok? ==> forall i :: 0 <= i < |papers| ==> r.value[i] == Normalize(papers[i]).value
    ensures r.Err? ==> exists i :: 0 <= i < |papers| && Normalize(papers[i]).Err?
                        && r.message == Normalize(papers[i]).message
                        && forall j :: 0 <= j < i ==> Normalize(papers[j]).Ok?
  {
    if papers == [] then Ok([])
    else
      var first :- Normalize(papers[0]);
      var rest :- NormalizeAll(papers[1..]);
      Ok([first] + rest)
  }

  const NoResults := "No results found. Try a different search term."
  const NotMappable := "response.data.pubmed.map is not a function"

  /** What the page makes of `response.data`: `Ok(Some(papers))` for a list
      to show, `Ok(None)` for "no results", `Err` for an exception. */
  function Papers(data: JsValue): (r: Result<Option<seq<JsValue>>>)
    ensures data.Undefined? || data.Null? ==> r == Err(ReadError(data, "pubmed"))
    ensures !(data.Undefined? || data.Null?) ==>
              var pubmed := Prop(data, "pubmed");
              && (!(Truthy(pubmed) && HasPositiveLength(pubmed)) ==> r == Ok(None))
              && (Truthy(pubmed) && HasPositiveLength(pubmed) && !pubmed.Arr? ==> r == Err(NotMappable))
              && (pubmed.Arr? && pubmed.items != [] ==>
                    (r.Ok? <==> NormalizeAll(pubmed.items).Ok?)
                    && (r.Ok? ==> r.value == Some(NormalizeAll(pubmed.items).value)))
  {
    var pubmed :- Get(data, "pubmed");
    if Truthy(pubmed) && HasPositiveLength(pubmed) then
      match pubmed
      case Arr(items) =>
        var papers :- NormalizeAll(items);
        Ok(Some(papers))
      case _ => Err(NotMappable)
    else Ok(None)
  }

  // ---------------------------------------------------------------------
  // The search state
  // ---------------------------------------------------------------------

  /** The page state: the typed query, the chosen count, the papers shown
      (`None` for `null`), the loading flag and the error text. */
  datatype Search = Search(query: string, maxResults: int, results: Option<seq<JsValue>>,
                           loading: bool, error: string)

  const InitialSearch := Search("", InitialMaxResults, None, false, "")

  /** The JSON body posted to `/search`. */
  function SearchBody(s: Search): seq<Field> {
    [Field("query", Str(FormatQuery(s.query))), Field("max_results", Num(s.maxResults))]
  }

  /** `Failed to search: ${err.message || 'Connection error'}`. */
  function FailureText(message: string): string {
    "Failed to search: " + (if message == "" then "Connection error" else message)
  }

  /** The search service, as seen by the page: `response.data` for a body, or
      the message of the error `axios.post` rejected with. */
  type SearchService = seq<Field> -> Result<JsValue>

  /** One submission: the state while the request is in flight, the body
      posted, and the state after the `finally` block. */
  datatype SearchRun = SearchRun(inFlight: Search, body: seq<Field>, final: Search)

  /** The state after the response (or the rejection) has been handled. */
  function Settled(s: Search, response: Result<JsValue>): (r: Search)
    ensures r.query == s.query && r.maxResults == s.maxResults && !r.loading
    ensures response.Err? ==> r.results == s.results && r.error == FailureText(response.message)
    ensures response.Ok? ==>
              var papers := Papers(response.value);
              && (papers.Err? ==> r.results == s.results && r.error == FailureText(papers.message))
              && (papers == Ok(None) ==> r.results == s.results && r.error == NoResults)
              && (papers.Ok? && papers.value.Some? ==> r.results == papers.value && r.error == s.error)
  {
    var s' := match response
      case Err(m) => s.(error := FailureText(m))
      case Ok(data) =>
        match Papers(data)
        case Err(m) => s.(error := FailureText(m))
        case Ok(None) => s.(error := NoResults)
        case Ok(Some(papers)) => s.(results := Some(papers));
    s'.(loading := false)
  }

  /** `handleSearch`: clear the error and the results, set loading, post the
      formatted query and the count, and handle the answer. Afterwards the
      page shows either papers or an error, never both and never neither. */
  function Submit(s: Search, service: SearchService): (run: SearchRun)
    ensures run.inFlight == s.(loading := true, error := "", results := None)
    ensures Lookup(run.body, "query") == Some(Str(FormatQuery(s.query)))
    ensures Lookup(run.body, "max_results") == Some(Num(s.maxResults))
    ensures run.final == Settled(run.inFlight, service(run.body))
    ensures run.final.results.Some? <==> run.final.error == ""
  {
    var inFlight := s.(loading := true, error := "", results := None);
    var body := SearchBody(s);
    assert body[..1] == [Field("query", Str(FormatQuery(s.query)))];
    SearchRun(inFlight, body, Settled(inFlight, service(body)))
  }

  // ---------------------------------------------------------------------
  // The author line of a paper card
  // ---------------------------------------------------------------------

  /** The authors a card names, and how many it summarises as "+n more". */
  datatype AuthorLine = AuthorLine(shown: seq<JsValue>, more: nat)

  /** At most four authors are named; the rest are counted. */
  function SplitAuthors(authors: seq<JsValue>): (r: AuthorLine)
    ensures |r.shown| <= 4 && |r.shown| <= |authors| && r.shown == authors[..|r.shown|]
    ensures |r.shown| + r.more == |authors|
    ensures r.more > 0 <==> |authors| > 4
  {
    if |authors| > 4 then AuthorLine(authors[..4], |authors| - 4) else AuthorLine(authors, 0)
  }

  /** The text of an author line: the named authors joined by ", ", then
      " +n more" when some are left out. */
  function AuthorLineText(line: AuthorLine): string {
    Join(seq(|line.shown|, i requires 0 <= i < |line.shown| => ElementString(line.shown[i])), ", ")
    + (if line.more > 0 then " +" + Decimal.Show(line.more) + " more" else "")
  }

  const NoAuthors := "No authors listed"

  /** The author line of a card for the value `paper.authors`: falsy values
      show "No authors listed", arrays their line, and other values throw
      because they have no `slice` or `join`. */
  function AuthorsText(authors: JsValue): (r: Result<string>)
    ensures !Truthy(authors) ==> r == Ok(NoAuthors)
    ensures authors.Arr? ==> r == Ok(AuthorLineText(SplitAuthors(authors.items)))
    ensures r.Ok? <==> !Truthy(authors) || authors.Arr?
  {
    if Truthy(authors) && Length(authors).Some? && Length(authors).value > 4 then
      match authors
      case Arr(items) => Ok(AuthorLineText(SplitAuthors(items)))
      case Str(_) => Err("paper.authors.slice(...).join is not a function")
      case _ => Err("paper.authors.slice is not a function")
    else if !Truthy(authors) then Ok(NoAuthors)
    else
      match authors
      case Arr(items) => Ok(AuthorLineText(SplitAuthors(items)))
      case _ => Err("paper.authors.join is not a function")
  }

  /** A normalised paper whose authors were an array or missing always gets
      the line of an array: "No authors listed" never shows, and a paper
      without authors shows an empty line. */
  lemma NormalizedAuthorLine(paper: JsValue)
    requires Normalize(paper).Ok?
    requires Prop(paper, "authors").Arr? || !Truthy(Prop(paper, "authors"))
    ensures var a := Prop(Normalize(paper).value, "authors");
            && a.Arr?
            && AuthorsText(a) == Ok(AuthorLineText(SplitAuthors(a.items)))
            && (!Truthy(Prop(paper, "authors")) ==> AuthorsText(a) == Ok(""))
  {
    NormalizedProp(paper, 2);
    var empty: seq<JsValue> := [];
    assert AuthorLineText(SplitAuthors(empty)) == "" by {
      assert SplitAuthors(empty) == AuthorLine([], 0);
    }
  }

  // ---------------------------------------------------------------------
  // Runs of the page
  // ---------------------------------------------------------------------

  /** A paper as the page shows it: an object with a truthy value under
      every property the cards read. */
  predicate Displayable(p: JsValue) {
    p.Obj? && forall i :: 0 <= i < |PaperKeys| ==> Truthy(Prop(p, PaperKeys[i]))
  }

  predicate AllDisplayable(papers: seq<JsValue>) {
    forall k :: 0 <= k < |papers| ==> Displayable(papers[k])
  }

  /** What holds between handlers: nothing is loading, the count is one the
      select offers, and shown papers come with no error, are not empty and
      are all displayable. */
  predicate Inv(s: Search) {
    && !s.loading
    && 1 <= s.maxResults <= 20
    && (s.results.Some? ==>
          && s.error == "" && |s.results.value| > 0 && AllDisplayable(s.results.value))
  }

  lemma InitialInv()
    ensures Inv(InitialSearch)
  {
    ResultOptionsRange();
  }

  lemma NormalizedDisplayable(paper: JsValue)
    requires Normalize(paper).Ok?
    ensures Displayable(Normalize(paper).value)
  {
    forall i | 0 <= i < |PaperKeys|
      ensures Truthy(Prop(Normalize(paper).value, PaperKeys[i]))
    {
      NormalizedFieldsTruthy(paper, i);
    }
  }

  /** Papers handed to the page are non-empty and displayable. */
  lemma PapersDisplayable(data: JsValue)
    requires Papers(data).Ok? && Papers(data).value.Some?
    ensures |Papers(data).value.value| > 0
    ensures forall k :: 0 <= k < |Papers(data).value.value| ==> Displayable(Papers(data).value.value[k])
  {
    var items := Prop(data, "pubmed").items;
    var ps := Papers(data).value.value;
    assert ps == NormalizeAll(items).value;
    forall k | 0 <= k < |ps|
      ensures Displayable(ps[k])
    {
      NormalizedDisplayable(items[k]);
    }
  }

  /** A submission keeps the invariant, and the request it makes carries a
      query without white space and a count from 1 to 20. */
  lemma SubmitInv(s: Search, service: SearchService)
    requires Inv(s)
    ensures Inv(Submit(s, service).final)
    ensures Lookup(Submit(s, service).body, "max_results") == Some(Num(s.maxResults))
    ensures 1 <= s.maxResults <= 20
    ensures Lookup(Submit(s, service).body, "query") == Some(Str(FormatQuery(s.query)))
    ensures NoJsSpace(FormatQuery(s.query))
  {
    var run := Submit(s, service);
    ResultOptionsRange();
    CollapseNoSpace(JsTrim(s.query), false);
    var response := service(run.body);
    if response.Ok? && Papers(response.value).Ok? && Papers(response.value).value.Some? {
      PapersDisplayable(response.value);
    }
  }

  /** What the user can do: type a query, pick a count from the select, or
      submit the form (the browser refuses an empty query, and the button is
      disabled while loading). */
  datatype Event =
    | QueryTyped(text: string)
    | CountPicked(choice: nat)
    | Submitted(service: SearchService)

  predicate Possible(s: Search, e: Event) {
    match e
    case QueryTyped(_) => true
    case CountPicked(choice) => choice < |ResultOptions()|
    case Submitted(_) => s.query != "" && !s.loading
  }

  function Step(s: Search, e: Event): Search
    requires Possible(s, e)
  {
    match e
    case QueryTyped(text) => s.(query := text)
    case CountPicked(choice) => s.(maxResults := ResultOptions()[choice])
    case Submitted(service) => Submit(s, service).final
  }

  lemma StepInv(s: Search, e: Event)
    requires Inv(s) && Possible(s, e)
    ensures Inv(Step(s, e))
  {
    if e.Submitted? {
      SubmitInv(s, e.service);
    }
  }

  /** The state after a sequence of events, or `None` if one of them cannot happen. */
  function Run(s: Search, events: seq<Event>): Option<Search>
    decreases |events|
  {
    if events == [] then Some(s)
    else if !Possible(s, events[0]) then None
    else Run(Step(s, events[0]), events[1..])
  }

  /** Every state the page reaches keeps the invariant. */
  lemma {:induction false} RunKeepsInv(s: Search, events: seq<Event>)
    requires Inv(s)
    ensures Run(s, events).Some? ==> Inv(Run(s, events).value)
    decreases |events|
  {
    if events != [] && Possible(s, events[0]) {
      StepInv(s, events[0]);
      RunKeepsInv(Step(s, events[0]), events[1..]);
    }
  }
}

=== FILE: medi_and_treat.dfy ===
/** The medications-and-treatments page: admission drug, infusion drug,
    medication and treatment tables, each with its own download controls. */
module MediAndTreat {
  import opened Wrappers
  import opened JsValues
  import opened ColumnMapping
  import DownloadControls
  import Api

  const AdmissionDrugMapping: Mapping := [
    ("admissiondrugid", "Admission Drug ID"),
    ("patientunitstayid", "Patient Unit Stay ID"),
    ("drugoffset", "Drug Offset"),
    ("drugenteredoffset", "Drug Entered Offset"),
    ("drugnotetype", "Drug Note Type"),
    ("specialtytype", "Specialty Type"),
    ("usertype", "User Type"),
    ("rxincluded", "Rx Included"),
    ("writtenineicu", "Written in ICU"),
    ("drugname", "Drug Name"),
    ("drugdosage", "Drug Dosage"),
    ("drugunit", "Drug Unit"),
    ("drugadmitfrequency", "Drug Admit Frequency"),
    ("drughiclseqno", "Drug HICL Seq No")]

  const InfusionDrugMapping: Mapping := [
    ("infusiondrugid", "Infusion Drug ID"),
    ("patientunitstayid", "Patient Unit Stay ID"),
    ("infusionoffset", "Infusion Offset"),
    ("drugname", "Drug Name"),
    ("drugrate", "Drug Rate"),
    ("infusionrate", "Infusion Rate"),
    ("drugamount", "Drug Amount"),
    ("volumeoffluid", "Volume of Fluid"),
    ("patientweight", "Patient Weight")]

  const MedicationMapping: Mapping := [
    ("medicationid", "Medication ID"),
    ("patientunitstayid", "Patient Unit Stay ID"),
    ("drugorderoffset", "Drug Order Offset"),
    ("drugstartoffset", "Drug Start Offset"),
    ("drugivadmixture", "Drug IV Admixture"),
    ("drugordercancelled", "Drug Order Cancelled"),
    ("drugname", "Drug Name"),
    ("drughiclseqno", "Drug HICL Seq No"),
    ("dosage", "Dosage"),
    ("routeadmin", "Route of Admin"),
    ("frequency", "Frequency"),
    ("loadingdose", "Loading Dose"),
    ("prn", "PRN"),
    ("drugstopoffset", "Drug Stop Offset"),
    ("gtc", "GTC")]

  const TreatmentMapping: Mapping := [
    ("treatmentid", "Treatment ID"),
    ("patientunitstayid", "Patient Unit Stay ID"),
    ("treatmentoffset", "Treatment Offset"),
    ("treatmentstring", "Treatment String"),
    ("activeupondischarge", "Active Upon Discharge")]

  /** `getColumnMapping(section)`; any other section gets `{}`. */
  function GetColumnMapping(section: string): Mapping {
    if section == "admissionDrug" then AdmissionDrugMapping
    else     if section == "infusionDrug" then InfusionDrugMapping
    else     if section == "medication" then MedicationMapping
    else     if section == "treatment" then TreatmentMapping
    else []
  }

  const AdmissionDrugColumns: seq<string> := [
    "admissiondrugid",
    "patientunitstayid",
    "drugoffset",
    "drugenteredoffset",
    "drugnotetype",
    "specialtytype",
    "usertype",
    "rxincluded",
    "writtenineicu",
    "drugname",
    "drugdosage",
    "drugunit",
    "drugadmitfrequency",
    "drughiclseqno"]

  const InfusionDrugColumns: seq<string> := [
    "infusiondrugid",
    "patientunitstayid",
    "infusionoffset",
    "drugname",
    "drugrate",
    "infusionrate",
    "drugamount",
    "volumeoffluid",
    "patientweight"]

  const MedicationColumns: seq<string> := [
    "medicationid",
    "patientunitstayid",
    "drugorderoffset",
    "drugstartoffset",
    "drugivadmixture",
    "drugordercancelled",
    "drugname",
    "drughiclseqno",
    "dosage",
    "routeadmin",
    "frequency",
    "loadingdose",
    "prn",
    "drugstopoffset",
    "gtc"]

  const TreatmentColumns: seq<string> := [
    "treatmentid",
    "patientunitstayid",
    "treatmentoffset",
    "treatmentstring",
    "activeupondischarge"]

  /** The column list each section's controls are rendered with. */
  const Options: map<string, seq<string>> := map["admissionDrug" := AdmissionDrugColumns, "infusionDrug" := InfusionDrugColumns, "medication" := MedicationColumns, "treatment" := TreatmentColumns]

  /** The backend table each section's download button asks for. */
  const Tables: map<string, string> := map["admissionDrug" := "admissiondrug", "infusionDrug" := "infusiondrug", "medication" := "medication", "treatment" := "treatment"]

  /** The table name the validation view shows; every section outside the
      explicit comparisons gets the last name of the chain. */
  function TableDisplay(section: string): (name: string)
    ensures name == "Admission Drug Data" <==> section == "admissionDrug"
    ensures name == "Infusion Drug Data" <==> section == "infusionDrug"
    ensures name == "Medication Data" <==> section == "medication"
    ensures name == "Treatment Data" <==> section != "admissionDrug" && section != "infusionDrug" && section != "medication"
  {
    if section == "admissionDrug" then "Admission Drug Data"
    else if section == "infusionDrug" then "Infusion Drug Data"
    else if section == "medication" then "Medication Data"
    else "Treatment Data"
  }

  /** The page opens the view whenever validation is on, and shows
      `mapping[column] || column` as the column's display name. */
  function Policy(section: string): DownloadControls.ViewPolicy {
    DownloadControls.ViewPolicy(TableDisplay(section),
                                column => Some(WithFallback(GetColumnMapping(section), column)),
                                false)
  }

  /** The download button of a section: `handleDownload(section, tableName)`
      with the table the page wires to that section. */
  function Download(p: DownloadControls.Page, section: string, server: Api.Server,
                    atob: string -> Result<string>): (h: DownloadControls.Handled)
    requires section in Tables
    ensures h.Blocked? <==> DownloadControls.Flag(p.showWarning, section)
    ensures h.Ran? ==> h.exchange.body == Api.RequestBody(Tables[section],
                                                          DownloadControls.NumRowsArg(p, section),
                                                          DownloadControls.ValidationColumnArg(p, section))
    ensures h.Ran? && h.saved.Some? ==> h.saved.value.name == Tables[section] + "_synthetic.csv"
    ensures h.Ran? && h.saved.Some? ==> (h.view.Some? <==> DownloadControls.Flag(p.isValidationEnabled, section))
    ensures h.Ran? && h.view.Some? ==>
              && h.view.value.tableName == TableDisplay(section)
              && h.view.value.validationColumnDisplay
                 == Some(WithFallback(GetColumnMapping(section), h.view.value.validationColumn))
  {
    DownloadControls.Download(p, section, Tables[section], Policy(section), server, atob)
  }

  /** The explicit column arrays list exactly the keys of the section's
      mapping, in declaration order, and every display name is non-empty. */
  lemma OptionsAreMappingKeys()
    ensures Options.Keys == Tables.Keys
    ensures forall s :: s in Options ==> Options[s] == Keys(GetColumnMapping(s)) && Named(GetColumnMapping(s))
  {
    AdmissionDrugColumnsAreKeys();
    InfusionDrugColumnsAreKeys();
    MedicationColumnsAreKeys();
    TreatmentColumnsAreKeys();
  }

  lemma AdmissionDrugColumnsAreKeys()
    ensures AdmissionDrugColumns == Keys(AdmissionDrugMapping) && Named(AdmissionDrugMapping)
  {
    assert |AdmissionDrugColumns| == |AdmissionDrugMapping|;
  }

  lemma InfusionDrugColumnsAreKeys()
    ensures InfusionDrugColumns == Keys(InfusionDrugMapping) && Named(InfusionDrugMapping)
  {
    assert |InfusionDrugColumns| == |InfusionDrugMapping|;
  }

  lemma MedicationColumnsAreKeys()
    ensures MedicationColumns == Keys(MedicationMapping) && Named(MedicationMapping)
  {
    assert |MedicationColumns| == |MedicationMapping|;
  }

  lemma TreatmentColumnsAreKeys()
    ensures TreatmentColumns == Keys(TreatmentMapping) && Named(TreatmentMapping)
  {
    assert |TreatmentColumns| == |TreatmentMapping|;
  }

  /** Every column the select offers has a display name of its own, so the
      raw-column fallback never shows. */
  lemma OptionDisplayName(section: string, column: string)
    requires section in Options && column in Options[section]
    ensures Some(WithFallback(GetColumnMapping(section), column)) == Entry(GetColumnMapping(section), column)
  {
    OptionsAreMappingKeys();
    FallbackIffUnlisted(GetColumnMapping(section), column);
  }

  /** The initial state satisfies the download-control invariant, so every
      reachable state does. */
  lemma InitialInv()
    ensures DownloadControls.Inv(DownloadControls.Initial(Options.Keys), Options)
  {
    OptionsAreMappingKeys();
    DownloadControls.InitialInv(Options);
  }
}

=== FILE: patient_info.dfy ===
/** The patient-information page: patient, APACHE APS and APACHE prediction
    tables, each with its own download controls. */
module PatientInfo {
  import opened Wrappers
  import opened JsValues
  import opened ColumnMapping
  import DownloadControls
  import Api

  const PatientMapping: Mapping := [
    ("patientunitstayid", "Patient Unit Stay ID"),
    ("patienthealthsystemstayid", "Patient Health System Stay ID"),
    ("gender", "Gender"),
    ("age", "Age"),
    ("ethnicity", "Ethnicity"),
    ("hospitalid", "Hospital ID"),
    ("wardid", "Ward ID"),
    ("apacheadmissiondx", "Apache Admission DX"),
    ("admissionheight", "Admission Height"),
    ("hospitaladmittime24", "Hospital Admit Time 24"),
    ("hospitaladmitoffset", "Hospital Admit Offset"),
    ("hospitaladmitsource", "Hospital Admit Source"),
    ("hospitaldischargeyear", "Hospital Discharge Year"),
    ("hospitaldischargeoffset", "Hospital Discharge Offset"),
    ("hospitaldischargelocation", "Hospital Discharge Location"),
    ("hospitaldischargestatus", "Hospital Discharge Status"),
    ("unittype", "Unit Type"),
    ("unitadmittime24", "Unit Admit Time 24"),
    ("unitadmitsource", "Unit Admit Source"),
    ("unitvisitnumber", "Unit Visit Number"),
    ("unitstaytype", "Unit Stay Type"),
    ("admissionweight", "Admission Weight"),
    ("dischargeweight", "Discharge Weight"),
    ("unitdischargeoffset", "Unit Discharge Offset"),
    ("unitdischargelocation", "Unit Discharge Location"),
    ("unitdischargestatus", "Unit Discharge Status"),
    ("uniquepid", "Unique PID")]

  const ApacheApsMapping: Mapping := [
    ("apacheapsvarid", "Apache APS ID"),
    ("patientunitstayid", "Patient Unit Stay ID"),
    ("intubated", "Intubated"),
    ("vent", "Ventilation"),
    ("dialysis", "Dialysis"),
    ("eyes", "Eyes"),
    ("motor", "Motor"),
    ("verbal", "Verbal"),
    ("meds", "Meds"),
    ("urine", "Urine"),
    ("wbc", "WBC"),
    ("temperature", "Temperature"),
    ("respiratoryrate", "Respiratory Rate"),
    ("sodium", "Sodium"),
    ("heartrate", "Heart Rate"),
    ("meanbp", "Mean Blood Pressure"),
    ("ph", "PH"),
    ("hematocrit", "Hematocrit"),
    ("creatinine", "Creatinine"),
    ("albumin", "Albumin"),
    ("pao2", "PAO2"),
    ("pco2", "PCO2"),
    ("bun", "BUN"),
    ("glucose", "Glucose"),
    ("bilirubin", "Bilirubin"),
    ("fio2", "FIO2")]

  const ApachePredVarMapping: Mapping := [
    ("apachepredvarid", "Apache Pred Var ID"),
    ("patientunitstayid", "Patient Unit Stay ID"),
    ("apacheversion", "Apache Version"),
    ("predictedhospitalmortality", "Predicted Hospital Mortality"),
    ("actualicumortality", "Actual ICU Mortality"),
    ("actualhospitalmortality", "Actual Hospital Mortality"),
    ("predictedicumortality", "Predicted ICU Mortality"),
    ("predictediculos", "Predicted ICU LOS"),
    ("actualiculos", "Actual ICU LOS"),
    ("predictedhospitallos", "Predicted Hospital LOS"),
    ("actualhospitallos", "Actual Hospital LOS"),
    ("preopmi", "Preop MI"),
    ("preopcardiaccath", "Preop Cardiac Cath"),
    ("ptcawithin24h", "PTCA Within 24h"),
    ("unabridgedunitlos", "Unabridged Unit LOS"),
    ("unabridgedhosplos", "Unabridged Hosp LOS"),
    ("actualventdays", "Actual Vent Days"),
    ("predventdays", "Pred Vent Days"),
    ("unabridgedactualventdays", "Unabridged Actual Vent Days")]

  /** `getColumnMapping(section)`; any other section gets `{}`. */
  function GetColumnMapping(section: string): Mapping {
    if section == "patient" then PatientMapping
    else     if section == "apacheAps" then ApacheApsMapping
    else     if section == "apachePredVar" then ApachePredVarMapping
    else []
  }

  const PatientColumns: seq<string> := [
    "patientunitstayid",
    "patienthealthsystemstayid",
    "gender",
    "age",
    "ethnicity",
    "hospitalid",
    "wardid",
    "apacheadmissiondx",
    "admissionheight",
    "hospitaladmittime24",
    "hospitaladmitoffset",
    "hospitaladmitsource",
    "hospitaldischargeyear",
    "hospitaldischargeoffset",
    "hospitaldischargelocation",
    "hospitaldischargestatus",
    "unittype",
    "unitadmittime24",
    "unitadmitsource",
    "unitvisitnumber",
    "unitstaytype",
    "admissionweight",
    "dischargeweight",
    "unitdischargeoffset",
    "unitdischargelocation",
    "unitdischargestatus",
    "uniquepid"]

  const ApacheApsColumns: seq<string> := [
    "apacheapsvarid",
    "patientunitstayid",
    "intubated",
    "vent",
    "dialysis",
    "eyes",
    "motor",
    "verbal",
    "meds",
    "urine",
    "wbc",
    "temperature",
    "respiratoryrate",
    "sodium",
    "heartrate",
    "meanbp",
    "ph",
    "hematocrit",
    "creatinine",
    "albumin",
    "pao2",
    "pco2",
    "bun",
    "glucose",
    "bilirubin",
    "fio2"]

  const ApachePredVarColumns: seq<string> := [
    "apachepredvarid",
    "patientunitstayid",
    "apacheversion",
    "predictedhospitalmortality",
    "actualicumortality",
    "actualhospitalmortality",
    "predictedicumortality",
    "predictediculos",
    "actualiculos",
    "predictedhospitallos",
    "actualhospitallos",
    "preopmi",
    "preopcardiaccath",
    "ptcawithin24h",
    "unabridgedunitlos",
    "unabridgedhosplos",
    "actualventdays",
    "predventdays",
    "unabridgedactualventdays"]

  /** The column list each section's controls are rendered with. */
  const Options: map<string, seq<string>> := map["patient" := PatientColumns, "apacheAps" := ApacheApsColumns, "apachePredVar" := ApachePredVarColumns]

  /** The backend table each section's download button asks for. */
  const Tables: map<string, string> := map["patient" := "patient", "apacheAps" := "apacheApsVar", "apachePredVar" := "apachePredVar"]

  /** The table name the validation view shows; every section outside the
      explicit comparisons gets the last name of the chain. */
  function TableDisplay(section: string): (name: string)
    ensures name == "Patient Data" <==> section == "patient"
    ensures name == "Apache APS Data" <==> section == "apacheAps"
    ensures name == "Apache Prediction Data" <==> section != "patient" && section != "apacheAps"
  {
    if section == "patient" then "Patient Data"
    else if section == "apacheAps" then "Apache APS Data"
    else "Apache Prediction Data"
  }

  /** The page opens the view whenever validation is on, and shows
      `mapping[column] || column` as the column's display name. */
  function Policy(section: string): DownloadControls.ViewPolicy {
    DownloadControls.ViewPolicy(TableDisplay(section),
                                column => Some(WithFallback(GetColumnMapping(section), column)),
                                false)
  }

  /** The download button of a section: `handleDownload(section, tableName)`
      with the table the page wires to that section. */
  function Download(p: DownloadControls.Page, section: string, server: Api.Server,
                    atob: string -> Result<string>): (h: DownloadControls.Handled)
    requires section in Tables
    ensures h.Blocked? <==> DownloadControls.Flag(p.showWarning, section)
    ensures h.Ran? ==> h.exchange.body == Api.RequestBody(Tables[section],
                                                          DownloadControls.NumRowsArg(p, section),
                                                          DownloadControls.ValidationColumnArg(p, section))
    ensures h.Ran? && h.saved.Some? ==> h.saved.value.name == Tables[section] + "_synthetic.csv"
    ensures h.Ran? && h.saved.Some? ==> (h.view.Some? <==> DownloadControls.Flag(p.isValidationEnabled, section))
    ensures h.Ran? && h.view.Some? ==>
              && h.view.value.tableName == TableDisplay(section)
              && h.view.value.validationColumnDisplay
                 == Some(WithFallback(GetColumnMapping(section), h.view.value.validationColumn))
  {
    DownloadControls.Download(p, section, Tables[section], Policy(section), server, atob)
  }

  /** The explicit column arrays list exactly the keys of the section's
      mapping, in declaration order, and every display name is non-empty. */
  lemma OptionsAreMappingKeys()
    ensures Options.Keys == Tables.Keys
    ensures forall s :: s in Options ==> Options[s] == Keys(GetColumnMapping(s)) && Named(GetColumnMapping(s))
  {
    PatientColumnsAreKeys();
    ApacheApsColumnsAreKeys();
    ApachePredVarColumnsAreKeys();
  }

  lemma PatientColumnsAreKeys()
    ensures PatientColumns == Keys(PatientMapping) && Named(PatientMapping)
  {
    assert |PatientColumns| == |PatientMapping|;
  }

  lemma ApacheApsColumnsAreKeys()
    ensures ApacheApsColumns == Keys(ApacheApsMapping) && Named(ApacheApsMapping)
  {
    assert |ApacheApsColumns| == |ApacheApsMapping|;
  }

  lemma ApachePredVarColumnsAreKeys()
    ensures ApachePredVarColumns == Keys(ApachePredVarMapping) && Named(ApachePredVarMapping)
  {
    assert |ApachePredVarColumns| == |ApachePredVarMapping|;
  }

  /** Every column the select offers has a display name of its own, so the
      raw-column fallback never shows. */
  lemma OptionDisplayName(section: string, column: string)
    requires section in Options && column in Options[section]
    ensures Some(WithFallback(GetColumnMapping(section), column)) == Entry(GetColumnMapping(section), column)
  {
    OptionsAreMappingKeys();
    FallbackIffUnlisted(GetColumnMapping(section), column);
  }

  /** The initial state satisfies the download-control invariant, so every
      reachable state does. */
  lemma InitialInv()
    ensures DownloadControls.Inv(DownloadControls.Initial(Options.Keys), Options)
  {
    OptionsAreMappingKeys();
    DownloadControls.InitialInv(Options);
  }
}

=== FILE: pmc_text.dfy ===
/** Full-text extraction from PubMed Central XML (`strip_ns` and
    `extract_text_from_pmc_xml`, written identically in both backend files),
    over an abstract element tree; the XML parser is a parameter. */
module PmcText {
  import opened Wrappers
  import opened Text

  /** `tag.split('}')[-1]`: the part of a tag after its last `}`, which
      drops an ElementTree namespace prefix `{uri}`. */
  function StripNs(tag: string): string {
    if |tag| == 0 || tag[|tag| - 1] == '}' then ""
    else StripNs(tag[..|tag| - 1]) + [tag[|tag| - 1]]
  }

  /** The result is the longest suffix of the tag without a `}`: a suffix,
      free of `}`, and either the whole tag or preceded by a `}`. */
  lemma {:induction false} StripNsSuffix(tag: string)
    ensures |StripNs(tag)| <= |tag| && StripNs(tag) == tag[|tag| - |StripNs(tag)|..]
    ensures forall i :: 0 <= i < |StripNs(tag)| ==> StripNs(tag)[i] != '}'
    ensures |StripNs(tag)| < |tag| ==> tag[|tag| - |StripNs(tag)| - 1] == '}'
    decreases |tag|
  {
    if |tag| > 0 && tag[|tag| - 1] != '}' {
      var init := tag[..|tag| - 1];
      StripNsSuffix(init);
      assert tag[|tag| - |StripNs(tag)|..] == init[|init| - |StripNs(init)|..] + [tag[|tag| - 1]];
    }
  }

  /** A tag with no `}` is its own local name. */
  lemma StripNsPlain(tag: string)
    requires forall i :: 0 <= i < |tag| ==> tag[i] != '}'
    ensures StripNs(tag) == tag
  {
    StripNsSuffix(tag);
  }

  /** A namespaced tag `{ns}local` strips to `local`, whatever `ns` holds. */
  lemma StripNsQualified(ns: string, local: string)
    requires forall i :: 0 <= i < |local| ==> local[i] != '}'
    ensures StripNs("{" + ns + "}" + local) == local
  {
    var tag := "{" + ns + "}" + local;
    var r := StripNs(tag);
    StripNsSuffix(tag);
    assert tag[|tag| - |local|..] == local;
    assert tag[|tag| - |local| - 1] == '}';
  }

  lemma StripNsIdempotent(tag: string)
    ensures StripNs(StripNs(tag)) == StripNs(tag)
  {
    StripNsSuffix(tag);
    StripNsPlain(StripNs(tag));
  }

  /** An element as ElementTree parses it: its tag, its leading text (absent
      when the element starts with a child or is empty) and its children. */
  datatype Element = Element(tag: string, text: Option<string>, children: seq<Element>)

  /** `root.iter()`: the element and all its descendants, in document (pre-)order. */
  function Iter(e: Element): (r: seq<Element>)
    ensures |r| >= 1 && r[0] == e
    decreases e
  {
    [e] + IterAll(e.children)
  }

  /** The pre-order listings of a list of siblings, one after the other. */
  function IterAll(es: seq<Element>): seq<Element>
    decreases es
  {
    if |es| == 0 then [] else Iter(es[0]) + IterAll(es[1..])
  }

  /** The local names whose text the extraction keeps. */
  predicate TextTag(local: string) {
    local == "p" || local == "title" || local == "sec"
  }

  /** `strip_ns(elem.tag) in ['p', 'title', 'sec']` and `elem.text` is non-empty. */
  predicate Selected(e: Element) {
    TextTag(StripNs(e.tag)) && e.text.Some? && e.text.value != ""
  }

  /** The texts of one element's own contribution. */
  function OwnPiece(e: Element): (r: seq<string>)
    ensures Selected(e) <==> |r| == 1
    ensures !Selected(e) <==> r == []
    ensures Selected(e) ==> r[0] == PyStrip(e.text.value)
  {
    if Selected(e) then [PyStrip(e.text.value)] else []
  }

  /** The stripped texts of the selected elements, in the order given. */
  function Pieces(elems: seq<Element>): (r: seq<string>)
    ensures |r| <= |elems|
  {
    if |elems| == 0 then [] else OwnPiece(elems[0]) + Pieces(elems[1..])
  }

  lemma {:induction false} PiecesAppend(a: seq<Element>, b: seq<Element>)
    ensures Pieces(a + b) == Pieces(a) + Pieces(b)
    decreases |a|
  {
    if |a| == 0 {
      assert a + b == b;
    } else {
      assert (a + b)[0] == a[0];
      assert (a + b)[1..] == a[1..] + b;
      PiecesAppend(a[1..], b);
      assert Pieces(a + b) == OwnPiece(a[0]) + (Pieces(a[1..]) + Pieces(b));
    }
  }

  lemma PiecesSnoc(elems: seq<Element>, e: Element)
    ensures Pieces(elems + [e]) == Pieces(elems) + OwnPiece(e)
  {
    var none: seq<Element> := [];
    assert [e][1..] == none;
    assert Pieces(none) == [];
    assert Pieces([e]) == OwnPiece(e);
    PiecesAppend(elems, [e]);
  }

  /** One more element of the walk adds its own piece. */
  lemma PiecesPrefix(elems: seq<Element>, k: nat)
    requires k < |elems|
    ensures Pieces(elems[..k + 1]) == Pieces(elems[..k]) + OwnPiece(elems[k])
  {
    assert elems[..k + 1] == elems[..k] + [elems[k]];
    PiecesSnoc(elems[..k], elems[k]);
  }

  /** The extracted pieces defined on the tree itself: an element's own text
      comes before the pieces of its children, taken left to right. */
  function TreePieces(e: Element): seq<string>
    decreases e
  {
    OwnPiece(e) + TreePiecesAll(e.children)
  }

  function TreePiecesAll(es: seq<Element>): seq<string>
    decreases es
  {
    if |es| == 0 then [] else TreePieces(es[0]) + TreePiecesAll(es[1..])
  }

  /** Scanning the pre-order listing of the tree collects exactly the tree's
      pieces: the walk visits every element once, parents before children. */
  lemma {:induction false} PiecesIsTreePieces(e: Element)
    ensures Pieces(Iter(e)) == TreePieces(e)
    decreases e
  {
    PiecesAppend([e], IterAll(e.children));
    PiecesAllIsTreePieces(e.children);
  }

  lemma {:induction false} PiecesAllIsTreePieces(es: seq<Element>)
    ensures Pieces(IterAll(es)) == TreePiecesAll(es)
    decreases es
  {
    if |es| > 0 {
      PiecesAppend(Iter(es[0]), IterAll(es[1..]));
      PiecesIsTreePieces(es[0]);
      PiecesAllIsTreePieces(es[1..]);
    }
  }

  /** The loop of `extract_text_from_pmc_xml`: walks the elements in order
      and appends the stripped text of every selected one. */
  method CollectTexts(elems: seq<Element>) returns (texts: seq<string>)
    ensures texts == Pieces(elems)
  {
    texts := [];
    var k := 0;
    while k < |elems|
      invariant 0 <= k <= |elems|
      invariant texts == Pieces(elems[..k])
    {
      var e := elems[k];
      PiecesPrefix(elems, k);
      if TextTag(StripNs(e.tag)) {
        if e.text.Some? && e.text.value != "" {
          texts := texts + [PyStrip(e.text.value)];
        }
      }
      k := k + 1;
    }
    assert elems[..k] == elems;
  }

  /** `extract_text_from_pmc_xml(xml_text)`: `None` when the text does not
      parse, otherwise the pieces joined by single spaces. */
  method ExtractText(xml: string, parse: string -> Option<Element>) returns (r: Option<string>)
    ensures parse(xml).None? <==> r.None?
    ensures parse(xml).Some? ==> r == Some(Join(TreePieces(parse(xml).value), " "))
  {
    var root := parse(xml);
    if root.None? {
      return None;
    }
    var texts := CollectTexts(Iter(root.value));
    PiecesIsTreePieces(root.value);
    return Some(Join(texts, " "));
  }

  /** The function the rest of the model uses for the same result. */
  function Extracted(xml: string, parse: string -> Option<Element>): Option<string> {
    match parse(xml)
    case None => None
    case Some(root) => Some(Join(TreePieces(root), " "))
  }

  /** A document whose root is a selected element with no children yields
      that element's stripped text. */
  lemma LeafText(e: Element)
    requires Selected(e) && e.children == []
    ensures TreePieces(e) == [PyStrip(e.text.value)]
  {
  }

  /** An element that is not selected adds nothing of its own: its pieces
      are its children's. */
  lemma UnselectedAddsNothing(e: Element)
    requires !Selected(e)
    ensures TreePieces(e) == TreePiecesAll(e.children)
  {
  }
}

=== FILE: pubmed.dfy ===
/** The per-paper assembly both `/search` routes share: the PubMed summary
    lookup with its defaults, the PMC link, the choice between full text
    and abstract, the snippet and the summary. Every remote reply, the XML
    parser and the summariser are parameters. */
module PubMed {
  import opened Wrappers
  import opened Text
  import opened PyValues
  import opened PmcText

  const NoTitle := "No title"
  const UnknownDate := "Unknown"
  const DefaultSource := "PubMed"
  const AbstractMissing := "Abstract not available."
  const SummaryFailed := "Summary generation failed."
  const PaperUrlBase := "https://pubmed.ncbi.nlm.nih.gov/"
  /** `max_len`: how much of the text is kept and summarised. */
  const MaxSnippet := 1000
  const AbstractTag := "AbstractText"
  /** The message of the `ET.ParseError` an unparsable abstract raises. */
  const NotWellFormed := "not well-formed (invalid token)"

  /** The keys of one paper of the response, in insertion order. */
  function PaperKeys(): seq<string> {
    ["source", "title", "authors", "publication_date", "url", "full_text_snippet", "summary"]
  }

  /** What the remote services answer about one PubMed id. */
  datatype Replies = Replies(
    /** esummary: the JSON body, or what `requests.get`, `raise_for_status` or `json` raised. */
    summary: Result<PyValue>,
    /** elink: likewise. */
    link: Result<PyValue>,
    /** `fetch_pmc_full_text`: the body of a 200 answer for the linked PMC
        article, `None` for any other status, or what `requests.get` raised. */
    pmcBody: Result<Option<string>>,
    /** efetch: the body of a 200 answer, `None` for any other status, or
        what `requests.get` raised. */
    abstractBody: Result<Option<string>>)

  function NoGet(v: PyValue): string {
    "'" + TypeName(v) + "' object has no attribute 'get'"
  }

  /** The result of one subscript `v[key]` or `v[0]`: a value, a `KeyError`
      or `IndexError` (which `get_pmcid_from_pmid` catches), or another
      exception (which it does not). */
  datatype Lookup = Found(v: PyValue) | Missing | Raised(message: string)

  /** `v[key]` with a string key. */
  function Subscript(v: PyValue, key: string): (r: Lookup)
    ensures v.PyDict? ==> !r.Raised? && (r.Missing? <==> DictGet(v.entries, key).None?)
    ensures !v.PyDict? ==> r.Raised?
  {
    match v
    case PyDict(entries) => if DictGet(entries, key).Some? then Found(DictGet(entries, key).value) else Missing
    case PyList(_) => Raised("list indices must be integers or slices, not str")
    case PyStr(_) => Raised("string indices must be integers, not 'str'")
    case _ => Raised("'" + TypeName(v) + "' object is not subscriptable")
  }

  /** `v[0]`. */
  function First(v: PyValue): (r: Lookup)
    ensures v.PyList? ==> (r.Missing? <==> v.items == []) && (v.items != [] ==> r == Found(v.items[0]))
    ensures v.PyDict? ==> r.Missing?
  {
    match v
    case PyList(items) => if |items| == 0 then Missing else Found(items[0])
    case PyStr(s) => if |s| == 0 then Missing else Found(PyStr([s[0]]))
    case PyDict(_) => Missing
    case _ => Raised("'" + TypeName(v) + "' object is not subscriptable")
  }

  function Then(l: Lookup, f: PyValue -> Lookup): Lookup {
    if l.Found? then f(l.v) else l
  }

  /** `data['linksets'][0]['linksetdbs'][0]['links'][0]`. */
  function LinkedId(data: PyValue): Lookup {
    Then(Then(Then(Then(Then(Subscript(data, "linksets"), First),
      v => Subscript(v, "linksetdbs")), First), v => Subscript(v, "links")), First)
  }

  /** `get_pmcid_from_pmid` on the elink body: `PMC<id>` for the first linked
      article, `None` when a key or index is missing, and the exception
      when anything else goes wrong. */
  function Pmcid(data: PyValue, repr: PyValue -> string): (r: Result<Option<string>>)
    ensures LinkedId(data).Missing? ==> r == Ok(None)
    ensures LinkedId(data).Found? ==> r == Ok(Some("PMC" + StrOf(LinkedId(data).v, repr)))
    ensures LinkedId(data).Raised? ==> r.Err?
  {
    match LinkedId(data)
    case Found(v) => Ok(Some("PMC" + StrOf(v, repr)))
    case Missing => Ok(None)
    case Raised(m) => Err(m)
  }

  /** `summary_data.get("result", {}).get(pmid, {})`. A key that is not a
      string never matches the string keys of a JSON object; one that
      cannot be hashed raises. */
  function Docsum(data: PyValue, pmid: PyValue): (r: Result<seq<Entry>>)
    ensures !data.PyDict? ==> r.Err?
  {
    if !data.PyDict? then Err(NoGet(data))
    else
      var result := DictGet(data.entries, "result").GetOr(PyDict([]));
      if !result.PyDict? then Err(NoGet(result))
      else if !Hashable(pmid) then Err("unhashable type: '" + TypeName(pmid) + "'")
      else
        var doc := if pmid.PyStr? then DictGet(result.entries, pmid.s).GetOr(PyDict([])) else PyDict([]);
        if !doc.PyDict? then Err(NoGet(doc)) else Ok(doc.entries)
  }

  /** What a `for` loop over a JSON value visits: the items of a list, the
      keys of an object and the characters of a string. */
  function Iterate(v: PyValue): (r: Result<seq<PyValue>>)
    ensures v.PyList? ==> r == Ok(v.items)
    ensures v.PyDict? || v.PyStr? ==> r.Ok?
    ensures r.Ok? && v.PyDict? ==> |r.value| == |v.entries|
    ensures r.Ok? && v.PyStr? ==> |r.value| == |v.s|
  {
    match v
    case PyList(items) => Ok(items)
    case PyDict(entries) => Ok(seq(|entries|, i requires 0 <= i < |entries| => PyStr(entries[i].key)))
    case PyStr(s) => Ok(seq(|s|, i requires 0 <= i < |s| => PyStr([s[i]])))
    case _ => Err("'" + TypeName(v) + "' object is not iterable")
  }

  /** `[a.get("name") for a in authors]` over the visited values. */
  function Names(authors: seq<PyValue>): (r: Result<seq<PyValue>>)
    ensures r.Ok? <==> forall i :: 0 <= i < |authors| ==> authors[i].PyDict?
    ensures r.Ok? ==> |r.value| == |authors|
    ensures r.Ok? ==> forall i :: 0 <= i < |authors| ==> r.value[i] == DictGet(authors[i].entries, "name").GetOr(PyNone)
  {
    if |authors| == 0 then Ok([])
    else if !authors[0].PyDict? then Err(NoGet(authors[0]))
    else
      var rest :- Names(authors[1..]);
      Ok([DictGet(authors[0].entries, "name").GetOr(PyNone)] + rest)
  }

  /** An element `findall(".//AbstractText")` returns and the `if t.text`
      filter keeps: tag exactly `AbstractText`, non-empty text. */
  predicate KeptAbstract(e: Element) {
    e.tag == AbstractTag && e.text.Some? && e.text.value != ""
  }

  /** The texts of the kept abstract elements among `elems`, in order, as
      they are (they are not stripped). Applied to the descendants of the
      root (not the root itself) in document order. */
  function AbstractTexts(elems: seq<Element>): (r: seq<string>)
    ensures |r| <= |elems|
    ensures forall i :: 0 <= i < |r| ==> r[i] != ""
  {
    if |elems| == 0 then []
    else
      var e := elems[0];
      (if KeptAbstract(e) then [e.text.value] else []) + AbstractTexts(elems[1..])
  }

  /** Every kept element contributes its text, and every text comes from a
      kept element. */
  lemma {:induction false} AbstractTextsMembers(elems: seq<Element>)
    ensures forall i :: 0 <= i < |elems| && KeptAbstract(elems[i]) ==> elems[i].text.value in AbstractTexts(elems)
    ensures forall j :: 0 <= j < |AbstractTexts(elems)| ==>
              exists i :: 0 <= i < |elems| && KeptAbstract(elems[i]) && elems[i].text.value == AbstractTexts(elems)[j]
    decreases |elems|
  {
    if |elems| > 0 {
      var rest := elems[1..];
      AbstractTextsMembers(rest);
      var own := if KeptAbstract(elems[0]) then [elems[0].text.value] else [];
      assert AbstractTexts(elems) == own + AbstractTexts(rest);
      forall i | 0 <= i < |elems| && KeptAbstract(elems[i])
        ensures elems[i].text.value in AbstractTexts(elems)
      {
        if i > 0 {
          assert elems[i] == rest[i - 1];
        }
      }
      forall j | 0 <= j < |AbstractTexts(elems)|
        ensures exists i :: 0 <= i < |elems| && KeptAbstract(elems[i]) && elems[i].text.value == AbstractTexts(elems)[j]
      {
        if j < |own| {
          assert KeptAbstract(elems[0]) && elems[0].text.value == AbstractTexts(elems)[j];
        } else {
          var k := j - |own|;
          assert AbstractTexts(elems)[j] == AbstractTexts(rest)[k];
          var i' :| 0 <= i' < |rest| && KeptAbstract(rest[i']) && rest[i'].text.value == AbstractTexts(rest)[k];
          assert elems[i' + 1] == rest[i'];
        }
      }
    } else {
      assert AbstractTexts(elems) == [];
    }
  }

  /** Order is kept: the texts of two runs of elements are the texts of the
      first followed by those of the second. */
  lemma {:induction false} AbstractTextsAppend(a: seq<Element>, b: seq<Element>)
    ensures AbstractTexts(a + b) == AbstractTexts(a) + AbstractTexts(b)
    decreases |a|
  {
    if |a| == 0 {
      assert a + b == b;
    } else {
      assert (a + b)[0] == a[0] && (a + b)[1..] == a[1..] + b;
      AbstractTextsAppend(a[1..], b);
    }
  }

  /** The abstract texts defined on the tree itself: an element's own text
      comes before those of its children, taken left to right. */
  function TreeAbstracts(e: Element): seq<string>
    decreases e
  {
    (if KeptAbstract(e) then [e.text.value] else []) + TreeAbstractsAll(e.children)
  }

  function TreeAbstractsAll(es: seq<Element>): seq<string>
    decreases es
  {
    if |es| == 0 then [] else TreeAbstracts(es[0]) + TreeAbstractsAll(es[1..])
  }

  /** Scanning the descendants in document order collects exactly the tree's
      abstract texts. */
  lemma {:induction false} AbstractTextsIsTree(e: Element)
    ensures AbstractTexts(Iter(e)) == TreeAbstracts(e)
    decreases e
  {
    AbstractTextsAppend([e], IterAll(e.children));
    AbstractTextsAllIsTree(e.children);
  }

  lemma {:induction false} AbstractTextsAllIsTree(es: seq<Element>)
    ensures AbstractTexts(IterAll(es)) == TreeAbstractsAll(es)
    decreases es
  {
    if |es| > 0 {
      AbstractTextsAppend(Iter(es[0]), IterAll(es[1..]));
      AbstractTextsIsTree(es[0]);
      AbstractTextsAllIsTree(es[1..]);
    }
  }

  /** The text the paper is summarised from: the PMC full text when there is
      a linked article whose body parses to non-empty text; otherwise the
      abstract from efetch, where an unparsable body raises and a failed
      request gives the fixed notice. Either request may itself raise, and
      neither is inside a `try`. */
  function FullText(pmcid: Option<string>, r: Replies, parse: string -> Option<Element>): (t: Result<string>)
    ensures pmcid.Some? && r.pmcBody.Err? ==> t == Err(r.pmcBody.message)
    ensures PmcTextOf(pmcid, r, parse).Ok? && PmcTextOf(pmcid, r, parse).value != ""
            ==> t == PmcTextOf(pmcid, r, parse)
    ensures PmcTextOf(pmcid, r, parse) == Ok("") && r.abstractBody.Err? ==> t == Err(r.abstractBody.message)
    ensures PmcTextOf(pmcid, r, parse) == Ok("") && r.abstractBody == Ok(None) ==> t == Ok(AbstractMissing)
    ensures PmcTextOf(pmcid, r, parse) == Ok("") && r.abstractBody.Ok? && r.abstractBody.value.Some? ==>
              (t.Err? <==> parse(r.abstractBody.value.value).None?)
    ensures PmcTextOf(pmcid, r, parse) == Ok("") && r.abstractBody.Ok? && r.abstractBody.value.Some?
            && parse(r.abstractBody.value.value).Some? ==>
              t == Ok(Join(TreeAbstractsAll(parse(r.abstractBody.value.value).value.children), " "))
  {
    var pmc :- PmcTextOf(pmcid, r, parse);
    if pmc != "" then Ok(pmc)
    else
      var reply :- r.abstractBody;
      match reply
      case None => Ok(AbstractMissing)
      case Some(body) =>
        match parse(body)
        case None => Err(NotWellFormed)
        case Some(root) =>
          AbstractTextsAllIsTree(root.children);
          Ok(Join(AbstractTexts(IterAll(root.children)), " "))
  }

  /** The PMC text when there is one; `""` stands for Python's falsy `None`
      and `""` alike, which the route treats the same way. The article is
      only requested when there is a PMC id, and that request may raise. */
  function PmcTextOf(pmcid: Option<string>, r: Replies, parse: string -> Option<Element>): (t: Result<string>)
    ensures t.Err? <==> pmcid.Some? && r.pmcBody.Err?
    ensures pmcid.None? || r.pmcBody == Ok(None) ==> t == Ok("")
  {
    if pmcid.None? then Ok("")
    else
      var body :- r.pmcBody;
      if body.Some? && body.value != "" then Ok(Extracted(body.value, parse).GetOr(""))
      else Ok("")
  }

  /** `full_text[:max_len]`. */
  function Snippet(text: string): (r: string)
    ensures |r| <= MaxSnippet && |r| <= |text|
    ensures r == text[..|r|]
    ensures |text| <= MaxSnippet ==> r == text
    ensures |text| > MaxSnippet ==> |r| == MaxSnippet
  {
    if |text| <= MaxSnippet then text else text[..MaxSnippet]
  }

  /** The summariser's text, or the fixed notice when it raises. */
  function SummaryText(out: Result<string>): (r: string)
    ensures out.Ok? ==> r == out.value
    ensures out.Err? ==> r == SummaryFailed
  {
    if out.Ok? then out.value else SummaryFailed
  }

  /** The fields read from the PubMed summary of one paper. */
  datatype Meta = Meta(title: PyValue, authors: seq<PyValue>, pubDate: PyValue, source: PyValue)

  /** `docsum.get(...)` for the four summary fields, with their defaults; the
      author names raise when the authors value cannot be walked. */
  function ReadMeta(doc: seq<Entry>): (m: Result<Meta>)
    ensures m.Ok? <==> Iterate(DictGet(doc, "authors").GetOr(PyList([]))).Ok?
                       && Names(Iterate(DictGet(doc, "authors").GetOr(PyList([]))).value).Ok?
    ensures m.Ok? ==> m.value.authors == Names(Iterate(DictGet(doc, "authors").GetOr(PyList([]))).value).value
    ensures m.Ok? ==> m.value.title == DictGet(doc, "title").GetOr(PyStr(NoTitle))
    ensures m.Ok? ==> m.value.pubDate == DictGet(doc, "pubdate").GetOr(PyStr(UnknownDate))
    ensures m.Ok? ==> m.value.source == DictGet(doc, "source").GetOr(PyStr(DefaultSource))
    ensures DictGet(doc, "authors").None? ==> m == Ok(Meta(m.value.title, [], m.value.pubDate, m.value.source))
  {
    var visited :- Iterate(DictGet(doc, "authors").GetOr(PyList([])));
    var authors :- Names(visited);
    Ok(Meta(DictGet(doc, "title").GetOr(PyStr(NoTitle)), authors,
            DictGet(doc, "pubdate").GetOr(PyStr(UnknownDate)),
            DictGet(doc, "source").GetOr(PyStr(DefaultSource))))
  }

  /** The dictionary appended for one paper. */
  function PaperDict(m: Meta, url: string, snippet: string, summary: string): (p: seq<Entry>)
    ensures Keys(p) == PaperKeys()
  {
    [Entry("source", m.source), Entry("title", m.title), Entry("authors", PyList(m.authors)),
     Entry("publication_date", m.pubDate), Entry("url", PyStr(url)),
     Entry("full_text_snippet", PyStr(snippet)), Entry("summary", PyStr(summary))]
  }

  /** Each key of a paper holds the value it was built from: the summary fields, */
  lemma PaperDictMeta(m: Meta, url: string, snippet: string, summary: string)
    ensures var p := PaperDict(m, url, snippet, summary);
      && DictGet(p, "source") == Some(m.source)
      && DictGet(p, "title") == Some(m.title)
      && DictGet(p, "authors") == Some(PyList(m.authors))
      && DictGet(p, "publication_date") == Some(m.pubDate)
  {
    var p := PaperDict(m, url, snippet, summary);
    DictGetFirst(p, 0);
    DictGetFirst(p, 1);
    DictGetFirst(p, 2);
    DictGetFirst(p, 3);
  }

  /** ... and the url, the snippet and the summary. */
  lemma PaperDictText(m: Meta, url: string, snippet: string, summary: string)
    ensures var p := PaperDict(m, url, snippet, summary);
      && DictGet(p, "url") == Some(PyStr(url))
      && DictGet(p, "full_text_snippet") == Some(PyStr(snippet))
      && DictGet(p, "summary") == Some(PyStr(summary))
  {
    var p := PaperDict(m, url, snippet, summary);
    DictGetFirst(p, 4);
    DictGetFirst(p, 5);
    DictGetFirst(p, 6);
  }

  /** The text of one paper: the PMC link from elink, then the full text or
      the abstract. */
  function PaperText(r: Replies, parse: string -> Option<Element>, repr: PyValue -> string): (t: Result<string>)
    ensures r.link.Err? ==> t.Err?
    ensures t.Ok? ==> Pmcid(r.link.value, repr).Ok? && t == FullText(Pmcid(r.link.value, repr).value, r, parse)
    ensures r.pmcBody.Err? && r.abstractBody.Err? ==> t.Err?
  {
    var linkData :- r.link;
    var pmcid :- Pmcid(linkData, repr);
    FullText(pmcid, r, parse)
  }

  function PaperUrl(pmid: PyValue, repr: PyValue -> string): string {
    PaperUrlBase + StrOf(pmid, repr) + "/"
  }

  /** The body of one iteration of the per-paper loop (search.py, and app.py
      inside its per-paper `try`): the dictionary appended for `pmid`, or the
      exception the iteration raised. */
  function Paper(pmid: PyValue, r: Replies, parse: string -> Option<Element>,
                 summarise: string -> Result<string>, repr: PyValue -> string): (p: Result<PyValue>)
    ensures r.summary.Err? || r.link.Err? ==> p.Err?
    ensures r.pmcBody.Err? && r.abstractBody.Err? ==> p.Err?
    ensures p.Ok? <==> r.summary.Ok? && Docsum(r.summary.value, pmid).Ok?
                       && ReadMeta(Docsum(r.summary.value, pmid).value).Ok?
                       && PaperText(r, parse, repr).Ok?
    ensures p.Ok? ==> p.value.PyDict? && Keys(p.value.entries) == PaperKeys()
  {
    var data :- r.summary;
    var doc :- Docsum(data, pmid);
    var meta :- ReadMeta(doc);
    var text :- PaperText(r, parse, repr);
    var snippet := Snippet(text);
    Ok(PyDict(PaperDict(meta, PaperUrl(pmid, repr), snippet, SummaryText(summarise(snippet)))))
  }

  /** Whether the iteration for `pmid` completes does not depend on the
      summariser: its failure is caught and the paper is still emitted. */
  lemma SummariserNeverDrops(pmid: PyValue, r: Replies, parse: string -> Option<Element>,
                             s1: string -> Result<string>, s2: string -> Result<string>, repr: PyValue -> string)
    ensures Paper(pmid, r, parse, s1, repr).Ok? <==> Paper(pmid, r, parse, s2, repr).Ok?
  {
  }

  /** The fields of an emitted paper: the summary fields or their defaults,
      the author names read from the summary's author list,
      the url built from the id, the snippet as the first (at most) 1000
      characters of the chosen text, and the summary as the summariser's
      text or the failure notice. */
  lemma PaperFields(pmid: PyValue, r: Replies, parse: string -> Option<Element>,
                    summarise: string -> Result<string>, repr: PyValue -> string)
    requires Paper(pmid, r, parse, summarise, repr).Ok?
    ensures var doc := Docsum(r.summary.value, pmid).value;
      var text := PaperText(r, parse, repr).value;
      var p := Paper(pmid, r, parse, summarise, repr).value.entries;
      && DictGet(p, "title") == Some(DictGet(doc, "title").GetOr(PyStr(NoTitle)))
      && DictGet(p, "authors") == Some(PyList(Names(Iterate(DictGet(doc, "authors").GetOr(PyList([]))).value).value))
      && DictGet(p, "publication_date") == Some(DictGet(doc, "pubdate").GetOr(PyStr(UnknownDate)))
      && DictGet(p, "source") == Some(DictGet(doc, "source").GetOr(PyStr(DefaultSource)))
      && DictGet(p, "url") == Some(PyStr(PaperUrlBase + StrOf(pmid, repr) + "/"))
      && DictGet(p, "full_text_snippet") == Some(PyStr(Snippet(text)))
      && DictGet(p, "summary") == Some(PyStr(SummaryText(summarise(Snippet(text)))))
  {
    var doc := Docsum(r.summary.value, pmid).value;
    var text := PaperText(r, parse, repr).value;
    PaperDictMeta(ReadMeta(doc).value, PaperUrl(pmid, repr), Snippet(text), SummaryText(summarise(Snippet(text))));
    PaperDictText(ReadMeta(doc).value, PaperUrl(pmid, repr), Snippet(text), SummaryText(summarise(Snippet(text))));
  }
}

=== FILE: py_values.dfy ===
/** Python values as the Flask backend handles them: what `request.json`
    yields, the containers the routes build, and the pandas and numpy
    objects `make_json_serializable` converts. Floats are not modelled. */
module PyValues {
  import opened Wrappers
  import Decimal

  datatype PyValue =
    | PyNone
    | PyBool(b: bool)
    | PyInt(i: int)
    | PyStr(s: string)
    | PyList(items: seq<PyValue>)
    | PyDict(entries: seq<Entry>)
    /** A `pandas.DataFrame`: column names and rows of cells. */
    | Frame(columns: seq<string>, rows: seq<seq<PyValue>>)
    /** A `pandas.Series` and a one-dimensional `numpy.ndarray`. */
    | Series(values: seq<PyValue>)
    | NdArray(values: seq<PyValue>)
    /** Any other object; only its identity matters here. */
    | Opaque(name: string)

  /** One item of a dictionary, in insertion order. */
  datatype Entry = Entry(key: string, value: PyValue)

  /** `d.get(key)`: the value under `key`, if any (the keys of a `dict` are distinct). */
  function DictGet(entries: seq<Entry>, key: string): Option<PyValue> {
    if |entries| == 0 then None
    else if entries[0].key == key then Some(entries[0].value)
    else DictGet(entries[1..], key)
  }

  function Keys(entries: seq<Entry>): seq<string> {
    seq(|entries|, i requires 0 <= i < |entries| => entries[i].key)
  }

  /** A key that is present is found, with the value of its first entry. */
  lemma {:induction false} DictGetFirst(entries: seq<Entry>, i: nat)
    requires i < |entries|
    requires forall j :: 0 <= j < i ==> entries[j].key != entries[i].key
    ensures DictGet(entries, entries[i].key) == Some(entries[i].value)
    decreases i
  {
    if i > 0 {
      DictGetFirst(entries[1..], i - 1);
    }
  }

  /** A key no entry has is not found. */
  lemma {:induction false} DictGetMissing(entries: seq<Entry>, key: string)
    requires forall j :: 0 <= j < |entries| ==> entries[j].key != key
    ensures DictGet(entries, key) == None
    decreases |entries|
  {
    if |entries| > 0 {
      DictGetMissing(entries[1..], key);
    }
  }

  /** Python truthiness of the values a JSON body can hold. */
  predicate PyTruthy(v: PyValue) {
    match v
    case PyNone => false
    case PyBool(b) => b
    case PyInt(i) => i != 0
    case PyStr(s) => s != ""
    case PyList(items) => items != []
    case PyDict(entries) => entries != []
    case _ => true
  }

  /** What `request.json` can hold: no pandas, numpy or other objects. */
  predicate IsJson(v: PyValue) {
    match v
    case PyList(items) => forall i :: 0 <= i < |items| ==> IsJson(items[i])
    case PyDict(entries) => forall i :: 0 <= i < |entries| ==> IsJson(entries[i].value)
    case Frame(_, _) => false
    case Series(_) => false
    case NdArray(_) => false
    case Opaque(_) => false
    case _ => true
  }

  /** The name `type(v).__name__` gives. */
  function TypeName(v: PyValue): string {
    match v
    case PyNone => "NoneType"
    case PyBool(_) => "bool"
    case PyInt(_) => "int"
    case PyStr(_) => "str"
    case PyList(_) => "list"
    case PyDict(_) => "dict"
    case Frame(_, _) => "DataFrame"
    case Series(_) => "Series"
    case NdArray(_) => "ndarray"
    case Opaque(name) => name
  }

  const IntArgument := "int() argument must be a string, a bytes-like object or a real number, not '"
  const InvalidLiteral := "invalid literal for int() with base 10: '"

  /** `int(v)` for the values a JSON body can hold: numbers and numeric
      text convert, `None`, lists and dictionaries raise a `TypeError`. */
  function ToInt(v: PyValue): (r: Result<int>)
    ensures v.PyInt? ==> r == Ok(v.i)
    ensures v.PyStr? ==> (r.Ok? <==> Decimal.PyParseInt(v.s).Some?)
    ensures v.PyStr? && r.Ok? ==> r.value == Decimal.PyParseInt(v.s).value
    ensures v.PyStr? && r.Err? ==> r.message == InvalidLiteral + v.s + "'"
    ensures v.PyNone? || v.PyList? || v.PyDict? ==> r == Err(IntArgument + TypeName(v) + "'")
  {
    if v.PyInt? then Ok(v.i)
    else if v.PyBool? then Ok(if v.b then 1 else 0)
    else if v.PyStr? then
      if Decimal.PyParseInt(v.s).Some? then Ok(Decimal.PyParseInt(v.s).value)
      else Err(InvalidLiteral + v.s + "'")
    else Err(IntArgument + TypeName(v) + "'")
  }

  /** `int(str(n)) == n`: the decimal text of an integer converts back to it. */
  lemma ToIntShow(n: int)
    ensures ToInt(PyStr(Decimal.Show(n))) == Ok(n)
  {
    Decimal.PyParseIntShow(n);
  }

  /** `str(v)` for the scalar values; other values are written by `repr`. */
  function StrOf(v: PyValue, repr: PyValue -> string): string {
    match v
    case PyNone => "None"
    case PyBool(b) => if b then "True" else "False"
    case PyInt(i) => Decimal.Show(i)
    case PyStr(s) => s
    case _ => repr(v)
  }

  /** Whether `v` can be a dictionary key (`in synthesizers` hashes it). */
  predicate Hashable(v: PyValue) {
    !(v.PyList? || v.PyDict? || v.Frame? || v.Series? || v.NdArray?)
  }

  /** What a Flask route produces: a JSON body with a status code, or an
      exception it does not catch, which Flask answers with a 500 error page. */
  datatype Reply = Json(status: int, body: PyValue) | Crash(message: string)

  /** `jsonify({"error": message}), status`. */
  function ErrorReply(status: int, message: string): Reply {
    Json(status, PyDict([Entry("error", PyStr(message))]))
  }
}

=== FILE: search_routes.dfy ===
/** The two `/search` routes: the one in search.py, where any failure
    escapes to Flask, and the one in app.py, which checks the query, skips
    the papers that fail and answers every other failure with a 500 body. */
module SearchRoutes {
  import opened Wrappers
  import opened PyValues
  import opened PmcText
  import opened PubMed
  import opened StepOutcomes

  const DefaultMaxResults := 5
  const QueryRequired := "Query is required"
  const QueryKey := "query"
  const MaxResultsKey := "max_results"
  const ResultKey := "esearchresult"
  const IdListKey := "idlist"
  const PubMedKey := "pubmed"

  /** Everything outside the route: the esearch request (made with the
      query's text and the result count), the replies about each PubMed id,
      the XML parser, the summariser and Python's `repr`. */
  datatype Env = Env(
    esearch: (string, int) -> Result<PyValue>,
    replies: PyValue -> Replies,
    parse: string -> Option<Element>,
    summarise: string -> Result<string>,
    repr: PyValue -> string)

  function PaperOf(env: Env, pmid: PyValue): Result<PyValue> {
    Paper(pmid, env.replies(pmid), env.parse, env.summarise, env.repr)
  }

  /** `data.get('query')`. */
  function Query(body: seq<Entry>): PyValue {
    DictGet(body, QueryKey).GetOr(PyNone)
  }

  /** `int(data.get('max_results', 5))`. */
  function MaxResults(body: seq<Entry>): (r: Result<int>)
    ensures DictGet(body, MaxResultsKey).None? ==> r == Ok(DefaultMaxResults)
    ensures DictGet(body, MaxResultsKey) == Some(PyNone) ==> r.Err?
    ensures forall n :: DictGet(body, MaxResultsKey) == Some(PyInt(n)) ==> r == Ok(n)
  {
    ToInt(DictGet(body, MaxResultsKey).GetOr(PyInt(DefaultMaxResults)))
  }

  /** `fetch_pubmed_pmids`: `data.get("esearchresult", {}).get("idlist", [])`,
      then what the `for` loop over it visits. */
  function Pmids(data: PyValue): (r: Result<seq<PyValue>>)
    ensures !data.PyDict? ==> r.Err?
  {
    if !data.PyDict? then Err(NoGet(data))
    else
      var result := DictGet(data.entries, ResultKey).GetOr(PyDict([]));
      if !result.PyDict? then Err(NoGet(result))
      else Iterate(DictGet(result.entries, IdListKey).GetOr(PyList([])))
  }

  /** The ids the search returns for `query`, asking for `maxResults` of them. */
  function FoundPmids(env: Env, query: PyValue, maxResults: int): Result<seq<PyValue>> {
    var data :- env.esearch(StrOf(query, env.repr), maxResults);
    Pmids(data)
  }

  /** `{"pubmed": papers}`. */
  function Found(papers: seq<PyValue>): PyValue {
    PyDict([Entry(PubMedKey, PyList(papers))])
  }

  /** The outcome of each id's iteration, in id order. */
  function Outcomes(env: Env, pmids: seq<PyValue>): (r: seq<Result<PyValue>>)
    ensures |r| == |pmids|
  {
    seq(|pmids|, i requires 0 <= i < |pmids| => PaperOf(env, pmids[i]))
  }

  function AllPapers(env: Env, pmids: seq<PyValue>): Result<seq<PyValue>> {
    AllOk(Outcomes(env, pmids))
  }

  /** The papers search.py answers with, or the exception that escapes. */
  function ScriptPapers(body: PyValue, env: Env): Result<seq<PyValue>> {
    if !body.PyDict? then Err(NoGet(body))
    else
      var maxResults :- MaxResults(body.entries);
      var pmids :- FoundPmids(env, Query(body.entries), maxResults);
      AllPapers(env, pmids)
  }

  /** `search()` in search.py. There is no check on the query: an absent or
      empty one is sent to esearch as it is. */
  function ScriptSearch(body: PyValue, env: Env): (r: Reply)
    ensures r.Json? ==> r.status == 200
    ensures r.Json? <==> ScriptPapers(body, env).Ok?
  {
    match ScriptPapers(body, env)
    case Ok(papers) => Json(200, Found(papers))
    case Err(m) => Crash(m)
  }

  /** search.py answers with one paper per id, in the order esearch gave. */
  lemma ScriptOnePaperPerPmid(body: PyValue, env: Env)
    requires ScriptSearch(body, env).Json?
    ensures body.PyDict? && MaxResults(body.entries).Ok?
    ensures var pmids := FoundPmids(env, Query(body.entries), MaxResults(body.entries).value);
      && pmids.Ok?
      && ScriptSearch(body, env) == Json(200, Found(AllPapers(env, pmids.value).value))
      && |AllPapers(env, pmids.value).value| == |pmids.value|
  {
  }

  function Successful(env: Env, pmids: seq<PyValue>): seq<PyValue> {
    Oks(Outcomes(env, pmids))
  }

  /** The route of app.py without its outer `try`: the exception, a 400 for
      a missing query, or the completed papers. */
  function AppPapers(body: PyValue, env: Env): Result<Reply> {
    if !body.PyDict? then Err(NoGet(body))
    else
      var maxResults :- MaxResults(body.entries);
      if !PyTruthy(Query(body.entries)) then Ok(ErrorReply(400, QueryRequired))
      else
        var pmids :- FoundPmids(env, Query(body.entries), maxResults);
        Ok(Json(200, Found(Successful(env, pmids))))
  }

  /** `search()` in app.py: every exception becomes a 500 with its message. */
  function AppSearch(body: PyValue, env: Env): (r: Reply)
    ensures r.Json?
    ensures r.status == 200 || r.status == 400 || r.status == 500
    ensures !body.PyDict? ==> r == ErrorReply(500, NoGet(body))
  {
    match AppPapers(body, env)
    case Ok(reply) => reply
    case Err(m) => ErrorReply(500, m)
  }

  /** A missing or empty query is refused with 400 before any request is
      made, once `max_results` has converted; a `max_results` that does not
      convert gives 500 even then, because it is converted first. */
  lemma EmptyQuery(body: seq<Entry>, env: Env)
    requires !PyTruthy(Query(body))
    ensures MaxResults(body).Ok? ==> AppSearch(PyDict(body), env) == ErrorReply(400, QueryRequired)
    ensures MaxResults(body).Err? ==> AppSearch(PyDict(body), env) == ErrorReply(500, MaxResults(body).message)
  {
  }

  /** When the query is set and every paper completes, the two routes give
      the same answer. */
  lemma RoutesAgree(body: seq<Entry>, env: Env)
    requires PyTruthy(Query(body))
    requires ScriptSearch(PyDict(body), env).Json?
    ensures AppSearch(PyDict(body), env) == ScriptSearch(PyDict(body), env)
  {
    var pmids := FoundPmids(env, Query(body), MaxResults(body).value).value;
    OksAllOk(Outcomes(env, pmids));
  }

  /** app.py never answers with more papers than esearch gave ids. */
  lemma AppAtMostOnePerPmid(body: seq<Entry>, env: Env)
    requires AppSearch(PyDict(body), env).status == 200
    ensures MaxResults(body).Ok?
    ensures var pmids := FoundPmids(env, Query(body), MaxResults(body).value);
      && pmids.Ok?
      && AppSearch(PyDict(body), env) == Json(200, Found(Successful(env, pmids.value)))
      && |Successful(env, pmids.value)| <= |pmids.value|
  {
  }
}

=== FILE: serializable.dfy ===
/** `make_json_serializable`: turns the pandas and numpy objects in a
    validation report into lists and dictionaries, keeping the structure of
    everything else. */
module Serializable {
  import opened Wrappers
  import opened PyValues

  /** `d[key] = value`: an existing key keeps its position and takes the new
      value, a new key is appended. */
  function DictSet(entries: seq<Entry>, key: string, value: PyValue): (r: seq<Entry>)
    ensures DictGet(r, key) == Some(value)
    ensures forall k :: k != key ==> DictGet(r, k) == DictGet(entries, k)
    ensures DictGet(entries, key).Some? ==> Keys(r) == Keys(entries)
    ensures DictGet(entries, key).None? ==> Keys(r) == Keys(entries) + [key]
    ensures forall i :: 0 <= i < |r| ==> r[i].value == value || r[i] in entries
  {
    if |entries| == 0 then [Entry(key, value)]
    else if entries[0].key == key then [Entry(key, value)] + entries[1..]
    else
      var rest := DictSet(entries[1..], key, value);
      assert Keys([entries[0]] + rest) == [entries[0].key] + Keys(rest);
      assert Keys(entries) == [entries[0].key] + Keys(entries[1..]);
      [entries[0]] + rest
  }

  /** One record of `DataFrame.to_dict(orient='records')`: `dict(zip(columns, row))`,
      so a repeated column name keeps its first position and its last cell. */
  function Record(columns: seq<string>, row: seq<PyValue>): (r: seq<Entry>)
    ensures forall i :: 0 <= i < |r| ==> r[i].value in row
    decreases |columns|
  {
    var n := if |columns| < |row| then |columns| else |row|;
    if n == 0 then []
    else DictSet(Record(columns[..n - 1], row[..n - 1]), columns[n - 1], row[n - 1])
  }

  function MakeJsonSerializable(v: PyValue): (r: PyValue)
    ensures v.PyDict? ==> r.PyDict? && Keys(r.entries) == Keys(v.entries)
    ensures v.PyList? ==> r.PyList? && |r.items| == |v.items|
    ensures v.Frame? ==> r.PyList? && |r.items| == |v.rows|
    ensures v.Series? || v.NdArray? ==> r == PyList(v.values)
    ensures !(v.PyDict? || v.PyList? || v.Frame? || v.Series? || v.NdArray?) ==> r == v
    decreases v
  {
    match v
    case Frame(columns, rows) =>
      PyList(seq(|rows|, i requires 0 <= i < |rows| => PyDict(Record(columns, rows[i]))))
    case Series(values) => PyList(values)
    case NdArray(values) => PyList(values)
    case PyDict(entries) =>
      PyDict(seq(|entries|, i requires 0 <= i < |entries| =>
                   Entry(entries[i].key, MakeJsonSerializable(entries[i].value))))
    case PyList(items) =>
      PyList(seq(|items|, i requires 0 <= i < |items| => MakeJsonSerializable(items[i])))
    case _ => v
  }

  /** Values with no pandas or numpy object anywhere inside. */
  predicate Plain(v: PyValue)
    decreases v
  {
    match v
    case PyList(items) => forall i :: 0 <= i < |items| ==> Plain(items[i])
    case PyDict(entries) => forall i :: 0 <= i < |entries| ==> Plain(entries[i].value)
    case Frame(_, _) => false
    case Series(_) => false
    case NdArray(_) => false
    case _ => true
  }

  /** Values whose pandas and numpy objects hold only plain cells: the ones
      a single pass converts completely. */
  predicate Convertible(v: PyValue)
    decreases v
  {
    match v
    case PyList(items) => forall i :: 0 <= i < |items| ==> Convertible(items[i])
    case PyDict(entries) => forall i :: 0 <= i < |entries| ==> Convertible(entries[i].value)
    case Frame(_, rows) => forall i, j :: 0 <= i < |rows| && 0 <= j < |rows[i]| ==> Plain(rows[i][j])
    case Series(values) => forall i :: 0 <= i < |values| ==> Plain(values[i])
    case NdArray(values) => forall i :: 0 <= i < |values| ==> Plain(values[i])
    case _ => true
  }

  /** Plain values come back unchanged: lists and dictionaries are rebuilt
      with the same keys, lengths and contents. */
  lemma {:induction false} PlainUnchanged(v: PyValue)
    requires Plain(v)
    ensures MakeJsonSerializable(v) == v
    decreases v
  {
    match v
    case PyList(items) =>
      var r := MakeJsonSerializable(v).items;
      forall i | 0 <= i < |items|
        ensures r[i] == items[i]
      {
        PlainUnchanged(items[i]);
      }
      assert r == items;
    case PyDict(entries) =>
      var r := MakeJsonSerializable(v).entries;
      forall i | 0 <= i < |entries|
        ensures r[i] == entries[i]
      {
        PlainUnchanged(entries[i].value);
      }
      assert r == entries;
    case _ =>
  }

  /** A convertible value comes back plain: every data frame, series and
      array has become lists and dictionaries. */
  lemma {:induction false} ConvertedIsPlain(v: PyValue)
    requires Convertible(v)
    ensures Plain(MakeJsonSerializable(v))
    decreases v
  {
    match v
    case PyList(items) =>
      forall i | 0 <= i < |items|
        ensures Plain(MakeJsonSerializable(items[i]))
      {
        ConvertedIsPlain(items[i]);
      }
    case PyDict(entries) =>
      forall i | 0 <= i < |entries|
        ensures Plain(MakeJsonSerializable(entries[i].value))
      {
        ConvertedIsPlain(entries[i].value);
      }
    case Frame(columns, rows) =>
      var r := MakeJsonSerializable(v).items;
      forall i | 0 <= i < |rows|
        ensures Plain(r[i])
      {
        var record := Record(columns, rows[i]);
        assert r[i] == PyDict(record);
        forall k | 0 <= k < |record|
          ensures Plain(record[k].value)
        {
          var j :| 0 <= j < |rows[i]| && rows[i][j] == record[k].value;
        }
      }
    case _ =>
  }

  /** Converting twice is converting once. */
  lemma ConvertIdempotent(v: PyValue)
    requires Convertible(v)
    ensures MakeJsonSerializable(MakeJsonSerializable(v)) == MakeJsonSerializable(v)
  {
    ConvertedIsPlain(v);
    PlainUnchanged(MakeJsonSerializable(v));
  }

  /** What a request body can hold is plain, so it passes through unchanged. */
  lemma {:induction false} JsonIsPlain(v: PyValue)
    requires IsJson(v)
    ensures Plain(v)
    decreases v
  {
    match v
    case PyList(items) =>
      forall i | 0 <= i < |items|
        ensures Plain(items[i])
      {
        JsonIsPlain(items[i]);
      }
    case PyDict(entries) =>
      forall i | 0 <= i < |entries|
        ensures Plain(entries[i].value)
      {
        JsonIsPlain(entries[i].value);
      }
    case _ =>
  }
}

=== FILE: step_outcomes.dfy ===
/** Sequences of step outcomes: what a loop yields when the first failure
    escapes, and when each failure is caught and skipped. */
module StepOutcomes {
  import opened Wrappers

  /** All values when every step succeeded, otherwise the first failure
      (a loop whose first exception escapes). */
  function AllOk<T>(rs: seq<Result<T>>): (r: Result<seq<T>>)
    ensures r.Ok? <==> forall i :: 0 <= i < |rs| ==> rs[i].Ok?
    ensures r.Ok? ==> |r.value| == |rs|
    ensures r.Ok? ==> forall i :: 0 <= i < |rs| ==> r.value[i] == rs[i].value
  {
    if |rs| == 0 then Ok([])
    else
      var first :- rs[0];
      var rest :- AllOk(rs[1..]);
      Ok([first] + rest)
  }

  /** The values of the steps that succeeded, in order (a loop that catches
      each step's exception and skips it). */
  function Oks<T>(rs: seq<Result<T>>): (r: seq<T>)
    ensures |r| <= |rs|
  {
    if |rs| == 0 then []
    else (if rs[0].Ok? then [rs[0].value] else []) + Oks(rs[1..])
  }

  /** When nothing fails, skipping failures changes nothing. */
  lemma {:induction false} OksAllOk<T>(rs: seq<Result<T>>)
    requires forall i :: 0 <= i < |rs| ==> rs[i].Ok?
    ensures Oks(rs) == AllOk(rs).value
    decreases |rs|
  {
    if |rs| > 0 {
      OksAllOk(rs[1..]);
    }
  }

  function Shift(idx: seq<nat>): (r: seq<nat>)
    ensures |r| == |idx|
    ensures forall k :: 0 <= k < |idx| ==> r[k] == idx[k] + 1
  {
    seq(|idx|, k requires 0 <= k < |idx| => idx[k] + 1)
  }

  /** The positions of the steps that succeeded. */
  function OkIndices<T>(rs: seq<Result<T>>): seq<nat> {
    if |rs| == 0 then [] else (if rs[0].Ok? then [0] else []) + Shift(OkIndices(rs[1..]))
  }

  /** Every listed position is a success, and the positions increase. */
  lemma {:induction false} OkIndicesSound<T>(rs: seq<Result<T>>)
    ensures forall k :: 0 <= k < |OkIndices(rs)| ==> OkIndices(rs)[k] < |rs| && rs[OkIndices(rs)[k]].Ok?
    ensures forall k, l :: 0 <= k < l < |OkIndices(rs)| ==> OkIndices(rs)[k] < OkIndices(rs)[l]
    decreases |rs|
  {
    if |rs| > 0 {
      OkIndicesSound(rs[1..]);
      var rest := OkIndices(rs[1..]);
      var head: seq<nat> := if rs[0].Ok? then [0] else [];
      var idx := head + Shift(rest);
      assert OkIndices(rs) == idx;
      forall k | 0 <= k < |idx|
        ensures idx[k] < |rs| && rs[idx[k]].Ok?
      {
        if k >= |head| {
          var j := k - |head|;
          assert idx[k] == rest[j] + 1;
          assert rs[1..][rest[j]] == rs[rest[j] + 1];
        }
      }
    }
  }

  /** Every success is listed. */
  lemma {:induction false} OkIndicesComplete<T>(rs: seq<Result<T>>, i: nat)
    requires i < |rs| && rs[i].Ok?
    ensures i in OkIndices(rs)
    decreases |rs|
  {
    if i > 0 {
      assert rs[1..][i - 1] == rs[i];
      OkIndicesComplete(rs[1..], i - 1);
      var rest := OkIndices(rs[1..]);
      var k :| 0 <= k < |rest| && rest[k] == i - 1;
      assert Shift(rest)[k] == i;
      assert OkIndices(rs) == (if rs[0].Ok? then [0] else []) + Shift(rest);
    }
  }

  /** The kept values are exactly the values at the successful positions:
      a subsequence of the outcomes that keeps every success. */
  lemma {:induction false} OksAtOkIndices<T>(rs: seq<Result<T>>)
    ensures |Oks(rs)| == |OkIndices(rs)|
    ensures forall k :: 0 <= k < |OkIndices(rs)| ==>
              OkIndices(rs)[k] < |rs| && rs[OkIndices(rs)[k]] == Ok(Oks(rs)[k])
    decreases |rs|
  {
    if |rs| > 0 {
      OksAtOkIndices(rs[1..]);
      var rest := OkIndices(rs[1..]);
      var head: seq<nat> := if rs[0].Ok? then [0] else [];
      var kept: seq<T> := if rs[0].Ok? then [rs[0].value] else [];
      assert OkIndices(rs) == head + Shift(rest);
      assert Oks(rs) == kept + Oks(rs[1..]);
      forall k | |head| <= k < |OkIndices(rs)|
        ensures OkIndices(rs)[k] < |rs| && rs[OkIndices(rs)[k]] == Ok(Oks(rs)[k])
      {
        var j := k - |head|;
        assert rs[1..][rest[j]] == rs[rest[j] + 1];
      }
    }
  }
}

=== FILE: text.dfy ===
/** Character classes and the string helpers the two runtimes provide:
    JavaScript's `trim` and `\s`, Python's `str.strip`, and `join`. */
module Text {

  /** JavaScript white space and line terminators: the set matched by `\s`
      and removed by `String.prototype.trim` (ECMA-262, sections 12.2 and 12.3). */
  predicate IsJsSpace(c: char) {
    || ('\t' <= c <= '\r') || c == ' ' || c == '\U{A0}' || c == '\U{1680}'
    || ('\U{2000}' <= c <= '\U{200A}') || c == '\U{2028}' || c == '\U{2029}'
    || c == '\U{202F}' || c == '\U{205F}' || c == '\U{3000}' || c == '\U{FEFF}'
  }

  /** Python's `str.isspace` for one character: the characters `str.strip()`
      removes when called without arguments. */
  predicate IsPySpace(c: char) {
    || ('\t' <= c <= '\r') || ('\U{1C}' <= c <= ' ') || c == '\U{85}' || c == '\U{A0}'
    || c == '\U{1680}' || ('\U{2000}' <= c <= '\U{200A}') || c == '\U{2028}' || c == '\U{2029}'
    || c == '\U{202F}' || c == '\U{205F}' || c == '\U{3000}'
  }

  predicate NoJsSpace(s: string) {
    forall i :: 0 <= i < |s| ==> !IsJsSpace(s[i])
  }

  /** Which runtime's notion of white space a trimming function uses. */
  datatype Runtime = JavaScript | Python

  predicate IsSpace(rt: Runtime, c: char) {
    match rt
    case JavaScript => IsJsSpace(c)
    case Python => IsPySpace(c)
  }

  /** Drops the longest prefix of white-space characters. */
  function DropLeadingSpace(rt: Runtime, s: string): (r: string)
    ensures |r| <= |s| && r == s[|s| - |r|..]
    ensures r == [] || !IsSpace(rt, r[0])
  {
    if |s| == 0 || !IsSpace(rt, s[0]) then s else DropLeadingSpace(rt, s[1..])
  }

  /** Drops the longest suffix of white-space characters. */
  function DropTrailingSpace(rt: Runtime, s: string): (r: string)
    ensures |r| <= |s| && r == s[..|r|]
    ensures r == [] || !IsSpace(rt, r[|r| - 1])
  {
    if |s| == 0 || !IsSpace(rt, s[|s| - 1]) then s else DropTrailingSpace(rt, s[..|s| - 1])
  }

  /** `String.prototype.trim`. */
  function JsTrim(s: string): string {
    DropTrailingSpace(JavaScript, DropLeadingSpace(JavaScript, s))
  }

  /** `str.strip()` without arguments. */
  function PyStrip(s: string): string {
    DropTrailingSpace(Python, DropLeadingSpace(Python, s))
  }

  /** `sep.join(parts)` in Python, `parts.join(sep)` in JavaScript. */
  function Join(parts: seq<string>, sep: string): string {
    if |parts| == 0 then ""
    else if |parts| == 1 then parts[0]
    else parts[0] + sep + Join(parts[1..], sep)
  }

  /** The concatenation of `parts` with no separator. */
  function Concat(parts: seq<string>): string {
    if |parts| == 0 then "" else parts[0] + Concat(parts[1..])
  }

  predicate IsDigit(c: char) {
    '0' <= c <= '9'
  }
}

=== FILE: vital_and_obv.dfy ===
/** The vitals-and-observations page: three nursing tables whose validation
    view opens only once a column is selected, and whose display names come
    from the mappings without a fallback. */
module VitalAndObv {
  import opened Wrappers
  import opened JsValues
  import opened ColumnMapping
  import DownloadControls
  import Api

  const NurseAssessmentMapping: Mapping := [
    ("nurseassessid", "Nurse Assessment ID"),
    ("patientunitstayid", "Patient Unit Stay ID"),
    ("nurseassessoffset", "Assessment Offset"),
    ("nurseassessentryoffset", "Entry Offset"),
    ("cellattributepath", "Attribute Path"),
    ("celllabel", "Cell Label"),
    ("cellattribute", "Cell Attribute"),
    ("cellattributevalue", "Attribute Value")]

  const NurseCareMapping: Mapping := [
    ("nursecareid", "Nurse Care ID"),
    ("patientunitstayid", "Patient Unit Stay ID"),
    ("celllabel", "Cell Label"),
    ("nursecareoffset", "Care Offset"),
    ("nursecareentryoffset", "Entry Offset"),
    ("cellattributepath", "Attribute Path"),
    ("cellattribute", "Cell Attribute"),
    ("cellattributevalue", "Attribute Value")]

  const NurseChartingMapping: Mapping := [
    ("nursingchartid", "Nursing Chart ID"),
    ("patientunitstayid", "Patient Unit Stay ID"),
    ("nursingchartoffset", "Chart Offset"),
    ("nursingchartentryoffset", "Entry Offset"),
    ("nursingchartcelltypecat", "Cell Type Category"),
    ("nursingchartcelltypevallabel", "Cell Type Value Label"),
    ("nursingchartcelltypevalname", "Cell Type Value Name"),
    ("nursingchartvalue", "Chart Value")]

  /** `Object.keys` of each section's mapping, the list its select offers. */
  const Options: map<string, seq<string>> := map["nurseAssessment" := Keys(NurseAssessmentMapping), "nurseCare" := Keys(NurseCareMapping), "nurseCharting" := Keys(NurseChartingMapping)]

  /** The backend table each section's download button asks for. */
  const Tables: map<string, string> := map["nurseAssessment" := "nurseAssessment", "nurseCare" := "nurseCare", "nurseCharting" := "nurseCharting"]

  /** The table name the validation view shows; a section the chain does
      not know shows its own key. */
  function TableDisplay(section: string): (name: string)
    ensures section == "nurseAssessment" ==> name == "Nurse Assessment Data"
    ensures section == "nurseCare" ==> name == "Nurse Care Data"
    ensures section == "nurseCharting" ==> name == "Nurse Charting Data"
    ensures section != "nurseAssessment" && section != "nurseCare" && section != "nurseCharting" ==> name == section
  {
    if section == "nurseAssessment" then "Nurse Assessment Data"
    else if section == "nurseCare" then "Nurse Care Data"
    else if section == "nurseCharting" then "Nurse Charting Data"
    else section
  }

  /** The display name of the validation column: the section's mapping
      entry, with no fallback (`None` is `undefined`), or the raw column for
      a section the chain does not know. */
  function ColumnDisplay(section: string, column: string): (d: Option<string>)
    ensures section == "nurseAssessment" ==> d == Entry(NurseAssessmentMapping, column)
    ensures section == "nurseCare" ==> d == Entry(NurseCareMapping, column)
    ensures section == "nurseCharting" ==> d == Entry(NurseChartingMapping, column)
    ensures section != "nurseAssessment" && section != "nurseCare" && section != "nurseCharting" ==> d == Some(column)
  {
    if section == "nurseAssessment" then Entry(NurseAssessmentMapping, column)
    else if section == "nurseCare" then Entry(NurseCareMapping, column)
    else if section == "nurseCharting" then Entry(NurseChartingMapping, column)
    else Some(column)
  }

  function Policy(section: string): DownloadControls.ViewPolicy {
    DownloadControls.ViewPolicy(TableDisplay(section), column => ColumnDisplay(section, column), true)
  }

  /** The download button of a section, wired to the backend table of the same name. */
  function Download(p: DownloadControls.Page, section: string, server: Api.Server,
                    atob: string -> Result<string>): (h: DownloadControls.Handled)
    requires section in Tables
    ensures h.Blocked? <==> DownloadControls.Flag(p.showWarning, section)
    ensures h.Ran? ==> h.exchange.body == Api.RequestBody(Tables[section],
                                                          DownloadControls.NumRowsArg(p, section),
                                                          DownloadControls.ValidationColumnArg(p, section))
    ensures h.Ran? && h.saved.Some? ==> h.saved.value.name == Tables[section] + "_synthetic.csv"
  {
    DownloadControls.Download(p, section, Tables[section], Policy(section), server, atob)
  }

  /** After a saved download the view opens only when validation is on and a
      column is selected, and shows the section's display names. */
  lemma DownloadView(p: DownloadControls.Page, section: string, server: Api.Server,
                     atob: string -> Result<string>)
    requires section in Tables
    ensures var h := Download(p, section, server, atob);
      && (h.Ran? && h.saved.Some? ==>
            (h.view.Some? <==> DownloadControls.Flag(p.isValidationEnabled, section)
                               && DownloadControls.SelectedColumn(p, section) != ""))
      && (h.Ran? && h.view.Some? ==>
            && h.view.value.validationColumn != ""
            && h.view.value.tableName == TableDisplay(section)
            && h.view.value.validationColumnDisplay == ColumnDisplay(section, h.view.value.validationColumn))
  {
  }

  /** Every section asks the backend for the table of its own name. */
  lemma TablesNamedBySection()
    ensures forall s :: s in Tables ==> Tables[s] == s
  {
  }

  lemma SectionsAgree()
    ensures Options.Keys == Tables.Keys
    ensures forall s :: s in Options ==> Named(ColumnMappingOf(s)) && Options[s] == Keys(ColumnMappingOf(s)) && |Options[s]| > 0
  {
    NurseAssessmentMappingNamed();
    NurseCareMappingNamed();
    NurseChartingMappingNamed();
  }

  lemma NurseAssessmentMappingNamed()
    ensures Named(NurseAssessmentMapping)
  {
  }

  lemma NurseCareMappingNamed()
    ensures Named(NurseCareMapping)
  {
  }

  lemma NurseChartingMappingNamed()
    ensures Named(NurseChartingMapping)
  {
  }

  /** The mapping each known section's display names come from. */
  function ColumnMappingOf(section: string): Mapping {
    if section == "nurseAssessment" then NurseAssessmentMapping else if section == "nurseCare" then NurseCareMapping else if section == "nurseCharting" then NurseChartingMapping else []
  }

  /** Every column the select offers has a display name, so the view never
      receives an `undefined` display name for a selectable column. */
  lemma OptionDisplayName(section: string, column: string)
    requires section in Options && column in Options[section]
    ensures ColumnDisplay(section, column).Some? && ColumnDisplay(section, column).value != ""
  {
    SectionsAgree();
    EntryIffKey(ColumnMappingOf(section), column);
    EntryNamed(ColumnMappingOf(section), column);
  }

  /** The initial state satisfies the download-control invariant, so every
      reachable state does. */
  lemma InitialInv()
    ensures DownloadControls.Inv(DownloadControls.Initial(Options.Keys), Options)
  {
    SectionsAgree();
    DownloadControls.InitialInv(Options);
  }
}

=== FILE: wrappers.dfy ===
/** Failure-carrying datatypes shared by every module of the model. */
module Wrappers {

  /** A value that may be absent: `None` stands for JavaScript's `null`/`NaN`
      or Python's `None`, depending on where it is used. */
  datatype Option<+T> = None | Some(value: T) {
    function GetOr(default: T): T {
      match this
      case Some(v) => v
      case None => default
    }
  }

  /** The outcome of a step that may throw: `Err` carries the exception's message. */
  datatype Result<+T> = Ok(value: T) | Err(message: string) {
    predicate IsFailure() {
      Err?
    }

    function PropagateFailure<U>(): Result<U>
      requires Err?
    {
      Err(message)
    }

    function Extract(): T
      requires Ok?
    {
      value
    }
  }
}
